=== FILE: README.md ===
# Interactive 3D solar-system portfolio: a verified model of its decision logic

The portfolio site shows one "planet" per section of a résumé (about, skills,
education, projects, tools, experience, and three outer planets). This project
models in Dafny the logic behind the 3D scene, not the scene itself:

- **The capability gate.** It works out which browser is running and whether
  the page is served from a sandboxed https origin. From that it decides
  whether to skip the 3D scene, and which browser to recommend.
- **The fallback screen.** It shows a Chrome banner and a status text, and
  its "Try 3D Anyway" button sets the `#force-3d` fragment.
- **The WebGL canvas wrapper.** It keeps three pieces of state (the captured
  error, the retry count, and whether the canvas is still initialising),
  rotates through three context configurations and chooses the view.
- **The planet data and its types.** This covers the nine planets, their
  ids, orbits and colours, and the typed content sections.
- **The global store.** It holds the current and selected planet, the modal
  flag, the shuttle with its 20-point fading trail, and the camera, together
  with every store action.
- **The app shell and the navigation menu.** This covers click handling, the
  loading gate, modal visibility, the highlighted entry and the mobile menu.
- **The planet colour helpers.** These are `adjustBrightness` on `#rrggbb`
  strings, the material colour switch and the atmosphere colour switch.
- **The performance utilities.** These are the FPS monitor, the
  level-of-detail manager, and the texture, geometry and disposable caches.
- **The accessibility helpers.** These are the scene description, the
  alternative text, the eight-way direction and the focus-trap Tab rule.
- **The SEO head manager.** It merges meta data with defaults, upserts meta
  and link tags, and replaces the structured-data script.

Each source file becomes one module:

| module | file |
|---|---|
| `JsValues` | `js_values.dfy` (JavaScript value semantics shared by the rest) |
| `BrowserDetection` | `browser_detection.dfy` |
| `BrowserFallback` | `browser_fallback.dfy` |
| `WebGLCanvas` | `webgl_canvas.dfy` |
| `PlanetTypes` | `planet_types.dfy` |
| `PlanetData` | `planet_data.dfy` |
| `PortfolioStore` | `portfolio_store.dfy` |
| `App` | `app.dfy` |
| `NavigationUI` | `navigation_ui.dfy` |
| `TechPlanet` | `tech_planet.dfy` |
| `Performance` | `performance.dfy` |
| `Accessibility` | `accessibility.dfy` |
| `Seo` | `seo.dfy` |

Pure code is written as functions and lemmas. These are the detection
functions, the colour arithmetic, the data table and the string helpers.

Code that updates state is written as classes whose methods are proved
against pure transition functions:

- the component state of the canvas and of the app shell;
- the store;
- the navigation menu;
- the monitors and caches;
- the focus trap;
- the document head.

The store's actions are also member functions of the state datatype, so
that lemmas can talk about sequences of actions.

The environment is passed in as parameters. This covers the navigator and
location signals, the current time, the camera distance of each object, the
focusable-element count, and the current location for the SEO head.

Timers and canvas callbacks are events.

A JavaScript regular-expression literal made of plain characters is
modelled as substring containment.

`>>`, `&` and `|` on colour integers are modelled as division, remainder and
addition. Lemmas over `bv32` justify this replacement.

Some properties shown along the way:

- **The gate and the banner agree.** The fallback screen's banner test agrees
  with `detectBrowser`. This holds even though one substitutes `""` for a
  missing vendor and the other tests the string `"undefined"`.
- **The banner does not exclude Brave.** A Brave browser can see the banner
  even though the gate predicts no WebGL issues.
- **The LOD manager shows each group's level.** After `update`, when no two
  groups share an object and no group lists an object twice, each group
  shows exactly its object at the chosen level. A group shorter than that
  level shows nothing. An object in two groups takes the later group's
  write.
- **The trail after `updateTrail`:**
  - it is a subsequence of the old trail;
  - exactly the points younger than two seconds survive;
  - it is idempotent;
  - it never grows as time passes.
- **`adjustBrightness` can be undone.** Adjusting by `a` and then by `-a`
  returns the original colour, lower-cased, when no channel saturates.
- **`updateMetaTags` is idempotent.** A second call with the same argument
  leaves the head as it was.
- **`setStructuredData` keeps one script.** Starting from at most one
  structured-data script, exactly one remains.
- **`describeScene` never says "Currently viewing" for a store state.** In
  every store state the travelling flag equals the truthiness of the current
  planet, so the "Currently viewing" branch is never reached from the store.

## Model

| member | source | states |
|---|---|---|
| JsValues.ShowNullable | src/utils/accessibility.ts:95 | a template literal renders null as "null" and a string as itself |
| JsValues.JsString | src/components/3d/scene/BrowserFallback.tsx:4 | `String(undefined)` is "undefined", as RegExp.test applies it to the vendor here and the `document.title` assignment at src/utils/seo.ts line 26 applies it to the title |
| JsValues.IndexOf | src/utils/browserDetection.ts:14 | the first index at which the pattern occurs, or -1 exactly when it occurs nowhere |
| JsValues.Includes | src/utils/browserDetection.ts:14-17 | a plain regular-expression test holds exactly when the pattern occurs at some index |
| JsValues.NotIncludesWithoutFirstChar | src/utils/browserDetection.ts:14-17 | a string lacking the pattern's first character cannot contain the pattern |
| JsValues.FindIndex | src/App.tsx:41 | -1 exactly when no element satisfies the test; otherwise the first index that does |
| JsValues.Find | src/App.tsx:41 | undefined exactly when nothing matches; otherwise the first matching element |
| BrowserDetection.DetectBrowser | src/utils/browserDetection.ts:10-32 | isChrome iff the UA contains "Chrome" and a vendor containing "Google Inc" exists; isBrave iff the UA contains "Brave" or `navigator.brave` exists; issues only for Chrome, sandboxed, not Brave |
| BrowserDetection.ShouldUse3DFallback | src/utils/browserDetection.ts:34-43 | never skips under the exact "#force-3d" fragment; skips only when WebGL issues are predicted |
| BrowserDetection.GetBrowserRecommendation | src/utils/browserDetection.ts:45-69 | always one of the six fixed texts; the Chrome-issues text only for Chrome that is not Brave |
| BrowserDetection.RecommendationsDistinct | src/utils/browserDetection.ts:48-68 | the six recommendation texts are pairwise different |
| BrowserDetection.NoIssuesForBraveHttpOrLocalhost | src/utils/browserDetection.ts:17-22 | no WebGL issues and no fallback for Brave, for plain http, or on localhost |
| BrowserDetection.LoopbackAddressCountsAsSandboxed | src/utils/browserDetection.ts:19 | https on 127.0.0.1 counts as sandboxed, since only "localhost" is exempt |
| BrowserDetection.MissingVendorIsNotChrome | src/utils/browserDetection.ts:12-16 | without a vendor string the browser is neither Chrome nor Safari |
| BrowserDetection.FallbackWithoutOverride | src/utils/browserDetection.ts:34-43 | without the override, skip iff Chrome by UA and vendor, sandboxed origin, and not Brave |
| BrowserDetection.RecommendationPriority | src/utils/browserDetection.ts:45-69 | each text is returned exactly in its priority slot: Brave > Firefox > Safari > Chrome with issues > Chrome > unknown |
| BrowserDetection.ChromeOnPublicHttpsScenario | src/utils/browserDetection.ts:10-69 | a desktop Chrome on a public https host is sent to the fallback with the Chrome-issues text; on localhost or with the override it is not |
| BrowserFallback.ChromeOnSandboxedOrigin | src/components/3d/scene/BrowserFallback.tsx:4-5 | the banner condition; it needs a vendor string (`String(undefined)` never contains "Google Inc") and an https origin other than localhost |
| BrowserFallback.CompatibilityPanelShown | src/components/3d/scene/BrowserFallback.tsx:25-27 | the panel appears exactly with the Chrome status text, and only when detectBrowser reports Chrome on a sandboxed origin |
| BrowserFallback.StatusText | src/components/3d/scene/BrowserFallback.tsx:19-22 | the "Chrome detected" text iff the banner condition holds, otherwise "Initializing portfolio..." |
| BrowserFallback.TryThreeDAnyway | src/components/3d/scene/BrowserFallback.tsx:54-58 | sets the fragment to exactly "#force-3d", changes no other signal, and the gate then never skips |
| BrowserFallback.BannerAgreesWithDetectBrowser | src/components/3d/scene/BrowserFallback.tsx:4-5 | the banner condition equals detectBrowser's isChrome && isSandboxed for every signal set |
| BrowserFallback.IssuesImplyBanner | src/components/3d/scene/BrowserFallback.tsx:19-25 | predicted WebGL issues imply the banner; the panel is shown iff the paragraph shows the Chrome text |
| BrowserFallback.BannerShownForBrave | src/components/3d/scene/BrowserFallback.tsx:4-5 | a Brave browser with Chrome's UA and vendor on public https sees the banner although no issues are predicted |
| BrowserFallback.OverrideAfterFallback | src/components/3d/scene/BrowserFallback.tsx:56-57 | after the button, a page that skipped the 3D scene no longer does, and the detection result is unchanged |
| WebGLCanvas.WebGLConfigs | src/components/3d/scene/WebGLCanvas.tsx:23-60 | exactly three configurations |
| WebGLCanvas.ConfigIndex | src/components/3d/scene/WebGLCanvas.tsx:168-170 | the configuration index is below 3 and equals the retry count until it wraps |
| WebGLCanvas.ConfigTable | src/components/3d/scene/WebGLCanvas.tsx:23-60 | only the third configuration antialiases and asks for high performance; precision rises lowp, mediump, highp; shadows only on the third |
| WebGLCanvas.ShadowsEnabled | src/components/3d/scene/WebGLCanvas.tsx:178 | shadows exactly on the configuration with antialiasing, the highest-quality one |
| WebGLCanvas.IsChromeSwiftShader | src/components/3d/scene/WebGLCanvas.tsx:98 | holds exactly when "SwiftShader" occurs in the message; the test is case-sensitive, so a message without a capital S never matches |
| WebGLCanvas.OnCanvasError | src/components/3d/scene/WebGLCanvas.tsx:15-20 | records the error message, clears the initialising flag, keeps the retry count |
| WebGLCanvas.OnRetry | src/components/3d/scene/WebGLCanvas.tsx:69-73 | clears the error, sets initialising and increments the retry count |
| WebGLCanvas.OnTimeout | src/components/3d/scene/WebGLCanvas.tsx:75-84 | clears the initialising flag and keeps error and count |
| WebGLCanvas.OnCreated | src/components/3d/scene/WebGLCanvas.tsx:181-183 | clears the initialising flag and keeps error and count |
| WebGLCanvas.ViewOf | src/components/3d/scene/WebGLCanvas.tsx:86-183 | spinner iff initialising on the first attempt; error panel with the message, the SwiftShader explanation iff the message mentions SwiftShader, and attempt count mod 3 + 1; otherwise the canvas keyed by the retry count with configuration count mod 3 and shadows only on the third |
| WebGLCanvas.StepPreservesInv | src/components/3d/scene/WebGLCanvas.tsx:15-20 | every handler keeps "a recorded error means not initialising" |
| WebGLCanvas.RunPreservesInv | src/components/3d/scene/WebGLCanvas.tsx:15-84 | the invariant holds after every possible event sequence |
| WebGLCanvas.ReachableViews | src/components/3d/scene/WebGLCanvas.tsx:86-165 | in every reachable state the error panel is shown iff an error is recorded |
| WebGLCanvas.SpinnerLeftOnlyByTimeout | src/components/3d/scene/WebGLCanvas.tsx:75-95 | while the spinner shows only the timer can fire, and it leads to the first configuration without shadows |
| WebGLCanvas.RetriesCycle | src/components/3d/scene/WebGLCanvas.tsx:69-73 | k retries add k to the count, so the configuration index advances by k modulo 3 |
| WebGLCanvas.SwiftShaderFirstFailure | src/components/3d/scene/WebGLCanvas.tsx:98-117 | timer then a SwiftShader failure shows the Chrome explanation as attempt 1 |
| WebGLCanvas.RetryAfterFailure | src/components/3d/scene/WebGLCanvas.tsx:69-73 | a retry after a failure remounts with the next configuration and a new failure is the next attempt |
| WebGLCanvas.CanvasComponent.constructor | src/components/3d/scene/WebGLCanvas.tsx:11-13 | no error, no retries, initialising |
| WebGLCanvas.CanvasComponent.HandleCanvasError | src/components/3d/scene/WebGLCanvas.tsx:15-20 | the new fields are OnCanvasError of the old ones |
| WebGLCanvas.CanvasComponent.HandleRetry | src/components/3d/scene/WebGLCanvas.tsx:69-73 | the new fields are OnRetry of the old ones |
| WebGLCanvas.CanvasComponent.TimeoutFires | src/components/3d/scene/WebGLCanvas.tsx:75-84 | the new fields are OnTimeout of the old ones |
| WebGLCanvas.CanvasComponent.HandleCreated | src/components/3d/scene/WebGLCanvas.tsx:181-183 | the new fields are OnCreated of the old ones |
| PlanetTypes.FindPlanet | src/App.tsx:41 | undefined iff no planet has the id; otherwise a listed planet with that id |
| PlanetTypes.FindPlanetOfDistinctIds | src/types/planet.ts:1-59 | with distinct ids, looking up a planet's own id finds that planet |
| PlanetData.PlanetIds | src/data/planetData.ts:9-382 | nine planets with ids about, skills, education, projects, tools, experience, uranus, neptune, pluto in order |
| PlanetData.IdsDistinct | src/data/planetData.ts:11-345 | the nine ids are pairwise different |
| PlanetData.FindEveryPlanet | src/data/planetData.ts:9-382 | looking up any planet's id finds that planet |
| PlanetData.IdsNonEmpty | src/data/planetData.ts:11-345 | no id is empty |
| PlanetData.PlutoSmallestAndSlowest | src/data/planetData.ts:349-350 | Pluto has the smallest size and the lowest orbit speed |
| PlanetData.OrbitRadiiIncrease | src/data/planetData.ts:14-348 | orbit radii strictly increase along the list |
| PlanetData.SectionsValid | src/data/planetData.ts:68-86 | every section's tag matches its payload; skill levels lie in 1..5 with admitted categories; timeline kinds are admitted |
| PlanetData.NoContactPlanet | src/data/planetData.ts:11-345 | no planet has the id "contact" |
| PortfolioStore.KeepLast | src/store/portfolioStore.ts:103 | `slice(-n)`: the last min(n, length) elements |
| PortfolioStore.AppendTrail | src/store/portfolioStore.ts:97-106 | the new point is last, the trail has at most 20 points, and the rest is a suffix of the old trail |
| PortfolioStore.FadeOpacity | src/store/portfolioStore.ts:112-117 | opacity is non-negative, positive iff younger than 2000 ms, at most 1 iff not from the future, 1 iff brand new |
| PortfolioStore.UpdatedTrail | src/store/portfolioStore.ts:108-123 | never longer than the old trail; every surviving point has positive opacity |
| PortfolioStore.UpdatedTrailIsSubsequence | src/store/portfolioStore.ts:108-123 | the updated trail keeps the order and positions of the old one |
| PortfolioStore.UpdatedTrailMembers | src/store/portfolioStore.ts:108-123 | a point survives, refaded, iff it is younger than 2000 ms; every survivor comes from such a point |
| PortfolioStore.UpdatedTrailIdempotent | src/store/portfolioStore.ts:108-123 | updating twice at the same time equals updating once |
| PortfolioStore.UpdatedTrailShrinksOverTime | src/store/portfolioStore.ts:108-123 | a later update never keeps more points |
| PortfolioStore.PortfolioState.SetPlanets | src/store/portfolioStore.ts:58 | replaces the planet list and nothing else |
| PortfolioStore.PortfolioState.SetCurrentPlanet | src/store/portfolioStore.ts:60-63 | sets the current planet; transitioning iff the id is truthy; nothing else changes |
| PortfolioStore.PortfolioState.SetModalOpen | src/store/portfolioStore.ts:65 | sets the modal flag and nothing else |
| PortfolioStore.PortfolioState.SetActiveContent | src/store/portfolioStore.ts:67 | sets the active content and nothing else |
| PortfolioStore.PortfolioState.SetSelectedPlanet | src/store/portfolioStore.ts:69 | sets the selected planet and nothing else |
| PortfolioStore.PortfolioState.SetHoveredPlanet | src/store/portfolioStore.ts:71 | sets the hovered planet and nothing else |
| PortfolioStore.PortfolioState.MoveShuttleToPlanet | src/store/portfolioStore.ts:73-81 | sets both targets, the moving flag and the target planet; keeps position, rotation, trail and all other state |
| PortfolioStore.PortfolioState.UpdateShuttlePosition | src/store/portfolioStore.ts:83-88 | sets the shuttle position and nothing else |
| PortfolioStore.PortfolioState.UpdateShuttleRotation | src/store/portfolioStore.ts:90-95 | sets the shuttle rotation and nothing else |
| PortfolioStore.PortfolioState.AddTrailPoint | src/store/portfolioStore.ts:97-106 | appends a fully opaque point stamped now; the trail has one more point, or 20 when full, and the points before the new one are exactly the last old points in order |
| PortfolioStore.PortfolioState.UpdateTrail | src/store/portfolioStore.ts:108-123 | the trail becomes a subsequence of the old one with positive opacities; an old point survives, refaded, exactly when it is younger than 2000 ms, and every kept point is a refaded old one; nothing else changes |
| PortfolioStore.PortfolioState.SetCamera | src/store/portfolioStore.ts:125-127 | merges the given camera fields and changes nothing else |
| PortfolioStore.PortfolioState.ResetShuttle | src/store/portfolioStore.ts:129-133 | restores the initial shuttle, clears the current planet and the transitioning flag, keeps the rest |
| PortfolioStore.MergeCamera | src/store/portfolioStore.ts:125-127 | each camera field is the update's if given, else the old one |
| PortfolioStore.MergeCameraLaws | src/store/portfolioStore.ts:125-127 | the empty update is the identity, a full update replaces everything, two updates compose, and repeating one changes nothing |
| PortfolioStore.TransitionFlagInvariant | src/store/portfolioStore.ts:37-133 | the initial state and every action keep "transitioning iff the current planet is truthy" |
| PortfolioStore.TrailBounded | src/store/portfolioStore.ts:97-123 | both trail actions keep the trail at most 20 points long |
| PortfolioStore.FreshPointSurvivesUntilFaded | src/store/portfolioStore.ts:97-123 | a newly added point survives a later update iff less than 2000 ms have passed |
| PortfolioStore.Store.constructor | src/store/portfolioStore.ts:43-56 | the store starts in the initial state |
| PortfolioStore.Store.SetPlanets | src/store/portfolioStore.ts:58 | the store's new state is the SetPlanets transition of the old one |
| PortfolioStore.Store.SetCurrentPlanet | src/store/portfolioStore.ts:60-63 | the new state is the SetCurrentPlanet transition of the old one |
| PortfolioStore.Store.SetModalOpen | src/store/portfolioStore.ts:65 | the new state is the SetModalOpen transition of the old one |
| PortfolioStore.Store.SetActiveContent | src/store/portfolioStore.ts:67 | the new state is the SetActiveContent transition of the old one |
| PortfolioStore.Store.SetSelectedPlanet | src/store/portfolioStore.ts:69 | the new state is the SetSelectedPlanet transition of the old one |
| PortfolioStore.Store.SetHoveredPlanet | src/store/portfolioStore.ts:71 | the new state is the SetHoveredPlanet transition of the old one |
| PortfolioStore.Store.MoveShuttleToPlanet | src/store/portfolioStore.ts:73-81 | the new state is the MoveShuttleToPlanet transition of the old one |
| PortfolioStore.Store.UpdateShuttlePosition | src/store/portfolioStore.ts:83-88 | the new state is the UpdateShuttlePosition transition of the old one |
| PortfolioStore.Store.UpdateShuttleRotation | src/store/portfolioStore.ts:90-95 | the new state is the UpdateShuttleRotation transition of the old one |
| PortfolioStore.Store.AddTrailPoint | src/store/portfolioStore.ts:97-106 | the new state is the AddTrailPoint transition of the old one |
| PortfolioStore.Store.UpdateTrail | src/store/portfolioStore.ts:108-123 | the new state is the UpdateTrail transition of the old one |
| PortfolioStore.Store.SetCamera | src/store/portfolioStore.ts:125-127 | the new state is the SetCamera transition of the old one |
| PortfolioStore.Store.ResetShuttle | src/store/portfolioStore.ts:129-133 | the new state is the ResetShuttle transition of the old one |
| App.PlanetClicked | src/App.tsx:40-48 | an unknown id changes nothing; a known id selects it, makes it current (transitioning iff non-empty) and opens the modal; shuttle, camera, planets, hover and content are kept |
| App.ModalClosed | src/App.tsx:88-91 | closes the modal and clears the current planet and transitioning; the selection is kept |
| App.AppStep | src/App.tsx:23-91 | hovering changes nothing; loading ends exactly on the timer event |
| App.LoadingEndsOnlyWithTimer | src/App.tsx:31-37 | after any event sequence the app is loading iff it was and the timer never fired |
| App.ModalShown | src/App.tsx:85 | the modal is rendered exactly when it is open and a non-empty planet id is selected; the current planet plays no part |
| App.ScreenOf | src/App.tsx:55-93 | the loading screen iff loading; the modal iff open with a truthy selection, and it shows the selected planet |
| App.ClickThenClose | src/App.tsx:40-91 | clicking any listed planet opens its modal; closing hides it and keeps the selection |
| App.ClickBeforeLoadIgnored | src/App.tsx:41-42 | before the planets are loaded a click changes nothing |
| App.ClickIdempotent | src/App.tsx:40-48 | clicking the same planet twice equals clicking once |
| App.AppComponent.constructor | src/App.tsx:10 | the component starts loading, bound to the given store |
| App.AppComponent.Mount | src/App.tsx:23-26 | the component state after mounting is AppStep of Mounted |
| App.AppComponent.LoadingTimerFires | src/App.tsx:31-37 | the component state after the timer is AppStep of LoadingTimer |
| App.AppComponent.HandlePlanetClick | src/App.tsx:40-48 | the component state after a click is AppStep of PlanetClick |
| App.AppComponent.CloseModal | src/App.tsx:88-91 | the component state after closing is AppStep of ModalClose |
| NavigationUI.Highlighted | src/components/ui/NavigationUI.tsx:63 | an entry is highlighted only when the current planet is its id, and then the indicator shows unless the id is empty |
| NavigationUI.HoverTinted | src/components/ui/NavigationUI.tsx:66 | an entry is tinted only when the hovered planet is its id |
| NavigationUI.HoverNeverSet | src/App.tsx:51-53 | no component event changes the hovered planet: the hover handler ignores its argument, and a click (from the scene or the menu) keeps it |
| NavigationUI.NeverHoverTinted | src/components/ui/NavigationUI.tsx:66 | from the initial state, after any sequence of events, no menu entry is tinted: the hover style is dead |
| NavigationUI.IndicatorShown | src/components/ui/NavigationUI.tsx:119 | shown only for a non-empty current planet; in every store state exactly while travelling |
| NavigationUI.HighlightFollowsClick | src/components/ui/NavigationUI.tsx:16-24 | after clicking a planet exactly that entry is highlighted; the indicator shows iff its id is non-empty |
| NavigationUI.AtMostOneHighlighted | src/components/ui/NavigationUI.tsx:63 | with distinct ids at most one entry is highlighted |
| NavigationUI.CloseClearsHighlight | src/App.tsx:88-91 | after the modal closes no entry is highlighted and no indicator shows |
| NavigationUI.NavigationMenu.constructor | src/components/ui/NavigationUI.tsx:14 | the mobile menu starts collapsed |
| NavigationUI.NavigationMenu.HandleNavClick | src/components/ui/NavigationUI.tsx:16-24 | the store changes exactly as for a planet click |
| NavigationUI.NavigationMenu.ToggleMenu | src/components/ui/NavigationUI.tsx:78 | flips the expanded flag |
| NavigationUI.NavigationMenu.MobileItemClick | src/components/ui/NavigationUI.tsx:99-102 | the store changes as for a planet click and the menu collapses |
| TechPlanet.ParseHex | src/components/3d/planets/TechPlanet.tsx:551 | a string of k hex digits denotes a number below 16^k |
| TechPlanet.FixedHex | src/components/3d/planets/TechPlanet.tsx:555 | exactly `width` lower-case hex digits |
| TechPlanet.ParseFixedHex | src/components/3d/planets/TechPlanet.tsx:551-555 | parsing the fixed-width rendering of n gives n back |
| TechPlanet.FixedHexOfParse | src/components/3d/planets/TechPlanet.tsx:551-555 | rendering a parsed digit string gives the string lower-cased |
| TechPlanet.PaddedIsFixed | src/components/3d/planets/TechPlanet.tsx:555 | `toString(16).padStart(w, '0')` equals the fixed-width rendering for numbers below 16^w |
| TechPlanet.ToHexString | src/components/3d/planets/TechPlanet.tsx:555 | `toString(16)`: lower-case hex digits without leading zeros ("0" for zero) that parse back to the number |
| TechPlanet.Lowercase | src/components/3d/planets/TechPlanet.tsx:550-555 | the lower-case form the parse-then-print round trip produces: each digit lower-cased with its value kept; lower-case input unchanged |
| TechPlanet.HexColour | src/components/3d/planets/TechPlanet.tsx:550-551 | the input adjustBrightness handles: six or seven characters; with a leading '#' exactly "#" and six hex digits; without any '#' exactly six hex digits |
| TechPlanet.PadStart | src/components/3d/planets/TechPlanet.tsx:555 | the result has the target width or the string's own length, and ends with the string |
| TechPlanet.StripHash | src/components/3d/planets/TechPlanet.tsx:550 | removes the first '#': identity without one, one character shorter with one, the tail for a leading '#' |
| TechPlanet.Clamp | src/components/3d/planets/TechPlanet.tsx:552-554 | clamps to 0..255 and keeps values already inside |
| TechPlanet.ChannelsOfPack | src/components/3d/planets/TechPlanet.tsx:552-555 | packing three bytes gives a six-digit number whose channels are those bytes |
| TechPlanet.PackOfChannels | src/components/3d/planets/TechPlanet.tsx:552-555 | splitting a six-digit number into channels and packing them gives it back |
| TechPlanet.ShiftsAreDivisions | src/components/3d/planets/TechPlanet.tsx:552-554 | on 32-bit values the shifts and masks are the division and remainder the model uses |
| TechPlanet.OrIsAddition | src/components/3d/planets/TechPlanet.tsx:555 | on bytes the shifted or is the sum the model uses |
| TechPlanet.AdjustBrightness | src/components/3d/planets/TechPlanet.tsx:549-555 | the result is '#' and six lower-case hex digits denoting the input with each channel shifted by the amount and clamped |
| TechPlanet.OutputReadBack | src/components/3d/planets/TechPlanet.tsx:551-555 | the six digits written, parsed back, are the clamped channel shift of the parsed input |
| TechPlanet.ShiftedFits | src/components/3d/planets/TechPlanet.tsx:552-555 | each output channel is the input channel plus the amount, clamped, and the value fits six digits |
| TechPlanet.AdjustChannels | src/components/3d/planets/TechPlanet.tsx:549-555 | the output parses back to the clamped shifted channels of the input |
| TechPlanet.AdjustByZero | src/components/3d/planets/TechPlanet.tsx:549-555 | an amount of 0 returns the colour lower-cased, and unchanged if it already was |
| TechPlanet.AdjustMonotone | src/components/3d/planets/TechPlanet.tsx:552-554 | a larger amount never gives a darker channel |
| TechPlanet.AdjustToBlack | src/components/3d/planets/TechPlanet.tsx:549-555 | an amount of -255 or less gives "#000000" |
| TechPlanet.AdjustToWhite | src/components/3d/planets/TechPlanet.tsx:549-555 | an amount of 255 or more gives "#ffffff" |
| TechPlanet.AdjustInverse | src/components/3d/planets/TechPlanet.tsx:549-555 | without saturation, adjusting by a then by -a gives the colour back, lower-cased |
| TechPlanet.MaterialColor | src/components/3d/planets/TechPlanet.tsx:19-36 | ids outside the six listed cases keep the planet's own colour |
| TechPlanet.AtmosphereColor | src/components/3d/planets/TechPlanet.tsx:558-575 | a 24-bit colour, white for ids outside the six listed cases |
| TechPlanet.MaterialColorTable | src/components/3d/planets/TechPlanet.tsx:19-36 | the six listed ids ignore the planet's colour and give a hex colour; skills and about share one |
| TechPlanet.TableColoursAreHex | src/data/planetData.ts:17-351 | every planet colour, and every material colour derived from it, is a valid `#rrggbb` |
| TechPlanet.FallbackPlanets | src/components/3d/planets/TechPlanet.tsx:19-36 | education and the three outer planets keep their own colour |
| Performance.RoundDiv | src/utils/performance.ts:22 | Math.round of a non-negative count over a positive, possibly fractional, elapsed time: the integer within half a unit below or up to half a unit above the exact quotient (halves round up) |
| Performance.FpsAtMostFrames | src/utils/performance.ts:21-22 | over at least a second the computed fps never exceeds the frame count |
| Performance.PerformanceMonitor.constructor | src/utils/performance.ts:4-9 | no frames counted, last time 0, fps 60, no callbacks |
| Performance.PerformanceMonitor.Update | src/utils/performance.ts:18-29 | timestamps are real milliseconds; before a second has passed only the frame count rises; after it fps is the rounded rate, the counters reset and every callback is notified with it in order |
| Performance.PerformanceMonitor.OnFPSUpdate | src/utils/performance.ts:31-33 | appends the callback and changes nothing else |
| Performance.PerformanceMonitor.GetFPS | src/utils/performance.ts:35-37 | returns the current fps |
| Performance.MonitorSlot.GetInstance | src/utils/performance.ts:11-16 | the first call creates a fresh monitor in its initial state; later calls return the same one |
| Performance.LastWrite | src/utils/performance.ts:58-60 | an object has a last written visibility iff the writes touch it |
| Performance.LastWriteAppend | src/utils/performance.ts:72-74 | after two runs of writes an object's visibility is the later run's if it touches the object |
| Performance.TargetsAppend | src/utils/performance.ts:72-74 | the objects touched by two runs of writes are those touched by either |
| Performance.ApplyWrites | src/utils/performance.ts:58-74 | every touched object ends with the visibility of its last write |
| Performance.LevelWrites | src/utils/performance.ts:72-74 | the writes for one group touch exactly its objects |
| Performance.LevelWritesShowOne | src/utils/performance.ts:72-74 | in a group of distinct objects only the one at the level index ends visible |
| Performance.LodLevel | src/utils/performance.ts:66-70 | level 0 up to distance 10, 1 up to 30, 2 up to 60, 3 beyond |
| Performance.LodLevelMonotone | src/utils/performance.ts:66-70 | a farther object never gets a more detailed level |
| Performance.LodList | src/utils/performance.ts:51-53 | the high-detail object first, then the medium one if given, then the low-detail ones |
| Performance.LODManager.constructor | src/utils/performance.ts:42-48 | no groups registered |
| Performance.LODManager.AddLODObject | src/utils/performance.ts:50-61 | stores the group under its high-detail object; each listed object holds its last `index === 0` write, so when no object is listed twice only the high-detail object is visible (LevelWritesShowOne); an object listed twice ends with its later write |
| Performance.LODManager.Update | src/utils/performance.ts:63-76 | every written object holds the last value written to it; for separate groups, each group object ends visible iff its index is the level chosen for its key's distance |
| Performance.GroupShowsItsLevel | src/utils/performance.ts:63-76 | for groups that share no object and repeat none, the last write to each group object is "its index is the level of the group's distance", so a group shorter than the level shows nothing |
| Performance.SoleGroupShowsItsLevel | src/utils/performance.ts:64-75 | a group untouched by later groups keeps exactly its level object visible |
| Performance.TextureCache.Loaded | src/utils/performance.ts:100-104 | stores the loaded texture under its url |
| Performance.TextureCache.DisposeTexture | src/utils/performance.ts:121-127 | disposes the cached texture if any and removes only that url |
| Performance.TextureCache.DisposeAll | src/utils/performance.ts:129-132 | disposes every cached texture and empties the cache |
| Performance.GeometryFactory.Get | src/utils/performance.ts:160-188 | the shared lookup: a cached geometry for the key is returned unchanged, otherwise a fresh one is created and cached |
| Performance.MemoryManager.AddDisposable | src/utils/performance.ts:139-141 | appends the dispose callback |
| Performance.MemoryManager.DisposeAll | src/utils/performance.ts:143-146 | calls every registered callback in order and empties the list |
| Performance.GeometryFactory.GetSphere | src/utils/performance.ts:160-168 | returns the cached sphere for its parameters, creating and caching a fresh one only on first use |
| Performance.GeometryFactory.GetBox | src/utils/performance.ts:170-178 | returns the cached box for its parameters, creating and caching a fresh one only on first use |
| Performance.GeometryFactory.GetCone | src/utils/performance.ts:180-188 | returns the cached cone for its parameters, creating and caching a fresh one only on first use |
| Performance.GeometryFactory.DisposeAll | src/utils/performance.ts:190-193 | disposes every cached geometry and empties the cache |
| Accessibility.DescribeScene | src/utils/accessibility.ts:93-101 | when transitioning, "Traveling to ", the planet (or "null") and ". Please wait."; otherwise for a truthy planet "Currently viewing ", the planet and the arrow-key hint; otherwise the overview text |
| Accessibility.DescriptionKindsDiffer | src/utils/accessibility.ts:93-101 | the text starts with "Traveling to " iff transitioning, and with "Currently viewing " iff not transitioning with a truthy planet |
| Accessibility.StoreDescriptions | src/utils/accessibility.ts:93-101 | for any state satisfying the store invariant the description is the travelling text or the overview, never the viewing text |
| Accessibility.CreateAltText | src/utils/accessibility.ts:104-106 | the object type, ": ", the name, ". " and the description, each in its own slice of the text, and nothing else |
| Accessibility.AltTextRoundTrip | src/utils/accessibility.ts:104-106 | an object type without ':' is recovered as everything before the first ": " |
| Accessibility.GetDirection | src/utils/accessibility.ts:110-123 | the name of a sector the angle lies in, never "nearby" |
| Accessibility.SectorsPartition | src/utils/accessibility.ts:113-120 | the eight sector tests are pairwise disjoint and cover every angle |
| Accessibility.DirectionIdentifiesSector | src/utils/accessibility.ts:110-123 | an angle in sector k gets sector k's name |
| Accessibility.KeyRule | src/utils/accessibility.ts:40-54 | Shift+Tab on the first element focuses the last, Tab on the last focuses the first, both preventing the default; nothing else moves focus or prevents it |
| Accessibility.KeyRuleWraps | src/utils/accessibility.ts:40-54 | the two wraps undo each other and focus inside the trap stays inside |
| Accessibility.FocusTrap.constructor | src/utils/accessibility.ts:56-57 | installs the handler and focuses the first element if there is one |
| Accessibility.FocusTrap.HandleKeyDown | src/utils/accessibility.ts:40-54 | while installed, focus and prevention follow KeyRule; after release nothing happens |
| Accessibility.FocusTrap.Release | src/utils/accessibility.ts:59-61 | removes the handler and keeps focus |
| Seo.FirstMatch | src/utils/seo.ts:53 | -1 iff no head tag matches the selector; otherwise the first matching one in document order |
| Seo.Created | src/utils/seo.ts:55-58 | a created tag is selected by exactly the selector that created it and carries the value |
| Seo.WithValue | src/utils/seo.ts:59 | setting the value keeps what selects the tag, and setting the value it already has changes nothing |
| Seo.Upsert | src/utils/seo.ts:53-59 | the head grows by one tag only if nothing matched; the first match then carries the value; every other tag is unchanged |
| Seo.UpsertKeepsOthers | src/utils/seo.ts:50-94 | an upsert leaves where, and what, the first match of every other selector is |
| Seo.Apply | src/utils/seo.ts:50-94 | empty or absent content leaves the head unchanged for the checking setters; otherwise the first matching tag takes the value, a tag is appended only when none matches, and every other tag is unchanged; afterwards the setter has nothing left to do |
| Seo.ApplySettled | src/utils/seo.ts:53-59 | a setter whose first match already carries its value changes nothing |
| Seo.ApplyKeepsSettled | src/utils/seo.ts:50-94 | a setter for one selector leaves a setter for another selector settled |
| Seo.ApplyAllKeepsSettled | src/utils/seo.ts:29-47 | a run of setters for other selectors leaves a settled setter settled |
| Seo.ApplyAllOfSettled | src/utils/seo.ts:29-47 | a run of setters that are all already settled changes nothing |
| Seo.ApplyAllSettles | src/utils/seo.ts:29-47 | after a run of setters for distinct selectors every one of them is settled |
| Seo.ApplyAllIdempotent | src/utils/seo.ts:29-47 | repeating a run of setters for distinct selectors changes nothing |
| Seo.Merge | src/utils/seo.ts:23 | every key present in the override wins, even with an undefined value; absent keys keep the default |
| Seo.MergeLaws | src/utils/seo.ts:23 | merging two overrides in turn is merging their combination; merging the same override again changes nothing |
| Seo.UrlOrLocation | src/utils/seo.ts:38 | the given url if truthy, otherwise the current location |
| Seo.ApplyAllConcat | src/utils/seo.ts:29-47 | running two lists of setters in turn is running their concatenation |
| Seo.MetaOpsDistinct | src/utils/seo.ts:29-47 | the thirteen setter calls use pairwise different selectors |
| Seo.UpdateMetaTagsIdempotent | src/utils/seo.ts:22-48 | two identical calls leave the head as one call does |
| Seo.UpdateMetaTagsSetsCardAndUrls | src/utils/seo.ts:38-47 | afterwards twitter:card says "summary_large_image" and og:url and the canonical link carry the url or the location |
| Seo.ReplaceStructuredData | src/utils/seo.ts:97-109 | without a structured-data script the new one is appended to the unchanged head; otherwise only the first such script is removed, the other tags keep their order, and the new script is last; the script count becomes 1 if it was 0 and otherwise stays |
| Seo.StructuredDataSingle | src/utils/seo.ts:97-109 | from at most one script, exactly one remains and it is the new one |
| Seo.LdCountConcat | src/utils/seo.ts:99 | the number of structured-data scripts in two parts of the head adds up |
| Seo.HeadDocument.constructor | src/utils/seo.ts:26 | the document starts with the given title and head |
| Seo.HeadDocument.QuerySelector | src/utils/seo.ts:53 | the scan returns the first matching tag's index, or -1 |
| Seo.HeadDocument.UpsertTag | src/utils/seo.ts:53-59 | the head after the call is Upsert of the old head; the title is unchanged |
| Seo.HeadDocument.SetMetaTag | src/utils/seo.ts:50-60 | the head after the call is Apply of a `meta[name]` setter that skips empty content |
| Seo.HeadDocument.SetMetaProperty | src/utils/seo.ts:62-72 | the head after the call is Apply of a `meta[property]` setter that skips empty content |
| Seo.HeadDocument.SetMetaName | src/utils/seo.ts:74-84 | the head after the call is Apply of a `meta[name]` setter, identical to SetMetaTag |
| Seo.HeadDocument.SetLinkTag | src/utils/seo.ts:86-94 | the head after the call is Apply of a `link[rel]` setter with no empty check |
| Seo.HeadDocument.SetStandardTags | src/utils/seo.ts:29-31 | the head is the description, keywords and author setters applied in order |
| Seo.HeadDocument.SetOpenGraphTags | src/utils/seo.ts:34-38 | the head is the five Open Graph setters applied in order |
| Seo.HeadDocument.SetTwitterTags | src/utils/seo.ts:41-44 | the head is the four Twitter setters applied in order |
| Seo.HeadDocument.UpdateMetaTags | src/utils/seo.ts:22-48 | the title becomes the merged title (or "undefined"), and the head is the thirteen setters applied in order |
| Seo.HeadDocument.SetStructuredData | src/utils/seo.ts:97-109 | the scanning loop finds the first structured-data script; the head after the call is ReplaceStructuredData of the old head and the title is kept |

## Left out

- The 3D scene: the orbit and rotation animation, the procedural textures,
  and the sun, orbit paths and planet meshes. These are floating-point
  geometry, Math.random and the Canvas 2D and three.js APIs.
- WebGL context creation, which is a call into the browser's graphics stack.
  Only its outcomes (the error and creation callbacks) are modelled, as
  events.
- Timer durations (1500 ms, 2000 ms, 3000 ms). The firing of a timer is an
  event; the trail's 2000 ms fade is modelled with an explicit `now`.
- `TextureManager.loadTexture` and `preloadTextures`. They de-duplicate
  promises over the three.js loader, which is asynchronous interleaving and
  a foreign library. Only the synchronous cache updates are modelled.
- `MemoryManager.getMemoryUsage`, the `announce`, `describePlanet` and media
  query helpers of the accessibility module, the debug utilities and
  `Analytics`. These are browser APIs, logging and floating-point atan2.
- The prose of the text sections in the planet data, and the typed shuttle
  and navigation records that no modelled code reads.
- `generatePersonStructuredData` and `generateWebsiteStructuredData`, which
  are constant object literals. `JSON.stringify` is not modelled either:
  the structured-data text is an opaque string parameter.
- `brave.isBrave()` returns a promise, and a promise object is always
  truthy. So the Brave test holds exactly when `navigator.brave` exists, and
  the awaited answer is never read. The model takes the existence of
  `navigator.brave` as a boolean signal.
- The document title is a field of its own. Assigning `document.title`
  when the head holds no `<title>` element appends one to the head. The
  model assumes the head already holds a `<title>`, so that tag is outside
  the modelled head.
- A head `<meta>` carries either `name` or `property`, not both. A tag
  with both attributes would be selected by a `name` setter and a
  `property` setter, and both would write into it. The properties of
  `updateMetaTags` (each setter's tag carries its value, idempotence) hold
  for heads without such tags.
- `document.querySelector` searches the whole document, not just the head.
  The model's head is the document. Tags the setters do not select are
  opaque.
- The browser's default Tab movement. Only the trap's wrap-around rule and
  its `preventDefault` are modelled.
- Vectors, angles and distances are reals. NaN, infinities and the
  floating-point rounding of distances are not modelled.
- Object identity of shared vectors is not modelled: vectors are values.
- Callback bodies are not modelled. The FPS monitor reports which callbacks
  it notifies and with what value. The disposables list reports the
  callbacks it calls, in order.
- `GeometryFactory` cache keys are structured values of reals. The source
  builds them as template strings. Both forms identify `0` with `-0` and
  `1` with `1.0`. They differ only for NaN: the string key "NaN" is shared,
  while NaN is not a real and is not modelled.
- TechPlanet.AdjustBrightness: only whole-number amounts and `#rrggbb`
  inputs are modelled. Non-integer amounts and malformed colours, for which
  `parseInt` yields NaN or partial parses, are not.
- PortfolioStore.MergeCamera: a camera update can omit a field but cannot
  give one explicitly as `undefined`. The spread in `setCamera` would copy
  such a field. No code in the source calls `setCamera`.
- `handleCanvasError`'s `console.error` logging and its call of the
  optional `onError` callback are not modelled. They are logging and a
  call into the parent component.
- Accessibility.GetDirection: the angle is given directly in degrees. The
  atan2 computation from two points is not modelled.

=== FILE: accessibility.dfy ===
/** The accessibility helpers: the spoken description of the scene, the
    alternative text of 3D objects, the eight-way direction of an angle, and
    the keyboard focus trap of a dialog. The angle is given in degrees, as
    the atan2 result it is computed from; the focusable elements of the
    trapping element are numbered 0 .. count - 1. */
module Accessibility {
  import opened JsValues
  import opened PortfolioStore

  const TravelPrefix: string := "Traveling to "
  const TravelSuffix: string := ". Please wait."
  const ViewingPrefix: string := "Currently viewing "
  const ViewingSuffix: string := ". Use arrow keys to navigate to other planets."
  const OverviewText: string := "Solar system overview." + " Use arrow keys to select a planet to visit."

  predicate StartsWith(s: string, prefix: string) {
    |prefix| <= |s| && s[..|prefix|] == prefix
  }

  /** describeScene: travelling takes precedence; otherwise a truthy planet
      is being viewed; otherwise the overview. A null planet while travelling
      is rendered as "null". */
  function DescribeScene(currentPlanet: Option<string>, isTransitioning: bool): (text: string)
    ensures isTransitioning ==>
              && |text| == |TravelPrefix| + |ShowNullable(currentPlanet)| + |TravelSuffix|
              && StartsWith(text, TravelPrefix)
              && text[|TravelPrefix|..|text| - |TravelSuffix|] == ShowNullable(currentPlanet)
              && text[|text| - |TravelSuffix|..] == TravelSuffix
    ensures !isTransitioning && Truthy(currentPlanet) ==>
              && |text| == |ViewingPrefix| + |currentPlanet.value| + |ViewingSuffix|
              && StartsWith(text, ViewingPrefix)
              && text[|ViewingPrefix|..|text| - |ViewingSuffix|] == currentPlanet.value
              && text[|text| - |ViewingSuffix|..] == ViewingSuffix
    ensures !isTransitioning && !Truthy(currentPlanet) ==> text == OverviewText
  {
    if isTransitioning then
      var text := TravelPrefix + ShowNullable(currentPlanet) + TravelSuffix;
      assert text[..|TravelPrefix|] == TravelPrefix;
      text
    else if Truthy(currentPlanet) then
      var text := ViewingPrefix + currentPlanet.value + ViewingSuffix;
      assert text[..|ViewingPrefix|] == ViewingPrefix;
      text
    else OverviewText
  }

  /** The three kinds of description never start alike, so the kind can be
      told from the text. */
  lemma DescriptionKindsDiffer(cp: Option<string>, transitioning: bool)
    ensures var text := DescribeScene(cp, transitioning);
            && (StartsWith(text, TravelPrefix) <==> transitioning)
            && (StartsWith(text, ViewingPrefix) <==> !transitioning && Truthy(cp))
  {
    var text := DescribeScene(cp, transitioning);
    assert TravelPrefix[0] == 'T';
    assert ViewingPrefix[0] == 'C';
    assert OverviewText[0] == "Solar system overview."[0] == 'S';
    if StartsWith(text, TravelPrefix) {
      assert text[0] == 'T';
    }
    if StartsWith(text, ViewingPrefix) {
      assert text[0] == 'C';
    }
  }

  /** In every store state the travelling flag is the truthiness of the
      current planet, so the description of the store's state is the
      travelling text for a truthy planet and the overview otherwise: the
      "Currently viewing" text is never produced from the store. */
  lemma {:induction false} StoreDescriptions(s: PortfolioState)
    requires TransitionTracksCurrent(s)
    ensures Truthy(s.currentPlanet) ==>
              DescribeScene(s.currentPlanet, s.isTransitioning) == TravelPrefix + s.currentPlanet.value + TravelSuffix
    ensures !Truthy(s.currentPlanet) ==> DescribeScene(s.currentPlanet, s.isTransitioning) == OverviewText
    ensures !StartsWith(DescribeScene(s.currentPlanet, s.isTransitioning), ViewingPrefix)
  {
    DescriptionKindsDiffer(s.currentPlanet, s.isTransitioning);
  }

  /** createAltText: the object type, ": ", the name, ". " and the
      description, each in its own slice of the text. */
  function CreateAltText(objectType: string, name: string, description: string): (text: string)
    ensures |text| == |objectType| + |name| + |description| + 4
    ensures StartsWith(text, objectType)
    ensures text[|objectType|..|objectType| + 2] == ": "
    ensures text[|objectType| + 2..|objectType| + 2 + |name|] == name
    ensures text[|objectType| + 2 + |name|..|objectType| + 4 + |name|] == ". "
    ensures text[|text| - |description|..] == description
  {
    var text := objectType + ": " + name + ". " + description;
    assert text[..|objectType|] == objectType;
    text
  }

  /** The object type read back from an alternative text: everything before
      the first ": ". */
  function ObjectTypeOf(text: string): (objectType: Option<string>)
    ensures objectType.Some? ==> StartsWith(text, objectType.value)
  {
    var i := IndexOf(text, ": ");
    if i == -1 then None else Some(text[..i])
  }

  /** An object type without a colon is recovered from the alternative text. */
  lemma {:induction false} AltTextRoundTrip(objectType: string, name: string, description: string)
    requires ':' !in objectType
    ensures ObjectTypeOf(CreateAltText(objectType, name, description)) == Some(objectType)
  {
    var text := CreateAltText(objectType, name, description);
    assert text == objectType + (": " + name + ". " + description);
    assert text[|objectType|..|objectType| + 2] == ": ";
    assert OccursAt(text, ": ", |objectType|);
    forall i | 0 <= i < |objectType|
      ensures !OccursAt(text, ": ", i)
    {
      assert text[i] == objectType[i];
      assert text[i..i + 2][0] == text[i];
    }
    assert IndexOf(text, ": ") == |objectType|;
  }

  const DirectionNames: seq<string> := [
    "to the right", "to the front-right", "in front", "to the front-left",
    "to the left", "to the back-left", "in the back", "to the back-right"]

  /** The k-th test of getDirection, in source order. */
  predicate InSector(k: nat, angle: real) {
    match k
    case 0 => -22.5 <= angle < 22.5
    case 1 => 22.5 <= angle < 67.5
    case 2 => 67.5 <= angle < 112.5
    case 3 => 112.5 <= angle < 157.5
    case 4 => angle >= 157.5 || angle < -157.5
    case 5 => -157.5 <= angle < -112.5
    case 6 => -112.5 <= angle < -67.5
    case 7 => -67.5 <= angle < -22.5
    case _ => false
  }

  /** getDirection for an angle in degrees: the first sector test that holds. */
  function GetDirection(angle: real): (direction: string)
    ensures direction != "nearby"
    ensures exists k :: 0 <= k < 8 && InSector(k, angle) && direction == DirectionNames[k]
  {
    if InSector(0, angle) then DirectionNames[0]
    else if InSector(1, angle) then DirectionNames[1]
    else if InSector(2, angle) then DirectionNames[2]
    else if InSector(3, angle) then DirectionNames[3]
    else if InSector(4, angle) then DirectionNames[4]
    else if InSector(5, angle) then DirectionNames[5]
    else if InSector(6, angle) then DirectionNames[6]
    else if InSector(7, angle) then DirectionNames[7]
    else "nearby"
  }

  /** The eight sectors are pairwise disjoint and together cover every
      angle, so every angle has exactly one direction and the final
      "nearby" is unreachable. */
  lemma SectorsPartition(angle: real)
    ensures exists k :: 0 <= k < 8 && InSector(k, angle)
    ensures forall j, k :: 0 <= j < k < 8 ==> !(InSector(j, angle) && InSector(k, angle))
  {
    assert InSector(0, angle) || InSector(1, angle) || InSector(2, angle) || InSector(3, angle) ||
           InSector(4, angle) || InSector(5, angle) || InSector(6, angle) || InSector(7, angle);
  }

  /** The direction names are pairwise different, so the direction
      identifies the sector. */
  lemma DirectionIdentifiesSector(angle: real, k: nat)
    requires k < 8 && InSector(k, angle)
    ensures GetDirection(angle) == DirectionNames[k]
  {
    SectorsPartition(angle);
  }

  /** Where the keyboard focus is: on the i-th focusable element of the
      trap, or somewhere else. */
  datatype Focus = Inside(index: nat) | Elsewhere

  /** The keydown handler of trapFocus: the new focus and whether the
      browser's default is prevented. */
  function KeyRule(count: nat, focus: Focus, key: string, shift: bool): (r: (Focus, bool))
    ensures r.1 ==> key == "Tab" && count > 0
    ensures r.1 && shift ==> focus == Inside(0) && r.0 == Inside(count - 1)
    ensures r.1 && !shift ==> focus == Inside(count - 1) && r.0 == Inside(0)
    ensures !r.1 ==> r.0 == focus
    ensures key == "Tab" && count > 0 && shift && focus == Inside(0) ==> r.1
    ensures key == "Tab" && count > 0 && !shift && focus == Inside(count - 1) ==> r.1
  {
    if key == "Tab" && count > 0 then
      if shift then
        if focus == Inside(0) then (Inside(count - 1), true) else (focus, false)
      else
        if focus == Inside(count - 1) then (Inside(0), true) else (focus, false)
    else (focus, false)
  }

  /** Shift+Tab from the first element and Tab back undo each other, and
      the handler never moves focus out of the trap. */
  lemma KeyRuleWraps(count: nat, i: nat, key: string, shift: bool)
    requires i < count
    ensures KeyRule(count, KeyRule(count, Inside(0), "Tab", true).0, "Tab", false).0 == Inside(0)
    ensures KeyRule(count, KeyRule(count, Inside(count - 1), "Tab", false).0, "Tab", true).0 == Inside(count - 1)
    ensures var f := KeyRule(count, Inside(i), key, shift).0; f.Inside? && f.index < count
  {
  }

  /** The focus trap installed on an element with `count` focusable elements. */
  class FocusTrap {
    const count: nat
    var focus: Focus
    var listening: bool

    /** trapFocus: install the handler and focus the first element, if any. */
    constructor (count: nat, focus: Focus)
      ensures this.count == count && listening
      ensures this.focus == if count > 0 then Inside(0) else focus
    {
      this.count := count;
      this.focus := if count > 0 then Inside(0) else focus;
      listening := true;
    }

    /** A keydown event while the trap is installed; it reports whether the
        default was prevented. */
    method HandleKeyDown(key: string, shift: bool) returns (prevented: bool)
      modifies this
      ensures listening == old(listening)
      ensures listening ==> (focus, prevented) == KeyRule(count, old(focus), key, shift)
      ensures !listening ==> focus == old(focus) && !prevented
    {
      prevented := false;
      if !listening {
        return;
      }
      if key == "Tab" {
        if shift {
          if count > 0 && focus == Inside(0) {
            focus := Inside(count - 1);
            prevented := true;
          }
        } else {
          if count > 0 && focus == Inside(count - 1) {
            focus := Inside(0);
            prevented := true;
          }
        }
      }
    }

    /** The function trapFocus returns: it removes the handler. */
    method Release()
      modifies this
      ensures !listening && focus == old(focus)
    {
      listening := false;
    }
  }
}

=== FILE: app.dfy ===
/** The top-level component: it loads the planet table into the store, shows
    a loading screen until a 1.5-second timer fires, opens the content modal
    when a planet is clicked and closes it again. The timer's firing is an
    event; its duration is not modelled. */
module App {
  import opened JsValues
  import opened PlanetTypes
  import opened PlanetData
  import opened PortfolioStore

  /** handlePlanetClick: an id that names no planet in the store changes
      nothing; a known id is selected, becomes the current planet and opens
      the modal. */
  function PlanetClicked(s: PortfolioState, planetId: string): (t: PortfolioState)
    ensures FindPlanet(s.planets, planetId).None? ==> t == s
    ensures FindPlanet(s.planets, planetId).Some? ==>
              && t.selectedPlanet == Some(planetId)
              && t.currentPlanet == Some(planetId)
              && t.modalOpen
              && (t.isTransitioning <==> planetId != "")
    ensures t.planets == s.planets && t.shuttle == s.shuttle && t.camera == s.camera
    ensures t.hoveredPlanet == s.hoveredPlanet && t.activeContent == s.activeContent
  {
    if FindPlanet(s.planets, planetId).None? then s
    else s.SetSelectedPlanet(Some(planetId)).SetCurrentPlanet(Some(planetId)).SetModalOpen(true)
  }

  /** The modal's onClose: the modal is closed and no planet is current; the
      selection is kept. */
  function ModalClosed(s: PortfolioState): (t: PortfolioState)
    ensures !t.modalOpen && t.currentPlanet.None? && !t.isTransitioning
    ensures t.selectedPlanet == s.selectedPlanet && t.hoveredPlanet == s.hoveredPlanet
    ensures t.planets == s.planets && t.shuttle == s.shuttle && t.camera == s.camera
    ensures t.activeContent == s.activeContent
  {
    s.SetModalOpen(false).SetCurrentPlanet(None)
  }

  /** `modalOpen && selectedPlanet`: the content modal is rendered. */
  predicate ModalShown(s: PortfolioState)
    ensures ModalShown(s) <==> s.modalOpen && s.selectedPlanet.Some? && s.selectedPlanet.value != ""
  {
    s.modalOpen && Truthy(s.selectedPlanet)
  }

  /** The component's own flag and the store it reads. */
  datatype AppState = AppState(loading: bool, store: PortfolioState)

  const AppInitial: AppState := AppState(true, Initial)

  /** What can happen to the component: the mount effect, the loading
      timer, a click or hover on a planet, and the modal's close button. */
  datatype AppEvent = Mounted | LoadingTimer | PlanetClick(planetId: string) | PlanetHover(hovered: Option<string>) | ModalClose

  function AppStep(a: AppState, e: AppEvent): (b: AppState)
    ensures e.PlanetHover? ==> b == a
    ensures b.loading == (a.loading && !e.LoadingTimer?)
  {
    match e
    case Mounted => a.(store := a.store.SetPlanets(Planets))
    case LoadingTimer => a.(loading := false)
    case PlanetClick(id) => a.(store := PlanetClicked(a.store, id))
    case PlanetHover(_) => a
    case ModalClose => a.(store := ModalClosed(a.store))
  }

  function AppRun(a: AppState, events: seq<AppEvent>): AppState
    decreases |events|
  {
    if events == [] then a else AppRun(AppStep(a, events[0]), events[1..])
  }

  /** The loading screen stays until the loading timer has fired, and once
      gone it never comes back. */
  lemma {:induction false} LoadingEndsOnlyWithTimer(a: AppState, events: seq<AppEvent>)
    ensures AppRun(a, events).loading <==> a.loading && LoadingTimer !in events
    decreases |events|
  {
    if events != [] {
      LoadingEndsOnlyWithTimer(AppStep(a, events[0]), events[1..]);
      assert events == [events[0]] + events[1..];
    }
  }

  /** What is on screen. */
  datatype Screen = LoadingScreen | SceneScreen(modalFor: Option<string>)

  function ScreenOf(a: AppState): (v: Screen)
    ensures v.LoadingScreen? <==> a.loading
    ensures v.SceneScreen? ==> (v.modalFor.Some? <==> ModalShown(a.store))
    ensures v.SceneScreen? && v.modalFor.Some? ==> a.store.selectedPlanet == v.modalFor && v.modalFor.value != ""
  {
    if a.loading then LoadingScreen
    else if ModalShown(a.store) then SceneScreen(a.store.selectedPlanet)
    else SceneScreen(None)
  }

  /** Once the table is loaded, clicking any planet opens its modal, and
      closing the modal hides it while the selection stays. */
  lemma {:induction false} ClickThenClose(s: PortfolioState, i: nat)
    requires s.planets == Planets
    requires i < |Planets|
    ensures PlanetClicked(s, Planets[i].id).selectedPlanet == Some(Planets[i].id)
    ensures ModalShown(PlanetClicked(s, Planets[i].id))
    ensures !ModalShown(ModalClosed(PlanetClicked(s, Planets[i].id)))
    ensures ModalClosed(PlanetClicked(s, Planets[i].id)).selectedPlanet == Some(Planets[i].id)
  {
    FindEveryPlanet(i);
    IdsNonEmpty();
  }

  /** Before the table is loaded every click is ignored. */
  lemma ClickBeforeLoadIgnored(s: PortfolioState, planetId: string)
    requires s.planets == []
    ensures PlanetClicked(s, planetId) == s
  {
  }

  /** Clicking the same planet twice is the same as clicking it once. */
  lemma ClickIdempotent(s: PortfolioState, planetId: string)
    ensures PlanetClicked(PlanetClicked(s, planetId), planetId) == PlanetClicked(s, planetId)
  {
  }

  /** The component instance: its own loading flag, and the shared store. */
  class AppComponent {
    var loading: bool
    const store: Store

    function State(): AppState
      reads this, store
    {
      AppState(loading, store.state)
    }

    constructor (store: Store)
      ensures loading && this.store == store
    {
      loading := true;
      this.store := store;
    }

    /** The mount effect: setPlanets(planetData). */
    method Mount()
      modifies store
      ensures State() == AppStep(old(State()), Mounted)
    {
      store.SetPlanets(Planets);
    }

    method LoadingTimerFires()
      modifies this
      ensures State() == AppStep(old(State()), LoadingTimer)
    {
      loading := false;
    }

    method HandlePlanetClick(planetId: string)
      modifies store
      ensures State() == AppStep(old(State()), PlanetClick(planetId))
    {
      var planet := FindPlanet(store.state.planets, planetId);
      if planet.None? {
        return;
      }
      store.SetSelectedPlanet(Some(planetId));
      store.SetCurrentPlanet(Some(planetId));
      store.SetModalOpen(true);
    }

    method CloseModal()
      modifies store
      ensures State() == AppStep(old(State()), ModalClose)
    {
      store.SetModalOpen(false);
      store.SetCurrentPlanet(None);
    }
  }
}

=== FILE: browser_detection.dfy ===
/** The capability gate: which browser this is, whether the page is served from
    a sandboxed origin, whether the 3D scene should be skipped, and which
    browser to recommend. Every function here is a pure function of a
    snapshot of the environment signals that the page reads at start-up. */
module BrowserDetection {
  import opened JsValues

  /** The environment signals read by detectBrowser and shouldUse3DFallback. */
  datatype Signals = Signals(
    userAgent: string,       // navigator.userAgent
    vendor: Option<string>,  // navigator.vendor, which may be undefined
    braveApi: bool,          // navigator.brave exists (isBrave() then returns a promise, always truthy)
    protocol: string,        // window.location.protocol, e.g. "https:"
    hostname: string,        // window.location.hostname
    hash: string)            // window.location.hash, e.g. "#force-3d"

  datatype BrowserInfo = BrowserInfo(
    isChrome: bool,
    isFirefox: bool,
    isSafari: bool,
    isBrave: bool,
    isSandboxed: bool,
    willHaveWebGLIssues: bool)

  /** The location fragment that forces the 3D scene on. */
  const ForceHash: string := "#force-3d"

  const BraveText: string := "Brave - Perfect for 3D graphics!"
  const FirefoxText: string := "Firefox - Excellent WebGL support"
  const SafariText: string := "Safari - Good 3D performance"
  const ChromeIssuesText: string := "Chrome may have issues - try Brave instead"
  const ChromeText: string := "Chrome - Ensure hardware acceleration is enabled"
  const UnknownText: string := "Browser compatibility unknown"

  const Recommendations: set<string> :=
    {BraveText, FirefoxText, SafariText, ChromeIssuesText, ChromeText, UnknownText}

  /** `navigator.vendor || ''`. */
  function VendorOrEmpty(s: Signals): string {
    s.vendor.GetOr("")
  }

  /** The origin test: served over https from a host other than "localhost". */
  predicate SandboxedOrigin(protocol: string, hostname: string) {
    protocol == "https:" && hostname != "localhost"
  }

  function DetectBrowser(s: Signals): (info: BrowserInfo)
    ensures info.isChrome <==>
              (exists i :: OccursAt(s.userAgent, "Chrome", i)) &&
              s.vendor.Some? && (exists j :: OccursAt(s.vendor.value, "Google Inc", j))
    ensures info.isBrave <==> (exists i :: OccursAt(s.userAgent, "Brave", i)) || s.braveApi
    ensures info.willHaveWebGLIssues ==> info.isChrome && info.isSandboxed && !info.isBrave
  {
    var isChrome := Includes(s.userAgent, "Chrome") && Includes(VendorOrEmpty(s), "Google Inc");
    var isFirefox := Includes(s.userAgent, "Firefox");
    var isSafari := Includes(s.userAgent, "Safari") && Includes(VendorOrEmpty(s), "Apple Computer");
    var isBrave := Includes(s.userAgent, "Brave") || s.braveApi;
    var isSandboxed := SandboxedOrigin(s.protocol, s.hostname);
    var willHaveWebGLIssues := isChrome && isSandboxed && !isBrave;
    assert !Includes("", "Google Inc") by { NotIncludesWithoutFirstChar("", "Google Inc"); }
    BrowserInfo(isChrome, isFirefox, isSafari, isBrave, isSandboxed, willHaveWebGLIssues)
  }

  /** shouldUse3DFallback: skip the 3D scene unless the override fragment is set. */
  function ShouldUse3DFallback(s: Signals): (skip: bool)
    ensures s.hash == ForceHash ==> !skip
    ensures skip ==> DetectBrowser(s).willHaveWebGLIssues
  {
    if s.hash == ForceHash then false
    else DetectBrowser(s).willHaveWebGLIssues
  }

  function GetBrowserRecommendation(s: Signals): (text: string)
    ensures text in Recommendations
    ensures text == ChromeIssuesText ==> DetectBrowser(s).isChrome && !DetectBrowser(s).isBrave
  {
    var info := DetectBrowser(s);
    if info.isBrave then BraveText
    else if info.isFirefox then FirefoxText
    else if info.isSafari then SafariText
    else if info.isChrome && info.willHaveWebGLIssues then ChromeIssuesText
    else if info.isChrome then ChromeText
    else UnknownText
  }

  /** The six recommendation strings are pairwise different, so the text
      identifies the branch that produced it. */
  lemma RecommendationsDistinct()
    ensures |Recommendations| == 6
  {
  }

  /** The WebGL-issues verdict never fires for Brave, over plain http, or on localhost. */
  lemma NoIssuesForBraveHttpOrLocalhost(s: Signals)
    requires Includes(s.userAgent, "Brave") || s.braveApi || s.protocol != "https:" || s.hostname == "localhost"
    ensures !DetectBrowser(s).willHaveWebGLIssues
    ensures !ShouldUse3DFallback(s)
  {
  }

  /** Any https host other than "localhost" counts as sandboxed, including 127.0.0.1. */
  lemma LoopbackAddressCountsAsSandboxed(s: Signals)
    requires s.protocol == "https:" && s.hostname == "127.0.0.1"
    ensures DetectBrowser(s).isSandboxed
  {
  }

  /** Without a vendor string the browser is never classified as Chrome,
      whatever its user agent says. */
  lemma {:induction false} MissingVendorIsNotChrome(s: Signals)
    requires s.vendor.None?
    ensures !DetectBrowser(s).isChrome
    ensures !DetectBrowser(s).isSafari
  {
    NotIncludesWithoutFirstChar("", "Google Inc");
    NotIncludesWithoutFirstChar("", "Apple Computer");
  }

  /** Without the override, the gate skips the 3D scene exactly for Chrome
      (by user agent and vendor) on a sandboxed origin that is not Brave. */
  lemma FallbackWithoutOverride(s: Signals)
    requires s.hash != ForceHash
    ensures ShouldUse3DFallback(s) <==>
              Includes(s.userAgent, "Chrome") && Includes(VendorOrEmpty(s), "Google Inc") &&
              SandboxedOrigin(s.protocol, s.hostname) &&
              !Includes(s.userAgent, "Brave") && !s.braveApi
  {
  }

  /** The recommendation follows the priority Brave > Firefox > Safari >
      Chrome with issues > Chrome > unknown. */
  lemma RecommendationPriority(s: Signals)
    ensures var info := DetectBrowser(s);
            var text := GetBrowserRecommendation(s);
            && (text == BraveText <==> info.isBrave)
            && (text == FirefoxText <==> !info.isBrave && info.isFirefox)
            && (text == SafariText <==> !info.isBrave && !info.isFirefox && info.isSafari)
            && (text == ChromeIssuesText <==>
                  !info.isBrave && !info.isFirefox && !info.isSafari && info.willHaveWebGLIssues)
            && (text == ChromeText <==>
                  !info.isBrave && !info.isFirefox && !info.isSafari && info.isChrome && !info.willHaveWebGLIssues)
            && (text == UnknownText <==>
                  !info.isBrave && !info.isFirefox && !info.isSafari && !info.isChrome)
  {
  }

  /** A desktop Chrome user agent (it mentions Safari too, as Chrome's does). */
  const ChromeUserAgent: string := "Mozilla/5.0 (X11) " + "Chrome" + "/120.0 Safari/537.36"

  lemma {:induction false} ChromeUserAgentFacts()
    ensures Includes(ChromeUserAgent, "Chrome")
    ensures !Includes(ChromeUserAgent, "Brave") && !Includes(ChromeUserAgent, "Firefox")
  {
    IncludesInfix("Mozilla/5.0 (X11) ", "Chrome", "/120.0 Safari/537.36");
    ChromeUserAgentLacks('B', "Brave");
    ChromeUserAgentLacks('F', "Firefox");
  }

  lemma {:induction false} ChromeUserAgentLacks(c: char, sub: string)
    requires c == 'B' || c == 'F'
    requires sub != [] && sub[0] == c
    ensures !Includes(ChromeUserAgent, sub)
  {
    assert c !in "Mozilla/5.0 (X11) ";
    assert c !in "Chrome";
    assert c !in "/120.0 Safari/537.36";
    NotIncludesWithoutFirstChar(ChromeUserAgent, sub);
  }

  lemma {:induction false} GoogleVendorFacts()
    ensures Includes("Google Inc.", "Google Inc")
    ensures !Includes("Google Inc.", "Apple Computer")
  {
    IncludesInfix("", "Google Inc", ".");
    NotIncludesWithoutFirstChar("Google Inc.", "Apple Computer");
  }

  /** Chrome on a public https origin without the override skips the 3D scene
      and is told that Chrome may have issues; the same browser on localhost,
      or with the override fragment, gets the 3D scene. */
  lemma {:induction false} ChromeOnPublicHttpsScenario(s: Signals)
    requires s == Signals(ChromeUserAgent, Some("Google Inc."), false, "https:", "example.com", "")
    ensures DetectBrowser(s).willHaveWebGLIssues
    ensures ShouldUse3DFallback(s)
    ensures GetBrowserRecommendation(s) == ChromeIssuesText
    ensures !ShouldUse3DFallback(s.(hostname := "localhost"))
    ensures GetBrowserRecommendation(s.(hostname := "localhost")) == ChromeText
    ensures !ShouldUse3DFallback(s.(hash := ForceHash))
  {
    ChromeUserAgentFacts();
    GoogleVendorFacts();
  }
}

=== FILE: browser_fallback.dfy ===
/** The "Portfolio Loading" fallback screen: a banner for Chrome on a
    sandboxed origin, the status paragraph, and the "Try 3D Anyway" button
    that sets the override fragment before reloading. */
module BrowserFallback {
  import opened JsValues
  import opened BrowserDetection

  const ChromeCheckText: string := "Chrome detected in secure environment - checking 3D compatibility..."
  const InitializingText: string := "Initializing portfolio..."

  /** `isChrome && isSandboxed` as the fallback screen computes it: the same
      substring tests as detectBrowser, but on the raw vendor value, which RegExp.prototype.test converts
      to a string. */
  predicate ChromeOnSandboxedOrigin(s: Signals)
    ensures ChromeOnSandboxedOrigin(s) ==> s.vendor.Some? && SandboxedOrigin(s.protocol, s.hostname)
  {
    NotIncludesWithoutFirstChar("undefined", "Google Inc");
    Includes(s.userAgent, "Chrome") && Includes(JsString(s.vendor), "Google Inc") &&
    SandboxedOrigin(s.protocol, s.hostname)
  }

  /** The status paragraph. */
  function StatusText(s: Signals): (text: string)
    ensures text == ChromeCheckText <==> ChromeOnSandboxedOrigin(s)
    ensures text == InitializingText <==> !ChromeOnSandboxedOrigin(s)
  {
    if ChromeOnSandboxedOrigin(s) then ChromeCheckText else InitializingText
  }

  /** Whether the "Chrome Compatibility Check" panel is rendered: together
      with the Chrome status text, and only for a browser detectBrowser
      takes for Chrome on a sandboxed origin. */
  predicate CompatibilityPanelShown(s: Signals)
    ensures CompatibilityPanelShown(s) <==> StatusText(s) == ChromeCheckText
    ensures CompatibilityPanelShown(s) ==> DetectBrowser(s).isChrome && DetectBrowser(s).isSandboxed
  {
    BannerAgreesWithDetectBrowser(s);
    ChromeOnSandboxedOrigin(s)
  }

  /** "Try 3D Anyway": set the location fragment to the override; the reload
      that follows re-reads every other signal unchanged. */
  function TryThreeDAnyway(s: Signals): (next: Signals)
    ensures next.hash == ForceHash
    ensures next.(hash := s.hash) == s
    ensures !ShouldUse3DFallback(next)
  {
    s.(hash := ForceHash)
  }

  /** The fallback screen's own Chrome test agrees with detectBrowser's, even
      though one substitutes "" and the other "undefined" for a missing vendor. */
  lemma {:induction false} BannerAgreesWithDetectBrowser(s: Signals)
    ensures ChromeOnSandboxedOrigin(s) <==> DetectBrowser(s).isChrome && DetectBrowser(s).isSandboxed
  {
    if s.vendor.None? {
      NotIncludesWithoutFirstChar("undefined", "Google Inc");
      MissingVendorIsNotChrome(s);
    }
  }

  /** Whenever the gate predicts WebGL issues, the banner is shown; the
      paragraph and the panel always go together. */
  lemma IssuesImplyBanner(s: Signals)
    ensures DetectBrowser(s).willHaveWebGLIssues ==> ChromeOnSandboxedOrigin(s)
    ensures CompatibilityPanelShown(s) <==> StatusText(s) == ChromeCheckText
  {
    BannerAgreesWithDetectBrowser(s);
  }

  /** The banner does not exclude Brave: a Brave browser reporting the Chrome
      user agent and Google vendor on a public https origin sees the banner,
      yet the gate predicts no issues. */
  lemma {:induction false} BannerShownForBrave(s: Signals)
    requires s == Signals(ChromeUserAgent, Some("Google Inc."), true, "https:", "example.com", "")
    ensures ChromeOnSandboxedOrigin(s)
    ensures !DetectBrowser(s).willHaveWebGLIssues
    ensures !ShouldUse3DFallback(s)
  {
    ChromeUserAgentFacts();
    GoogleVendorFacts();
  }

  /** After "Try 3D Anyway" the gate admits the 3D scene even where it
      skipped it before. */
  lemma OverrideAfterFallback(s: Signals)
    requires ShouldUse3DFallback(s)
    ensures s.hash != ForceHash
    ensures !ShouldUse3DFallback(TryThreeDAnyway(s))
    ensures DetectBrowser(TryThreeDAnyway(s)) == DetectBrowser(s)
  {
  }
}

=== FILE: js_values.dfy ===
/** The few pieces of JavaScript value semantics that the portfolio's decision
    logic relies on: nullable values, truthiness of strings, substring search
    (String.prototype.indexOf / includes, and a regular-expression literal
    without metacharacters, which tests the same thing), the rendering of
    `null` inside a template string, and Array.prototype.find. */
module JsValues {

  /** A value that may be `null` or `undefined`. */
  datatype Option<+T> = None | Some(value: T) {
    function GetOr(default: T): T {
      match this
      case Some(v) => v
      case None => default
    }
  }

  /** `!!s` for a nullable string: null and "" are falsy, every other string is truthy. */
  predicate Truthy(s: Option<string>) {
    s.Some? && s.value != ""
  }

  /** How a template literal renders a nullable string: `${null}` is "null". */
  function ShowNullable(s: Option<string>): (r: string)
    ensures s.Some? ==> r == s.value
    ensures s.None? ==> r == "null"
  {
    match s
    case Some(v) => v
    case None => "null"
  }

  /** `String(v)` for a possibly undefined string, as RegExp.prototype.test
      and an assignment to a string property apply it: undefined becomes
      "undefined". */
  function JsString(v: Option<string>): (r: string)
    ensures v.Some? ==> r == v.value
    ensures v.None? ==> r == "undefined"
  {
    match v
    case Some(x) => x
    case None => "undefined"
  }

  /** `sub` occurs in `s` starting at index `i`. */
  predicate OccursAt(s: string, sub: string, i: int) {
    0 <= i && i + |sub| <= |s| && s[i..i + |sub|] == sub
  }

  /** The first index at or after `from` at which `sub` occurs in `s`, or -1. */
  function IndexOfFrom(s: string, sub: string, from: nat): (r: int)
    requires from <= |s|
    ensures r == -1 || (from <= r && OccursAt(s, sub, r))
    ensures r == -1 <==> forall i :: from <= i && OccursAt(s, sub, i) ==> false
    ensures r != -1 ==> forall i :: from <= i < r ==> !OccursAt(s, sub, i)
    decreases |s| - from
  {
    if |s| - from < |sub| then -1
    else if s[from..from + |sub|] == sub then from
    else IndexOfFrom(s, sub, from + 1)
  }

  /** String.prototype.indexOf: the first occurrence of `sub` in `s`, or -1. */
  function IndexOf(s: string, sub: string): (r: int)
    ensures r == -1 || OccursAt(s, sub, r)
    ensures r == -1 <==> forall i :: !OccursAt(s, sub, i)
    ensures r != -1 ==> forall i :: 0 <= i < r ==> !OccursAt(s, sub, i)
  {
    IndexOfFrom(s, sub, 0)
  }

  /** `s.includes(sub)`, and `/sub/.test(s)` for a pattern made of plain characters. */
  predicate Includes(s: string, sub: string)
    ensures Includes(s, sub) <==> exists i :: OccursAt(s, sub, i)
  {
    IndexOf(s, sub) != -1
  }

  /** An occurrence at a known index is enough to make `includes` true. */
  lemma IncludesAt(s: string, sub: string, i: int)
    requires OccursAt(s, sub, i)
    ensures Includes(s, sub)
  {
  }

  /** A string made of `a`, then `b`, then `c` contains `b`. */
  lemma IncludesInfix(a: string, b: string, c: string)
    ensures Includes(a + b + c, b)
  {
    assert (a + b + c)[|a|..|a| + |b|] == b;
    assert OccursAt(a + b + c, b, |a|);
  }

  /** A string in which the first character of a non-empty pattern never
      appears cannot contain that pattern. */
  lemma NotIncludesWithoutFirstChar(s: string, sub: string)
    requires sub != []
    requires sub[0] !in s
    ensures !Includes(s, sub)
  {
    forall i | 0 <= i && i + |sub| <= |s|
      ensures !OccursAt(s, sub, i)
    {
      assert s[i..i + |sub|][0] == s[i];
    }
  }

  /** Array.prototype.findIndex: the index of the first element satisfying `p`, or -1. */
  function FindIndex<T>(s: seq<T>, p: T -> bool): (r: int)
    ensures -1 <= r < |s|
    ensures r == -1 <==> forall i :: 0 <= i < |s| ==> !p(s[i])
    ensures r != -1 ==> p(s[r]) && forall j :: 0 <= j < r ==> !p(s[j])
  {
    if |s| == 0 then -1
    else if p(s[0]) then 0
    else
      var r := FindIndex(s[1..], p);
      assert forall i :: 1 <= i < |s| ==> s[1..][i - 1] == s[i];
      if r == -1 then -1 else r + 1
  }

  /** Array.prototype.find: the first element satisfying `p`, or undefined. */
  function Find<T>(s: seq<T>, p: T -> bool): (r: Option<T>)
    ensures r.None? <==> forall i :: 0 <= i < |s| ==> !p(s[i])
    ensures r.Some? ==> exists i :: 0 <= i < |s| && s[i] == r.value && p(s[i]) &&
                                    forall j :: 0 <= j < i ==> !p(s[j])
  {
    var i := FindIndex(s, p);
    if i == -1 then None else Some(s[i])
  }
}

=== FILE: navigation_ui.dfy ===
/** The navigation overlay: planet buttons that open a planet the same way a
    click in the scene does, a mobile menu that can be expanded and that
    closes after a choice, the highlight of the current planet's button and
    the current-location indicator. */
module NavigationUI {
  import opened JsValues
  import opened PlanetTypes
  import opened PortfolioStore
  import opened App

  /** The button of `p` is drawn highlighted. */
  predicate Highlighted(s: PortfolioState, p: Planet)
    ensures Highlighted(s, p) && p.id != "" ==> IndicatorShown(s)
    ensures Highlighted(s, p) ==> s.currentPlanet.Some? && s.currentPlanet.value == p.id
  {
    s.currentPlanet == Some(p.id)
  }

  /** The desktop buttons of the hovered planet are tinted. */
  predicate HoverTinted(s: PortfolioState, p: Planet)
    ensures HoverTinted(s, p) ==> s.hoveredPlanet.Some? && s.hoveredPlanet.value == p.id
  {
    s.hoveredPlanet == Some(p.id)
  }

  /** The "Currently visiting" indicator is rendered (a truthy current
      planet); in every store state that is exactly while travelling. */
  predicate IndicatorShown(s: PortfolioState)
    ensures IndicatorShown(s) ==> s.currentPlanet.Some? && s.currentPlanet.value != ""
    ensures TransitionTracksCurrent(s) ==> (IndicatorShown(s) <==> s.isTransitioning)
  {
    Truthy(s.currentPlanet)
  }

  /** With distinct ids at most one button is highlighted; after a click on
      a known planet it is exactly that planet's button, and the indicator
      is shown unless the id is empty. */
  lemma {:induction false} HighlightFollowsClick(s: PortfolioState, i: nat)
    requires i < |s.planets|
    requires forall a, b :: 0 <= a < b < |s.planets| ==> s.planets[a].id != s.planets[b].id
    ensures var t := PlanetClicked(s, s.planets[i].id);
            forall j :: 0 <= j < |t.planets| ==> (Highlighted(t, t.planets[j]) <==> j == i)
    ensures IndicatorShown(PlanetClicked(s, s.planets[i].id)) <==> s.planets[i].id != ""
  {
    FindPlanetOfDistinctIds(s.planets, i);
  }

  /** At most one button is highlighted when the ids are distinct. */
  lemma AtMostOneHighlighted(s: PortfolioState, j: nat, k: nat)
    requires j < |s.planets| && k < |s.planets|
    requires forall a, b :: 0 <= a < b < |s.planets| ==> s.planets[a].id != s.planets[b].id
    requires Highlighted(s, s.planets[j]) && Highlighted(s, s.planets[k])
    ensures j == k
  {
  }

  /** Closing the modal removes the highlight and the indicator. */
  lemma CloseClearsHighlight(s: PortfolioState, p: Planet)
    ensures !Highlighted(ModalClosed(s), p)
    ensures !IndicatorShown(ModalClosed(s))
  {
  }

  /** No code ever sets the hovered planet: the scene's hover handler
      ignores its argument and the menu only clicks. So from the initial
      state, whatever the component events (a menu click is the same store
      change as a planet click), no entry is ever tinted. */
  lemma {:induction false} HoverNeverSet(a: AppState, events: seq<AppEvent>)
    ensures AppRun(a, events).store.hoveredPlanet == a.store.hoveredPlanet
    decreases |events|
  {
    if events != [] {
      HoverNeverSet(AppStep(a, events[0]), events[1..]);
    }
  }

  lemma NeverHoverTinted(events: seq<AppEvent>, p: Planet)
    ensures !HoverTinted(AppRun(AppInitial, events).store, p)
  {
    HoverNeverSet(AppInitial, events);
  }

  /** The overlay instance: its own `expanded` flag, and the shared store. */
  class NavigationMenu {
    var expanded: bool
    const store: Store

    constructor (store: Store)
      ensures !expanded && this.store == store
    {
      expanded := false;
      this.store := store;
    }

    /** handleNavClick: the same three store updates as the scene's click handler. */
    method HandleNavClick(planetId: string)
      modifies store
      ensures store.state == PlanetClicked(old(store.state), planetId)
    {
      var planet := FindPlanet(store.state.planets, planetId);
      if planet.None? {
        return;
      }
      store.SetSelectedPlanet(Some(planetId));
      store.SetCurrentPlanet(Some(planetId));
      store.SetModalOpen(true);
    }

    /** The mobile menu button. */
    method ToggleMenu()
      modifies this
      ensures expanded == !old(expanded)
    {
      expanded := !expanded;
    }

    /** A mobile menu item: the nav click, then the menu closes. */
    method MobileItemClick(planetId: string)
      modifies this, store
      ensures store.state == PlanetClicked(old(store.state), planetId)
      ensures !expanded
    {
      HandleNavClick(planetId);
      expanded := false;
    }
  }
}

=== FILE: performance.dfy ===
/** The performance helpers: a frame-rate monitor over one-second windows,
    a level-of-detail manager that shows one mesh of each group according
    to the camera's distance, and the caches and disposal lists that hold
    textures, geometries and clean-up callbacks. Time, distances and the
    objects handed in are parameters; the three.js objects are reduced to
    the flags the helpers change (`visible`, disposed). */
module Performance {
  import opened JsValues

  /** `Math.round(p / q)` for p >= 0 and a positive, possibly fractional,
      q: the nearest integer, halves rounded up. */
  function RoundDiv(p: nat, q: real): (r: nat)
    requires q > 0.0
    ensures (r as real) - 0.5 <= (p as real) / q < (r as real) + 0.5
  {
    var x := (p as real) / q;
    assert x >= 0.0 by {
      assert x * q == p as real;
    }
    (x + 0.5).Floor
  }

  /** A window of at least one second never reports more frames per second
      than it counted frames. */
  lemma FpsAtMostFrames(frames: nat, elapsed: real)
    requires elapsed >= 1000.0
    ensures RoundDiv(frames * 1000, elapsed) <= frames
  {
    var x := ((frames * 1000) as real) / elapsed;
    assert x * elapsed == (frames * 1000) as real;
    assert x <= frames as real;
  }

  /** The identity of a registered FPS callback. */
  type CallbackId = nat

  datatype Notification = Notification(callback: CallbackId, fps: int)

  /** The calls `callbacks.forEach(cb => cb(fps))` makes, in order. */
  function Notifications(callbacks: seq<CallbackId>, fps: int): (ns: seq<Notification>)
    ensures |ns| == |callbacks|
    ensures forall i :: 0 <= i < |ns| ==> ns[i] == Notification(callbacks[i], fps)
  {
    seq(|callbacks|, i requires 0 <= i < |callbacks| => Notification(callbacks[i], fps))
  }

  class PerformanceMonitor {
    var frameCount: nat
    var lastTime: real
    var fps: int
    var callbacks: seq<CallbackId>

    constructor ()
      ensures frameCount == 0 && lastTime == 0.0 && fps == 60 && callbacks == []
    {
      frameCount := 0;
      lastTime := 0.0;
      fps := 60;
      callbacks := [];
    }

    /** One frame at time `currentTime`, in milliseconds, possibly
        fractional. It returns the callback invocations it makes. */
    method Update(currentTime: real) returns (notified: seq<Notification>)
      modifies this
      ensures callbacks == old(callbacks)
      ensures currentTime >= old(lastTime) + 1000.0 ==>
                && fps == RoundDiv((old(frameCount) + 1) * 1000, currentTime - old(lastTime))
                && frameCount == 0 && lastTime == currentTime
                && notified == Notifications(callbacks, fps)
      ensures currentTime < old(lastTime) + 1000.0 ==>
                && frameCount == old(frameCount) + 1
                && fps == old(fps) && lastTime == old(lastTime)
                && notified == []
    {
      frameCount := frameCount + 1;
      notified := [];
      if currentTime >= lastTime + 1000.0 {
        fps := RoundDiv(frameCount * 1000, currentTime - lastTime);
        frameCount := 0;
        lastTime := currentTime;
        var i := 0;
        while i < |callbacks|
          invariant 0 <= i <= |callbacks|
          invariant notified == Notifications(callbacks[..i], fps)
        {
          notified := notified + [Notification(callbacks[i], fps)];
          i := i + 1;
        }
        assert callbacks[..i] == callbacks;
      }
    }

    method OnFPSUpdate(callback: CallbackId)
      modifies this
      ensures callbacks == old(callbacks) + [callback]
      ensures frameCount == old(frameCount) && lastTime == old(lastTime) && fps == old(fps)
    {
      callbacks := callbacks + [callback];
    }

    method GetFPS() returns (f: int)
      ensures f == fps
    {
      f := fps;
    }
  }

  /** The static `instance` slot of PerformanceMonitor. */
  class MonitorSlot {
    var instance: PerformanceMonitor?

    constructor ()
      ensures instance == null
    {
      instance := null;
    }

    /** getInstance: the first call creates the monitor, every later call
        returns that same object. */
    method GetInstance() returns (m: PerformanceMonitor)
      modifies this
      ensures instance == m
      ensures old(instance) != null ==> m == old(instance)
      ensures old(instance) == null ==> fresh(m) && m.frameCount == 0 && m.lastTime == 0.0 && m.fps == 60 && m.callbacks == []
    {
      if instance == null {
        instance := new PerformanceMonitor();
      }
      m := instance;
    }
  }

  /** A scene object as far as level of detail is concerned. */
  class SceneObject {
    var visible: bool

    constructor (visible: bool)
      ensures this.visible == visible
    {
      this.visible := visible;
    }
  }

  /** One assignment `obj.visible = value`. */
  datatype Write = Write(obj: SceneObject, value: bool)

  function Targets(ws: seq<Write>): set<SceneObject> {
    set i | 0 <= i < |ws| :: ws[i].obj
  }

  /** The value an object holds after a sequence of writes: the last one to it. */
  function LastWrite(ws: seq<Write>, o: SceneObject): (v: Option<bool>)
    ensures v.Some? <==> o in Targets(ws)
  {
    if ws == [] then None
    else if ws[|ws| - 1].obj == o then Some(ws[|ws| - 1].value)
    else
      var init := ws[..|ws| - 1];
      assert Targets(ws) == Targets(init) + {ws[|ws| - 1].obj} by {
        assert forall i :: 0 <= i < |init| ==> init[i] == ws[i];
      }
      LastWrite(init, o)
  }

  /** Writes in two batches: the second batch wins where it writes. */
  lemma {:induction false} LastWriteAppend(a: seq<Write>, b: seq<Write>, o: SceneObject)
    ensures LastWrite(a + b, o) == if o in Targets(b) then LastWrite(b, o) else LastWrite(a, o)
    decreases |b|
  {
    if b != [] {
      var b' := b[..|b| - 1];
      assert (a + b)[..|a + b| - 1] == a + b';
      LastWriteAppend(a, b', o);
      assert Targets(b) == Targets(b') + {b[|b| - 1].obj} by {
        assert forall i :: 0 <= i < |b'| ==> b'[i] == b[i];
      }
    } else {
      assert a + b == a;
    }
  }

  lemma TargetsAppend(a: seq<Write>, b: seq<Write>)
    ensures Targets(a + b) == Targets(a) + Targets(b)
  {
    assert forall j :: 0 <= j < |a| ==> (a + b)[j] == a[j];
    assert forall j :: 0 <= j < |b| ==> (a + b)[|a| + j] == b[j];
  }

  /** Performs the writes in order. */
  method ApplyWrites(ws: seq<Write>)
    modifies Targets(ws)
    ensures forall o :: o in Targets(ws) ==> o.visible == LastWrite(ws, o).value
  {
    var i := 0;
    while i < |ws|
      invariant 0 <= i <= |ws|
      invariant forall o :: o in Targets(ws[..i]) ==> o.visible == LastWrite(ws[..i], o).value
    {
      ws[i].obj.visible := ws[i].value;
      assert ws[..i + 1] == ws[..i] + [ws[i]];
      forall o | o in Targets(ws[..i + 1])
        ensures o.visible == LastWrite(ws[..i + 1], o).value
      {
        LastWriteAppend(ws[..i], [ws[i]], o);
      }
      i := i + 1;
    }
    assert ws[..i] == ws;
  }

  /** `lods.forEach((obj, index) => obj.visible = index === level)`. */
  function LevelWrites(objs: seq<SceneObject>, level: nat): (ws: seq<Write>)
    ensures Targets(ws) == set o | o in objs
  {
    var ws := seq(|objs|, j requires 0 <= j < |objs| => Write(objs[j], j == level));
    assert Targets(ws) == set o | o in objs by {
      forall o | o in objs
        ensures o in Targets(ws)
      {
        var j :| 0 <= j < |objs| && objs[j] == o;
        assert ws[j].obj == o;
      }
    }
    ws
  }

  predicate Distinct(objs: seq<SceneObject>) {
    forall i, j :: 0 <= i < j < |objs| ==> objs[i] != objs[j]
  }

  /** With no object listed twice, exactly the object at index `level` ends
      up visible, and none does when the level is past the end. */
  lemma {:induction false} LevelWritesShowOne(objs: seq<SceneObject>, level: nat, j: nat)
    requires Distinct(objs)
    requires j < |objs|
    ensures LastWrite(LevelWrites(objs, level), objs[j]) == Some(j == level)
    decreases |objs|
  {
    var ws := LevelWrites(objs, level);
    if j < |objs| - 1 {
      var init := objs[..|objs| - 1];
      LevelWritesShowOne(init, level, j);
      assert ws[..|ws| - 1] == LevelWrites(init, level);
    }
  }

  /** The detail thresholds; the fourth is never consulted. */
  const DistanceThresholds: seq<real> := [10.0, 30.0, 60.0, 100.0]

  /** The level chosen for a distance by the three successive threshold tests. */
  function LodLevel(distance: real): (level: nat)
    ensures level <= 3
    ensures level == 0 <==> distance <= DistanceThresholds[0]
    ensures level == 1 <==> DistanceThresholds[0] < distance <= DistanceThresholds[1]
    ensures level == 2 <==> DistanceThresholds[1] < distance <= DistanceThresholds[2]
    ensures level == 3 <==> DistanceThresholds[2] < distance
  {
    var level0 := 0;
    var level1 := if distance > DistanceThresholds[0] then 1 else level0;
    var level2 := if distance > DistanceThresholds[1] then 2 else level1;
    if distance > DistanceThresholds[2] then 3 else level2
  }

  /** Farther objects never get a more detailed level. */
  lemma LodLevelMonotone(d1: real, d2: real)
    requires d1 <= d2
    ensures LodLevel(d1) <= LodLevel(d2)
  {
  }

  /** The writes update() makes for the groups keyed by `ks`, in order. */
  function UpdateWrites(lods: map<SceneObject, seq<SceneObject>>, ks: seq<SceneObject>, distance: SceneObject -> real): seq<Write>
    requires forall k :: k in ks ==> k in lods
  {
    if ks == [] then []
    else
      var last := ks[|ks| - 1];
      UpdateWrites(lods, ks[..|ks| - 1], distance) + LevelWrites(lods[last], LodLevel(distance(last)))
  }

  /** No object of `xs` is in `ys`. */
  predicate Disjoint(xs: seq<SceneObject>, ys: seq<SceneObject>) {
    forall o :: o in xs ==> o !in ys
  }

  /** The groups keyed by `ks` share no object and none lists an object twice. */
  predicate SeparateGroups(lods: map<SceneObject, seq<SceneObject>>, ks: seq<SceneObject>)
    requires forall k :: k in ks ==> k in lods
  {
    && (forall a, b :: 0 <= a < |ks| && 0 <= b < |ks| && a != b ==> Disjoint(lods[ks[a]], lods[ks[b]]))
    && (forall k :: k in ks ==> Distinct(lods[k]))
  }

  /** For separate groups, the writes of update() leave in every group
      exactly the element at the level chosen for the distance of the
      group's key visible, and nothing visible in a group shorter than
      that level. */
  lemma {:induction false} GroupShowsItsLevel(lods: map<SceneObject, seq<SceneObject>>, ks: seq<SceneObject>,
                                              distance: SceneObject -> real, a: nat, j: nat)
    requires forall k :: k in ks ==> k in lods
    requires SeparateGroups(lods, ks)
    requires a < |ks| && j < |lods[ks[a]]|
    ensures LastWrite(UpdateWrites(lods, ks, distance), lods[ks[a]][j]) == Some(j == LodLevel(distance(ks[a])))
    decreases |ks|
  {
    var o := lods[ks[a]][j];
    var init := ks[..|ks| - 1];
    var last := ks[|ks| - 1];
    var tail := LevelWrites(lods[last], LodLevel(distance(last)));
    LastWriteAppend(UpdateWrites(lods, init, distance), tail, o);
    if a == |ks| - 1 {
      LevelWritesShowOne(lods[last], LodLevel(distance(last)), j);
    } else {
      assert Disjoint(lods[ks[a]], lods[ks[|ks| - 1]]);
      assert o !in Targets(tail);
      assert forall b :: 0 <= b < |init| ==> init[b] == ks[b];
      assert init[a] == ks[a];
      GroupShowsItsLevel(lods, init, distance, a, j);
    }
  }

  /** `[high, medium (if given), ...low]`. */
  function LodList(high: SceneObject, low: seq<SceneObject>, medium: Option<SceneObject>): (objs: seq<SceneObject>)
    ensures |objs| == 1 + (if medium.Some? then 1 else 0) + |low|
    ensures objs[0] == high
    ensures medium.Some? ==> objs[1] == medium.value && objs[2..] == low
    ensures medium.None? ==> objs[1..] == low
  {
    [high] + (if medium.Some? then [medium.value] else []) + low
  }

  class LODManager {
    /** The keys of the map in insertion order, and the map itself. */
    var keys: seq<SceneObject>
    var lods: map<SceneObject, seq<SceneObject>>

    predicate Valid()
      reads this
    {
      lods.Keys == (set k | k in keys) && Distinct(keys)
    }

    /** Every object in every group. */
    function Footprint(): set<SceneObject>
      reads this
    {
      set k, o | k in lods && o in lods[k] :: o
    }

    constructor ()
      ensures Valid() && keys == [] && lods == map[]
    {
      keys := [];
      lods := map[];
    }

    /** addLODObject: the group is stored under its high-detail object and
        only its first element is made visible. */
    method AddLODObject(high: SceneObject, low: seq<SceneObject>, medium: Option<SceneObject>)
      requires Valid()
      modifies this, set o | o in LodList(high, low, medium)
      ensures Valid()
      ensures lods == old(lods)[high := LodList(high, low, medium)]
      ensures keys == if high in old(keys) then old(keys) else old(keys) + [high]
      ensures forall o :: o in LodList(high, low, medium) ==>
                o.visible == LastWrite(LevelWrites(LodList(high, low, medium), 0), o).value
    {
      var objs := [high] + (if medium.Some? then [medium.value] else []) + low;
      lods := lods[high := objs];
      if high !in keys {
        keys := keys + [high];
      }
      ApplyWrites(LevelWrites(objs, 0));
    }

    /** update: each group, in insertion order, shows the level chosen for
        the distance of its high-detail object; an object in several groups
        keeps the value of the last write to it. */
    method Update(distance: SceneObject -> real)
      requires Valid()
      modifies Footprint()
      ensures forall o :: o in Targets(UpdateWrites(lods, keys, distance)) ==>
                o.visible == LastWrite(UpdateWrites(lods, keys, distance), o).value
      ensures SeparateGroups(lods, keys) ==>
                forall k, j :: k in keys && 0 <= j < |lods[k]| ==> lods[k][j].visible == (j == LodLevel(distance(k)))
    {
      var i := 0;
      ghost var done: seq<Write> := [];
      while i < |keys|
        invariant 0 <= i <= |keys|
        invariant done == UpdateWrites(lods, keys[..i], distance)
        invariant forall o :: o in Targets(done) ==> o.visible == LastWrite(done, o).value
      {
        var key := keys[i];
        var ws := LevelWrites(lods[key], LodLevel(distance(key)));
        assert Targets(ws) <= Footprint() by {
          forall o | o in lods[key]
            ensures o in Footprint()
          {
          }
        }
        ApplyWrites(ws);
        TargetsAppend(done, ws);
        forall o | o in Targets(done + ws)
          ensures o.visible == LastWrite(done + ws, o).value
        {
          LastWriteAppend(done, ws, o);
        }
        assert keys[..i + 1][..i] == keys[..i];
        done := done + ws;
        i := i + 1;
      }
      assert keys[..i] == keys;
      if SeparateGroups(lods, keys) {
        forall k, j | k in keys && 0 <= j < |lods[k]|
          ensures lods[k][j].visible == (j == LodLevel(distance(k)))
        {
          var a :| 0 <= a < |keys| && keys[a] == k;
          GroupShowsItsLevel(lods, keys, distance, a, j);
        }
      }
    }
  }

  /** A group that was added and has no object in common with any other
      group shows exactly the element of the level chosen for its distance. */
  lemma {:induction false} SoleGroupShowsItsLevel(ws: seq<Write>, objs: seq<SceneObject>, level: nat, j: nat)
    requires Distinct(objs) && j < |objs|
    requires objs[j] !in Targets(ws)
    ensures LastWrite(LevelWrites(objs, level) + ws, objs[j]) == Some(j == level)
  {
    LastWriteAppend(LevelWrites(objs, level), ws, objs[j]);
    LevelWritesShowOne(objs, level, j);
  }

  /** A three.js resource with a `dispose()` method. */
  class Disposable {
    var disposed: bool

    constructor ()
      ensures !disposed
    {
      disposed := false;
    }
  }

  /** The static texture cache of TextureManager (textures that finished loading). */
  class TextureCache {
    var cache: map<string, Disposable>

    constructor ()
      ensures cache == map[]
    {
      cache := map[];
    }

    /** The loader's success callback: the texture is cached under its url. */
    method Loaded(url: string, texture: Disposable)
      modifies this
      ensures cache == old(cache)[url := texture]
    {
      cache := cache[url := texture];
    }

    /** disposeTexture: a cached texture is disposed and forgotten; an
        unknown url changes nothing. */
    method DisposeTexture(url: string)
      modifies this, if url in cache then {cache[url]} else {}
      ensures cache == old(cache) - {url}
      ensures url in old(cache) ==> old(cache)[url].disposed
    {
      if url in cache {
        cache[url].disposed := true;
        cache := cache - {url};
      }
    }

    /** disposeAll: every cached texture is disposed and the cache emptied. */
    method DisposeAll()
      modifies this, cache.Values
      ensures cache == map[]
      ensures forall t :: t in old(cache).Values ==> t.disposed
    {
      var remaining := cache.Keys;
      while remaining != {}
        invariant cache == old(cache)
        invariant remaining <= cache.Keys
        invariant forall u :: u in cache && u !in remaining ==> cache[u].disposed
        decreases remaining
      {
        var u :| u in remaining;
        cache[u].disposed := true;
        remaining := remaining - {u};
      }
      forall t | t in old(cache).Values
        ensures t.disposed
      {
        var u :| u in cache && cache[u] == t;
      }
      cache := map[];
    }
  }

  /** The static list of clean-up callbacks of MemoryManager. */
  class MemoryManager {
    var disposables: seq<CallbackId>

    constructor ()
      ensures disposables == []
    {
      disposables := [];
    }

    method AddDisposable(dispose: CallbackId)
      modifies this
      ensures disposables == old(disposables) + [dispose]
    {
      disposables := disposables + [dispose];
    }

    /** disposeAll: every callback is called once, in the order added, and
        the list is emptied. It returns the calls made. */
    method DisposeAll() returns (calls: seq<CallbackId>)
      modifies this
      ensures calls == old(disposables)
      ensures disposables == []
    {
      calls := [];
      var i := 0;
      while i < |disposables|
        invariant 0 <= i <= |disposables|
        invariant calls == disposables[..i]
      {
        calls := calls + [disposables[i]];
        i := i + 1;
      }
      assert disposables[..i] == disposables;
      disposables := [];
    }
  }

  datatype Shape = Sphere | Box | Cone

  /** The cache key `${shape}_${a}_${b}_${c}`: three numbers never contain
      "_", so distinct parameters give distinct keys. */
  datatype GeometryKey = GeometryKey(shape: Shape, a: real, b: real, c: real)

  class Geometry {
    const key: GeometryKey
    var disposed: bool

    constructor (key: GeometryKey)
      ensures this.key == key && !disposed
    {
      this.key := key;
      disposed := false;
    }
  }

  /** The static geometry cache of GeometryFactory. */
  class GeometryFactory {
    var geometries: map<GeometryKey, Geometry>

    /** Every cached geometry was built from the parameters of its key. */
    predicate Valid()
      reads this, geometries.Values
    {
      forall k :: k in geometries ==> geometries[k].key == k
    }

    constructor ()
      ensures Valid() && geometries == map[]
    {
      geometries := map[];
    }

    /** The shared body of getSphere, getBox and getCone. */
    method Get(key: GeometryKey) returns (g: Geometry)
      requires Valid()
      modifies this
      ensures Valid()
      ensures key in geometries && g == geometries[key] && g.key == key
      ensures key in old(geometries) ==> g == old(geometries)[key] && geometries == old(geometries)
      ensures key !in old(geometries) ==> fresh(g) && !g.disposed && geometries == old(geometries)[key := g]
    {
      if key !in geometries {
        var created := new Geometry(key);
        geometries := geometries[key := created];
      }
      g := geometries[key];
    }

    method GetSphere(radius: real, widthSegments: real, heightSegments: real) returns (g: Geometry)
      requires Valid()
      modifies this
      ensures Valid()
      ensures GeometryKey(Sphere, radius, widthSegments, heightSegments) in geometries && g == geometries[GeometryKey(Sphere, radius, widthSegments, heightSegments)]
      ensures g.key == GeometryKey(Sphere, radius, widthSegments, heightSegments)
      ensures GeometryKey(Sphere, radius, widthSegments, heightSegments) in old(geometries) ==>
                g == old(geometries)[GeometryKey(Sphere, radius, widthSegments, heightSegments)] && geometries == old(geometries)
      ensures GeometryKey(Sphere, radius, widthSegments, heightSegments) !in old(geometries) ==>
                fresh(g) && geometries == old(geometries)[GeometryKey(Sphere, radius, widthSegments, heightSegments) := g]
    {
      g := Get(GeometryKey(Sphere, radius, widthSegments, heightSegments));
    }

    method GetBox(width: real, height: real, depth: real) returns (g: Geometry)
      requires Valid()
      modifies this
      ensures Valid()
      ensures GeometryKey(Box, width, height, depth) in geometries && g == geometries[GeometryKey(Box, width, height, depth)]
      ensures g.key == GeometryKey(Box, width, height, depth)
      ensures GeometryKey(Box, width, height, depth) in old(geometries) ==>
                g == old(geometries)[GeometryKey(Box, width, height, depth)] && geometries == old(geometries)
      ensures GeometryKey(Box, width, height, depth) !in old(geometries) ==>
                fresh(g) && geometries == old(geometries)[GeometryKey(Box, width, height, depth) := g]
    {
      g := Get(GeometryKey(Box, width, height, depth));
    }

    method GetCone(radius: real, height: real, radialSegments: real) returns (g: Geometry)
      requires Valid()
      modifies this
      ensures Valid()
      ensures GeometryKey(Cone, radius, height, radialSegments) in geometries && g == geometries[GeometryKey(Cone, radius, height, radialSegments)]
      ensures g.key == GeometryKey(Cone, radius, height, radialSegments)
      ensures GeometryKey(Cone, radius, height, radialSegments) in old(geometries) ==>
                g == old(geometries)[GeometryKey(Cone, radius, height, radialSegments)] && geometries == old(geometries)
      ensures GeometryKey(Cone, radius, height, radialSegments) !in old(geometries) ==>
                fresh(g) && geometries == old(geometries)[GeometryKey(Cone, radius, height, radialSegments) := g]
    {
      g := Get(GeometryKey(Cone, radius, height, radialSegments));
    }

    /** disposeAll: every cached geometry is disposed and the cache emptied. */
    method DisposeAll()
      modifies this, geometries.Values
      ensures geometries == map[]
      ensures forall g :: g in old(geometries).Values ==> g.disposed
    {
      var remaining := geometries.Keys;
      while remaining != {}
        invariant geometries == old(geometries)
        invariant remaining <= geometries.Keys
        invariant forall k :: k in geometries && k !in remaining ==> geometries[k].disposed
        decreases remaining
      {
        var k :| k in remaining;
        geometries[k].disposed := true;
        remaining := remaining - {k};
      }
      forall g | g in old(geometries).Values
        ensures g.disposed
      {
        var k :| k in geometries && geometries[k] == g;
      }
      geometries := map[];
    }
  }
}

=== FILE: planet_data.dfy ===
/** The constant table of the nine planets of the portfolio, in orbit order
    from the innermost (About, at Mercury's distance) to the outermost
    (Pluto), and the facts about it that the site's comments and types state. */
module PlanetData {
  import opened JsValues
  import opened PlanetTypes

  const Origin: Coordinates := Coordinates(0.0, 0.0, 0.0)

  function Props(roughness: real, metalness: real, emissiveIntensity: real): MaterialProps {
    MaterialProps(Some(roughness), Some(metalness), Some(emissiveIntensity))
  }

  function Text(title: string): ContentSection {
    ContentSection("text", title, Prose)
  }

  function Link(title: string, description: string, technologies: seq<string>): Project {
    Project(title, description, technologies, Some("#"), None, None)
  }

  const About: Planet := Planet(
    "about", "About", Origin, 12.0, 0.88, 0.6, "#8C7853", Some("#6B5637"),
    PlanetContent("About Me", Some("Nhật Vũ Nguyễn"),
      [Text("Software Engineer"), Text("Background")]),
    None, Some(Props(0.7, 0.3, 0.1)))

  const CoreTechnologies: seq<Skill> := [
    Skill("JavaScript", 5, "language"),
    Skill("TypeScript", 5, "language"),
    Skill("React", 5, "framework"),
    Skill("Node.js", 4, "framework"),
    Skill("Rust", 4, "language"),
    Skill("Go", 3, "language")]

  const Specializations: seq<Skill> := [
    Skill("Full Stack Development", 5, "concept"),
    Skill("Data Visualization", 4, "concept"),
    Skill("Infrastructure as Code", 4, "concept"),
    Skill("WebGL/Three.js", 4, "framework"),
    Skill("CAE Integration", 5, "concept")]

  const SkillsPlanet: Planet := Planet(
    "skills", "Skills", Origin, 18.0, 0.62, 0.9, "#FFC649", Some("#FFB300"),
    PlanetContent("Technical Skills", None,
      [ContentSection("skills", "Core Technologies", Skills(CoreTechnologies)),
       ContentSection("skills", "Specializations", Skills(Specializations))]),
    None, Some(Props(0.8, 0.35, 0.15)))

  const EducationalJourney: seq<TimelineEntry> := [
    TimelineEntry("B.S. Software Engineering", "University Degree", "2015-2019",
      "Focused on software development, algorithms, and system design with honors distinction", "education"),
    TimelineEntry("Aerospace Engineering Studies", "Technical Institute", "2013-2015",
      "Fundamentals of aerospace engineering, CAE/FEA analysis, and mechanical design", "education"),
    TimelineEntry("Full-Stack Development Certification", "Bootcamp", "2020",
      "Intensive full-stack development training with modern web technologies", "education")]

  const Education: Planet := Planet(
    "education", "Education", Origin, 22.0, 1.0, 1.0, "#4A90E2", Some("#2E5FCC"),
    PlanetContent("Education & Certifications", None,
      [ContentSection("timeline", "Educational Journey", Timeline(EducationalJourney))]),
    None, Some(Props(0.6, 0.1, 0.1)))

  const MajorWorks: seq<Project> := [
    Link("CAE WebViewer", "Interactive 3D CAE results visualization in web browser",
      ["React.js", "Rust", "WebGL", "Socket.io", "Ceetron", "HOOPS"]),
    Link("Digital Twin Project", "Real-time industrial digital twin with CAE integration",
      ["React.js", "Rust", "Go", "PostgreSQL", "Mapbox", "CAE"]),
    Link("Maritime Research Web App", "Advanced maritime data analysis and visualization platform",
      ["React.js", "Chart.js", "Rust", "Go", "gRPC", "ParaView"]),
    Link("Report Maker", "Automated report generation system with interactive charts",
      ["React.js", "Chart.js", "MySQL"])]

  const ProjectsPlanet: Planet := Planet(
    "projects", "Projects", Origin, 25.0, 0.53, 0.8, "#CD5C5C", Some("#B22222"),
    PlanetContent("Featured Projects", None,
      [ContentSection("projects", "Major Works", Projects(MajorWorks))]),
    None, Some(Props(0.8, 0.15, 0.12)))

  const Tools: Planet := Planet(
    "tools", "Tools", Origin, 32.0, 0.084, 2.5, "#DAA520", Some("#B8860B"),
    PlanetContent("Development Tools", None, [Text("Primary Technologies")]),
    None, Some(Props(0.4, 0.3, 0.2)))

  const CareerPath: seq<TimelineEntry> := [
    TimelineEntry("Senior Software Engineer", "Current Company", "2022-Present",
      "Leading development of complex software systems with focus on CAE integration and 3D visualization technologies", "work"),
    TimelineEntry("Full-Stack Developer", "Tech Startup", "2020-2022",
      "Developed and maintained multiple web applications using modern JavaScript frameworks", "work"),
    TimelineEntry("Aerospace Engineer", "Engineering Firm", "2015-2020",
      "CAE/FEA analysis and aerospace system design with simulation software", "work")]

  const Experience: Planet := Planet(
    "experience", "Experience", Origin, 50.0, 0.034, 2.2, "#F4E7D1", Some("#E6D4A1"),
    PlanetContent("Experience Journey", None,
      [ContentSection("timeline", "Career Path", Timeline(CareerPath))]),
    None, Some(Props(0.5, 0.25, 0.18)))

  const Uranus: Planet := Planet(
    "uranus", "Uranus", Origin, 60.0, 0.012, 1.8, "#4FD0E7", Some("#3CB4CC"),
    PlanetContent("Innovation & Research", None,
      [Text("Cutting-Edge Technologies"), Text("Research Interests")]),
    None, Some(Props(0.6, 0.2, 0.15)))

  const Neptune: Planet := Planet(
    "neptune", "Neptune", Origin, 70.0, 0.006, 1.7, "#4B70DD", Some("#2E5AA5"),
    PlanetContent("Publications & Achievements", None,
      [Text("Technical Publications"), Text("Achievements")]),
    None, Some(Props(0.6, 0.2, 0.15)))

  const Pluto: Planet := Planet(
    "pluto", "Pluto", Origin, 80.0, 0.004, 0.4, "#D2B48C", Some("#A0826D"),
    PlanetContent("Future Goals & Vision", None,
      [Text("Long-term Vision"), Text("Personal Mission")]),
    None, Some(Props(0.8, 0.2, 0.1)))

  /** planetData */
  const Planets: seq<Planet> :=
    [About, SkillsPlanet, Education, ProjectsPlanet, Tools, Experience, Uranus, Neptune, Pluto]

  /** The ids in list order. */
  lemma PlanetIds()
    ensures |Planets| == 9
    ensures seq(|Planets|, i requires 0 <= i < |Planets| => Planets[i].id) ==
            ["about", "skills", "education", "projects", "tools", "experience", "uranus", "neptune", "pluto"]
  {
  }

  /** Nine entries with pairwise different ids. */
  lemma {:induction false} IdsDistinct()
    ensures forall a, b :: 0 <= a < b < |Planets| ==> Planets[a].id != Planets[b].id
  {
    PlanetIds();
    var ids := ["about", "skills", "education", "projects", "tools", "experience", "uranus", "neptune", "pluto"];
    assert forall i :: 0 <= i < |Planets| ==> Planets[i].id == ids[i];
    assert forall a, b :: 0 <= a < b < |ids| ==> ids[a][0] != ids[b][0] || |ids[a]| != |ids[b]| || ids[a] != ids[b];
  }

  /** Looking up any planet's id finds that planet. */
  lemma {:induction false} FindEveryPlanet(i: nat)
    requires i < |Planets|
    ensures FindPlanet(Planets, Planets[i].id) == Some(Planets[i])
  {
    IdsDistinct();
    FindPlanetOfDistinctIds(Planets, i);
  }

  /** No id is empty, so every id is truthy when stored as the selected planet. */
  lemma IdsNonEmpty()
    ensures forall i :: 0 <= i < |Planets| ==> Planets[i].id != ""
  {
  }

  /** Pluto is the smallest planet and the slowest, as its comments say. */
  lemma PlutoSmallestAndSlowest()
    ensures Planets[8] == Pluto
    ensures forall i :: 0 <= i < |Planets| ==> Pluto.size <= Planets[i].size
    ensures forall i :: 0 <= i < |Planets| ==> Pluto.orbitSpeed <= Planets[i].orbitSpeed
    ensures forall i :: 0 <= i < |Planets| - 1 ==> Pluto.size < Planets[i].size && Pluto.orbitSpeed < Planets[i].orbitSpeed
  {
  }

  /** Orbit radii strictly increase in list order, from Mercury's to Pluto's. */
  lemma OrbitRadiiIncrease()
    ensures forall a, b :: 0 <= a < b < |Planets| ==> Planets[a].orbitRadius < Planets[b].orbitRadius
  {
  }

  /** Every section is well tagged, every skill level lies in 1..5 and every
      category and timeline kind is one the content type admits. */
  lemma {:induction false} SectionsValid()
    ensures forall i, j :: 0 <= i < |Planets| && 0 <= j < |Planets[i].content.sections| ==>
              ValidSection(Planets[i].content.sections[j])
  {
    InnerPlanetsValid();
    OuterPlanetsValid();
    DwarfPlanetsValid();
  }

  predicate SectionsOf(p: Planet) {
    forall j :: 0 <= j < |p.content.sections| ==> ValidSection(p.content.sections[j])
  }

  lemma InnerPlanetsValid()
    ensures SectionsOf(About) && SectionsOf(SkillsPlanet) && SectionsOf(Education)
  {
  }

  lemma OuterPlanetsValid()
    ensures SectionsOf(ProjectsPlanet) && SectionsOf(Tools) && SectionsOf(Experience)
  {
  }

  lemma DwarfPlanetsValid()
    ensures SectionsOf(Uranus) && SectionsOf(Neptune) && SectionsOf(Pluto)
  {
  }

  /** No planet has the id "contact", so the colour tables' "contact" cases
      are never reached by this table. */
  lemma NoContactPlanet()
    ensures forall i :: 0 <= i < |Planets| ==> Planets[i].id != "contact"
  {
  }
}

=== FILE: planet_types.dfy ===
/** The content model of the portfolio: a planet per section of the site,
    each with its orbit parameters, colours and the content shown in its
    modal. Tag fields that the site declares as a union of string literals
    are kept as strings, so that their validity is a checkable fact about the
    data rather than a consequence of the types. */
module PlanetTypes {
  import opened JsValues

  datatype Coordinates = Coordinates(x: real, y: real, z: real)

  datatype MaterialProps = MaterialProps(
    roughness: Option<real>,
    metalness: Option<real>,
    emissiveIntensity: Option<real>)

  /** A skill; `level` is documented as lying in 1..5. */
  datatype Skill = Skill(name: string, level: int, category: string)

  datatype Project = Project(
    title: string,
    description: string,
    technologies: seq<string>,
    link: Option<string>,
    github: Option<string>,
    image: Option<string>)

  datatype TimelineEntry = TimelineEntry(
    title: string,
    company: string,
    period: string,
    description: string,
    kind: string)

  datatype ContactInfo = ContactInfo(email: string, github: string, linkedin: string, website: Option<string>)

  /** The payload of a section. The prose of text sections is not reproduced. */
  datatype SectionContent =
    | Prose
    | Skills(skills: seq<Skill>)
    | Projects(projects: seq<Project>)
    | Timeline(entries: seq<TimelineEntry>)
    | Contact(info: ContactInfo)

  datatype ContentSection = ContentSection(kind: string, title: string, content: SectionContent)

  datatype PlanetContent = PlanetContent(title: string, subtitle: Option<string>, sections: seq<ContentSection>)

  datatype Planet = Planet(
    id: string,
    name: string,
    position: Coordinates,
    orbitRadius: real,
    orbitSpeed: real,
    size: real,
    color: string,
    emissiveColor: Option<string>,
    content: PlanetContent,
    texture: Option<string>,
    materialProps: Option<MaterialProps>)

  /** The section tags the content type admits. */
  const SectionTypes: set<string> := {"text", "skills", "projects", "timeline", "contact"}

  /** The skill categories the content type admits. */
  const SkillCategories: set<string> := {"language", "framework", "tool", "concept"}

  /** The timeline entry kinds the content type admits. */
  const EntryKinds: set<string> := {"work", "education", "achievement"}

  /** A section's tag is one of the five and names the shape of its payload. */
  predicate WellTaggedSection(s: ContentSection) {
    && s.kind in SectionTypes
    && (s.kind == "text" <==> s.content.Prose?)
    && (s.kind == "skills" <==> s.content.Skills?)
    && (s.kind == "projects" <==> s.content.Projects?)
    && (s.kind == "timeline" <==> s.content.Timeline?)
    && (s.kind == "contact" <==> s.content.Contact?)
  }

  predicate ValidSkill(k: Skill) {
    1 <= k.level <= 5 && k.category in SkillCategories
  }

  predicate ValidSection(s: ContentSection) {
    && WellTaggedSection(s)
    && (s.content.Skills? ==> forall k :: k in s.content.skills ==> ValidSkill(k))
    && (s.content.Timeline? ==> forall e :: e in s.content.entries ==> e.kind in EntryKinds)
  }

  /** `planets.find(p => p.id === id)`: the first planet with that id. */
  function FindPlanet(planets: seq<Planet>, id: string): (r: Option<Planet>)
    ensures r.None? <==> forall i :: 0 <= i < |planets| ==> planets[i].id != id
    ensures r.Some? ==> r.value.id == id && r.value in planets
  {
    Find(planets, (p: Planet) => p.id == id)
  }

  /** With distinct ids, the first-match lookup of a planet's id finds that planet. */
  lemma {:induction false} FindPlanetOfDistinctIds(planets: seq<Planet>, i: nat)
    requires i < |planets|
    requires forall a, b :: 0 <= a < b < |planets| ==> planets[a].id != planets[b].id
    ensures FindPlanet(planets, planets[i].id) == Some(planets[i])
  {
    var r := FindPlanet(planets, planets[i].id);
    var k :| 0 <= k < |planets| && planets[k] == r.value && planets[k].id == planets[i].id &&
             forall j :: 0 <= j < k ==> planets[j].id != planets[i].id;
    assert k == i;
  }
}

=== FILE: portfolio_store.dfy ===
/** The navigation store: one record of navigation, shuttle and camera state,
    rewritten by named actions. Each action is a function on the record that
    says what it changes and that everything else stays as it was; the
    `Store` class holds the record and applies the actions in place. The
    shuttle's trail keeps the last twenty points and fades them out over two
    seconds of the clock, which is passed in as `now`. */
module PortfolioStore {
  import opened JsValues
  import opened PlanetTypes

  /** three.js vectors and Euler angles, as plain values. */
  datatype Vector3 = Vector3(x: real, y: real, z: real)
  datatype Euler = Euler(x: real, y: real, z: real)

  /** A `[number, number, number]` tuple. */
  datatype Triple = Triple(a: real, b: real, c: real)

  datatype TrailPoint = TrailPoint(position: Vector3, timestamp: int, opacity: real)

  datatype ShuttleState = ShuttleState(
    position: Vector3,
    targetPosition: Option<Vector3>,
    rotation: Euler,
    targetRotation: Option<Euler>,
    isMoving: bool,
    targetPlanet: Option<string>,
    trail: seq<TrailPoint>)

  datatype CameraState = CameraState(position: Triple, target: Triple, zoom: real)

  /** A `Partial<CameraState>`: the fields the caller supplies. */
  datatype CameraUpdate = CameraUpdate(position: Option<Triple>, target: Option<Triple>, zoom: Option<real>)

  /** The longest trail kept, and the time in milliseconds a point takes to fade out. */
  const TrailLength: nat := 20
  const FadeMillis: int := 2000

  const InitialShuttle: ShuttleState :=
    ShuttleState(Vector3(0.0, 0.0, 0.0), None, Euler(0.0, 0.0, 0.0), None, false, None, [])

  const InitialCamera: CameraState :=
    CameraState(Triple(0.0, 5.0, 20.0), Triple(0.0, 0.0, 0.0), 1.0)

  /** `arr.slice(-n)`: the last n elements, or all of them if there are fewer. */
  function KeepLast<T>(s: seq<T>, n: nat): (r: seq<T>)
    ensures |r| == if |s| <= n then |s| else n
    ensures r == s[|s| - |r|..]
  {
    if |s| <= n then s else s[|s| - n..]
  }

  /** The trail after a point is added at the end and only the last twenty are kept. */
  function AppendTrail(trail: seq<TrailPoint>, p: TrailPoint): (r: seq<TrailPoint>)
    ensures 1 <= |r| <= TrailLength
    ensures |r| == if |trail| < TrailLength then |trail| + 1 else TrailLength
    ensures r[|r| - 1] == p
    ensures r[..|r| - 1] == trail[|trail| + 1 - |r|..]
  {
    var r := KeepLast(trail + [p], TrailLength);
    assert r[..|r| - 1] == (trail + [p])[|trail| + 1 - |r|..|trail|];
    r
  }

  /** `Math.max(0, 1 - (now - timestamp) / 2000)`. */
  function FadeOpacity(now: int, timestamp: int): (o: real)
    ensures o >= 0.0
    ensures o > 0.0 <==> now - timestamp < FadeMillis
    ensures o <= 1.0 <==> timestamp <= now
    ensures o == 1.0 <==> timestamp == now
  {
    var o := 1.0 - (now - timestamp) as real / FadeMillis as real;
    if o < 0.0 then 0.0 else o
  }

  /** A point with its opacity recomputed at time `now`. */
  function Refaded(p: TrailPoint, now: int): TrailPoint {
    p.(opacity := FadeOpacity(now, p.timestamp))
  }

  /** The map-then-filter pipeline of updateTrail. */
  function UpdatedTrail(trail: seq<TrailPoint>, now: int): (r: seq<TrailPoint>)
    ensures |r| <= |trail|
    ensures forall i :: 0 <= i < |r| ==> r[i].opacity > 0.0
    decreases |trail|
  {
    if trail == [] then []
    else
      var p := Refaded(trail[0], now);
      (if p.opacity > 0.0 then [p] else []) + UpdatedTrail(trail[1..], now)
  }

  /** Two trail points are the same point, whatever their opacities. */
  predicate SamePoint(p: TrailPoint, q: TrailPoint) {
    p.position == q.position && p.timestamp == q.timestamp
  }

  /** `r` is `trail` with some points left out and the rest in their original order. */
  predicate SubsequenceOf(r: seq<TrailPoint>, trail: seq<TrailPoint>)
    decreases |trail|
  {
    if r == [] then true
    else if trail == [] then false
    else (SamePoint(r[0], trail[0]) && SubsequenceOf(r[1..], trail[1..])) || SubsequenceOf(r, trail[1..])
  }

  /** updateTrail keeps the surviving points in their original order. */
  lemma {:induction false} UpdatedTrailIsSubsequence(trail: seq<TrailPoint>, now: int)
    ensures SubsequenceOf(UpdatedTrail(trail, now), trail)
    decreases |trail|
  {
    if trail != [] {
      UpdatedTrailIsSubsequence(trail[1..], now);
      var p := Refaded(trail[0], now);
      var rest := UpdatedTrail(trail[1..], now);
      if p.opacity > 0.0 {
        assert ([p] + rest)[1..] == rest;
      } else {
        assert UpdatedTrail(trail, now) == rest;
      }
    }
  }

  /** A point survives updateTrail exactly when it is younger than two
      seconds, and every survivor is an input point with its opacity
      recomputed. */
  lemma {:induction false} UpdatedTrailMembers(trail: seq<TrailPoint>, now: int)
    ensures forall i :: 0 <= i < |trail| ==>
              (Refaded(trail[i], now) in UpdatedTrail(trail, now) <==> now - trail[i].timestamp < FadeMillis)
    ensures forall q :: q in UpdatedTrail(trail, now) ==>
              exists i :: 0 <= i < |trail| && q == Refaded(trail[i], now) && now - trail[i].timestamp < FadeMillis
    decreases |trail|
  {
    if trail != [] {
      UpdatedTrailMembers(trail[1..], now);
      var r := UpdatedTrail(trail, now);
      var rest := UpdatedTrail(trail[1..], now);
      var p := Refaded(trail[0], now);
      assert r == (if p.opacity > 0.0 then [p] else []) + rest;
      forall i | 0 <= i < |trail|
        ensures Refaded(trail[i], now) in r <==> now - trail[i].timestamp < FadeMillis
      {
        if i > 0 {
          assert trail[i] == trail[1..][i - 1];
        }
        if Refaded(trail[i], now) in r {
          assert Refaded(trail[i], now).opacity > 0.0;
        }
      }
      forall q | q in r
        ensures exists i :: 0 <= i < |trail| && q == Refaded(trail[i], now) && now - trail[i].timestamp < FadeMillis
      {
        if q in rest {
          var j :| 0 <= j < |trail[1..]| && q == Refaded(trail[1..][j], now) && now - trail[1..][j].timestamp < FadeMillis;
          assert trail[1..][j] == trail[j + 1];
        } else {
          assert q == p;
        }
      }
    }
  }

  /** Running updateTrail twice at the same instant is the same as running it once. */
  lemma {:induction false} UpdatedTrailIdempotent(trail: seq<TrailPoint>, now: int)
    ensures UpdatedTrail(UpdatedTrail(trail, now), now) == UpdatedTrail(trail, now)
    decreases |trail|
  {
    if trail != [] {
      UpdatedTrailIdempotent(trail[1..], now);
      var p := Refaded(trail[0], now);
      var rest := UpdatedTrail(trail[1..], now);
      if p.opacity > 0.0 {
        assert ([p] + rest)[0] == p && ([p] + rest)[1..] == rest;
        assert Refaded(p, now) == p;
        assert UpdatedTrail([p] + rest, now) == [p] + UpdatedTrail(rest, now);
      } else {
        assert UpdatedTrail(trail, now) == rest;
      }
    }
  }

  /** A trail updated at a later time is no longer. */
  lemma {:induction false} UpdatedTrailShrinksOverTime(trail: seq<TrailPoint>, now: int, later: int)
    requires now <= later
    ensures |UpdatedTrail(trail, later)| <= |UpdatedTrail(trail, now)|
    decreases |trail|
  {
    if trail != [] {
      UpdatedTrailShrinksOverTime(trail[1..], now, later);
    }
  }

  /** The store record. */
  datatype PortfolioState = PortfolioState(
    currentPlanet: Option<string>,
    isTransitioning: bool,
    modalOpen: bool,
    activeContent: Option<string>,
    planets: seq<Planet>,
    shuttle: ShuttleState,
    camera: CameraState,
    selectedPlanet: Option<string>,
    hoveredPlanet: Option<string>)
  {
    function SetPlanets(ps: seq<Planet>): (t: PortfolioState)
      ensures t.planets == ps
      ensures t.(planets := planets) == this
    {
      this.(planets := ps)
    }

    /** The planet being visited; the transition flag is the JavaScript
        truthiness of the id, so both null and "" clear it. */
    function SetCurrentPlanet(planetId: Option<string>): (t: PortfolioState)
      ensures t.currentPlanet == planetId
      ensures t.isTransitioning <==> planetId.Some? && planetId.value != ""
      ensures t.(currentPlanet := currentPlanet, isTransitioning := isTransitioning) == this
    {
      this.(currentPlanet := planetId, isTransitioning := Truthy(planetId))
    }

    function SetModalOpen(open: bool): (t: PortfolioState)
      ensures t.modalOpen == open
      ensures t.(modalOpen := modalOpen) == this
    {
      this.(modalOpen := open)
    }

    function SetActiveContent(content: Option<string>): (t: PortfolioState)
      ensures t.activeContent == content
      ensures t.(activeContent := activeContent) == this
    {
      this.(activeContent := content)
    }

    function SetSelectedPlanet(planetId: Option<string>): (t: PortfolioState)
      ensures t.selectedPlanet == planetId
      ensures t.(selectedPlanet := selectedPlanet) == this
    {
      this.(selectedPlanet := planetId)
    }

    function SetHoveredPlanet(planetId: Option<string>): (t: PortfolioState)
      ensures t.hoveredPlanet == planetId
      ensures t.(hoveredPlanet := hoveredPlanet) == this
    {
      this.(hoveredPlanet := planetId)
    }

    /** The shuttle heads for a planet: the targets are set and it is moving;
        its position, rotation and trail stay. */
    function MoveShuttleToPlanet(planetId: string, targetPosition: Vector3, targetRotation: Euler): (t: PortfolioState)
      ensures t.shuttle.targetPosition == Some(targetPosition) && t.shuttle.targetRotation == Some(targetRotation)
      ensures t.shuttle.isMoving && t.shuttle.targetPlanet == Some(planetId)
      ensures t.shuttle.position == shuttle.position && t.shuttle.rotation == shuttle.rotation
      ensures t.shuttle.trail == shuttle.trail
      ensures t.(shuttle := shuttle) == this
    {
      this.(shuttle := shuttle.(targetPosition := Some(targetPosition), targetRotation := Some(targetRotation),
                                isMoving := true, targetPlanet := Some(planetId)))
    }

    function UpdateShuttlePosition(position: Vector3): (t: PortfolioState)
      ensures t.shuttle.position == position
      ensures t.(shuttle := t.shuttle.(position := shuttle.position)) == this
    {
      this.(shuttle := shuttle.(position := position))
    }

    function UpdateShuttleRotation(rotation: Euler): (t: PortfolioState)
      ensures t.shuttle.rotation == rotation
      ensures t.(shuttle := t.shuttle.(rotation := shuttle.rotation)) == this
    {
      this.(shuttle := shuttle.(rotation := rotation))
    }

    /** A copy of the position, stamped with `now` at full opacity, ends the
        trail, of which only the last twenty points are kept. */
    function AddTrailPoint(position: Vector3, now: int): (t: PortfolioState)
      ensures 1 <= |t.shuttle.trail| <= TrailLength
      ensures |t.shuttle.trail| == if |shuttle.trail| < TrailLength then |shuttle.trail| + 1 else TrailLength
      ensures t.shuttle.trail[|t.shuttle.trail| - 1] == TrailPoint(position, now, 1.0)
      ensures t.shuttle.trail[..|t.shuttle.trail| - 1] == shuttle.trail[|shuttle.trail| + 1 - |t.shuttle.trail|..]
      ensures SubsequenceOf(t.shuttle.trail[..|t.shuttle.trail| - 1], shuttle.trail)
      ensures t.(shuttle := t.shuttle.(trail := shuttle.trail)) == this
    {
      var trail := AppendTrail(shuttle.trail, TrailPoint(position, now, 1.0));
      SuffixIsSubsequence(shuttle.trail, |shuttle.trail| + 1 - |trail|);
      this.(shuttle := shuttle.(trail := trail))
    }

    /** Points are faded by their age at `now` and the invisible ones dropped. */
    function UpdateTrail(now: int): (t: PortfolioState)
      ensures SubsequenceOf(t.shuttle.trail, shuttle.trail)
      ensures forall i :: 0 <= i < |t.shuttle.trail| ==> t.shuttle.trail[i].opacity > 0.0
      ensures forall i :: 0 <= i < |shuttle.trail| ==>
                (Refaded(shuttle.trail[i], now) in t.shuttle.trail <==> now - shuttle.trail[i].timestamp < FadeMillis)
      ensures forall q :: q in t.shuttle.trail ==>
                exists i :: 0 <= i < |shuttle.trail| && q == Refaded(shuttle.trail[i], now)
      ensures t.(shuttle := t.shuttle.(trail := shuttle.trail)) == this
    {
      UpdatedTrailIsSubsequence(shuttle.trail, now);
      UpdatedTrailMembers(shuttle.trail, now);
      this.(shuttle := shuttle.(trail := UpdatedTrail(shuttle.trail, now)))
    }

    function SetCamera(update: CameraUpdate): (t: PortfolioState)
      ensures t.camera == MergeCamera(camera, update)
      ensures t.(camera := camera) == this
    {
      this.(camera := MergeCamera(camera, update))
    }

    /** The shuttle goes back to its initial state and no planet is current;
        the planets, the modal, the camera and the selection stay. */
    function ResetShuttle(): (t: PortfolioState)
      ensures t.shuttle == InitialShuttle && t.currentPlanet.None? && !t.isTransitioning
      ensures t.planets == planets && t.modalOpen == modalOpen && t.camera == camera
      ensures t.selectedPlanet == selectedPlanet && t.hoveredPlanet == hoveredPlanet
      ensures t.activeContent == activeContent
    {
      this.(shuttle := InitialShuttle, currentPlanet := None, isTransitioning := false)
    }
  }

  const Initial: PortfolioState :=
    PortfolioState(None, false, false, None, [], InitialShuttle, InitialCamera, None, None)

  /** `{ ...camera, ...update }`: a supplied field wins, a missing one keeps its value. */
  function MergeCamera(camera: CameraState, update: CameraUpdate): (c: CameraState)
    ensures c.position == update.position.GetOr(camera.position)
    ensures c.target == update.target.GetOr(camera.target)
    ensures c.zoom == update.zoom.GetOr(camera.zoom)
  {
    CameraState(update.position.GetOr(camera.position), update.target.GetOr(camera.target),
                update.zoom.GetOr(camera.zoom))
  }

  /** Two camera updates in a row: the later one's fields win. */
  function ThenUpdate(first: CameraUpdate, second: CameraUpdate): CameraUpdate {
    CameraUpdate(if second.position.Some? then second.position else first.position,
                 if second.target.Some? then second.target else first.target,
                 if second.zoom.Some? then second.zoom else first.zoom)
  }

  /** An empty update changes nothing, a full one replaces the camera, and
      two updates in a row are one merged update. */
  lemma MergeCameraLaws(camera: CameraState, u: CameraUpdate, v: CameraUpdate)
    ensures MergeCamera(camera, CameraUpdate(None, None, None)) == camera
    ensures u.position.Some? && u.target.Some? && u.zoom.Some? ==>
              MergeCamera(camera, u) == CameraState(u.position.value, u.target.value, u.zoom.value)
    ensures MergeCamera(MergeCamera(camera, u), v) == MergeCamera(camera, ThenUpdate(u, v))
    ensures MergeCamera(MergeCamera(camera, u), u) == MergeCamera(camera, u)
  {
  }

  /** The travelling flag is the truthiness of the current planet. */
  predicate TransitionTracksCurrent(s: PortfolioState) {
    s.isTransitioning <==> Truthy(s.currentPlanet)
  }

  /** The initial state and every action keep the travelling flag equal to
      the truthiness of the current planet: only setCurrentPlanet and
      resetShuttle touch either field, and both set them together. */
  lemma TransitionFlagInvariant(s: PortfolioState, ps: seq<Planet>, p: Option<string>, b: bool, v: Vector3,
                                e: Euler, id: string, now: int, u: CameraUpdate)
    requires TransitionTracksCurrent(s)
    ensures TransitionTracksCurrent(Initial)
    ensures TransitionTracksCurrent(s.SetPlanets(ps)) && TransitionTracksCurrent(s.SetCurrentPlanet(p))
    ensures TransitionTracksCurrent(s.SetModalOpen(b)) && TransitionTracksCurrent(s.SetActiveContent(p))
    ensures TransitionTracksCurrent(s.SetSelectedPlanet(p)) && TransitionTracksCurrent(s.SetHoveredPlanet(p))
    ensures TransitionTracksCurrent(s.MoveShuttleToPlanet(id, v, e))
    ensures TransitionTracksCurrent(s.UpdateShuttlePosition(v)) && TransitionTracksCurrent(s.UpdateShuttleRotation(e))
    ensures TransitionTracksCurrent(s.AddTrailPoint(v, now)) && TransitionTracksCurrent(s.UpdateTrail(now))
    ensures TransitionTracksCurrent(s.SetCamera(u)) && TransitionTracksCurrent(s.ResetShuttle())
  {
  }

  /** Any suffix of a sequence is a subsequence of it. */
  lemma {:induction false} SuffixIsSubsequence(s: seq<TrailPoint>, k: nat)
    requires k <= |s|
    ensures SubsequenceOf(s[k..], s)
    decreases |s|
  {
    if s != [] {
      if k == 0 {
        SubsequenceReflexive(s);
      } else {
        SuffixIsSubsequence(s[1..], k - 1);
        assert s[1..][k - 1..] == s[k..];
      }
    }
  }

  lemma {:induction false} SubsequenceReflexive(s: seq<TrailPoint>)
    ensures SubsequenceOf(s, s)
    decreases |s|
  {
    if s != [] {
      SubsequenceReflexive(s[1..]);
    }
  }

  /** Adding points never lets the trail grow past twenty, whatever it held before. */
  lemma TrailBounded(s: PortfolioState, position: Vector3, now: int)
    requires |s.shuttle.trail| <= TrailLength
    ensures |s.AddTrailPoint(position, now).shuttle.trail| <= TrailLength
    ensures |s.UpdateTrail(now).shuttle.trail| <= TrailLength
  {
  }

  /** A trail point added at `now` survives an update at the same instant,
      with full opacity, and is gone once two seconds have passed. */
  lemma {:induction false} FreshPointSurvivesUntilFaded(s: PortfolioState, position: Vector3, now: int, later: int)
    requires now <= later
    ensures var trail := s.AddTrailPoint(position, now).shuttle.trail;
            (TrailPoint(position, now, FadeOpacity(later, now)) in UpdatedTrail(trail, later) <==> later - now < FadeMillis)
    ensures var trail := s.AddTrailPoint(position, now).shuttle.trail;
            TrailPoint(position, now, 1.0) in UpdatedTrail(trail, now)
  {
    var trail := s.AddTrailPoint(position, now).shuttle.trail;
    var last := |trail| - 1;
    UpdatedTrailMembers(trail, later);
    UpdatedTrailMembers(trail, now);
    assert Refaded(trail[last], later) == TrailPoint(position, now, FadeOpacity(later, now));
    assert Refaded(trail[last], now) == TrailPoint(position, now, 1.0);
  }

  /** The store: the record held in place and rewritten by each action. */
  class Store {
    var state: PortfolioState

    constructor ()
      ensures state == Initial
    {
      state := Initial;
    }

    method SetPlanets(planets: seq<Planet>)
      modifies this
      ensures state == old(state).SetPlanets(planets)
    {
      state := state.(planets := planets);
    }

    method SetCurrentPlanet(planetId: Option<string>)
      modifies this
      ensures state == old(state).SetCurrentPlanet(planetId)
    {
      state := state.(currentPlanet := planetId, isTransitioning := Truthy(planetId));
    }

    method SetModalOpen(open: bool)
      modifies this
      ensures state == old(state).SetModalOpen(open)
    {
      state := state.(modalOpen := open);
    }

    method SetActiveContent(content: Option<string>)
      modifies this
      ensures state == old(state).SetActiveContent(content)
    {
      state := state.(activeContent := content);
    }

    method SetSelectedPlanet(planetId: Option<string>)
      modifies this
      ensures state == old(state).SetSelectedPlanet(planetId)
    {
      state := state.(selectedPlanet := planetId);
    }

    method SetHoveredPlanet(planetId: Option<string>)
      modifies this
      ensures state == old(state).SetHoveredPlanet(planetId)
    {
      state := state.(hoveredPlanet := planetId);
    }

    method MoveShuttleToPlanet(planetId: string, targetPosition: Vector3, targetRotation: Euler)
      modifies this
      ensures state == old(state).MoveShuttleToPlanet(planetId, targetPosition, targetRotation)
    {
      var shuttle := state.shuttle.(targetPosition := Some(targetPosition), targetRotation := Some(targetRotation),
                                    isMoving := true, targetPlanet := Some(planetId));
      state := state.(shuttle := shuttle);
    }

    method UpdateShuttlePosition(position: Vector3)
      modifies this
      ensures state == old(state).UpdateShuttlePosition(position)
    {
      state := state.(shuttle := state.shuttle.(position := position));
    }

    method UpdateShuttleRotation(rotation: Euler)
      modifies this
      ensures state == old(state).UpdateShuttleRotation(rotation)
    {
      state := state.(shuttle := state.shuttle.(rotation := rotation));
    }

    /** `now` stands for Date.now(). */
    method AddTrailPoint(position: Vector3, now: int)
      modifies this
      ensures state == old(state).AddTrailPoint(position, now)
    {
      var trail := KeepLast(state.shuttle.trail + [TrailPoint(position, now, 1.0)], TrailLength);
      state := state.(shuttle := state.shuttle.(trail := trail));
    }

    /** `now` stands for Date.now(). */
    method UpdateTrail(now: int)
      modifies this
      ensures state == old(state).UpdateTrail(now)
    {
      var trail := UpdatedTrail(state.shuttle.trail, now);
      state := state.(shuttle := state.shuttle.(trail := trail));
    }

    method SetCamera(update: CameraUpdate)
      modifies this
      ensures state == old(state).SetCamera(update)
    {
      state := state.(camera := MergeCamera(state.camera, update));
    }

    method ResetShuttle()
      modifies this
      ensures state == old(state).ResetShuttle()
    {
      state := state.(shuttle := InitialShuttle, currentPlanet := None, isTransitioning := false);
    }
  }
}

=== FILE: seo.dfy ===
/** The head manager: merging the default meta data with a partial override,
    the setters that update the first matching tag of the document head or
    append a new one, and the replacement of the structured-data script.
    The head is a sequence of tags in document order; the current location
    is a parameter. */
module Seo {
  import opened JsValues

  /** The attribute a meta tag is keyed by. */
  datatype MetaAttr = NameAttr | PropertyAttr

  datatype Tag =
    | Meta(attr: MetaAttr, key: string, content: string)
    | Link(rel: string, href: string)
    | Script(scriptType: string, text: string)
    | OtherTag(markup: string)

  /** The three selectors the setters query: `meta[name="…"]`,
      `meta[property="…"]` and `link[rel="…"]`. */
  datatype Selector = MetaNamed(name: string) | MetaWithProperty(property: string) | LinkWithRel(rel: string)

  /** The attribute value a selector looks for. */
  function KeyOf(sel: Selector): string {
    match sel
    case MetaNamed(n) => n
    case MetaWithProperty(p) => p
    case LinkWithRel(r) => r
  }

  predicate Selects(sel: Selector, t: Tag) {
    match sel
    case MetaNamed(n) => t.Meta? && t.attr == NameAttr && t.key == n
    case MetaWithProperty(p) => t.Meta? && t.attr == PropertyAttr && t.key == p
    case LinkWithRel(r) => t.Link? && t.rel == r
  }

  /** The value a setter assigns: a meta tag's content, a link's href. */
  function ValueOf(t: Tag): string {
    match t
    case Meta(_, _, content) => content
    case Link(_, href) => href
    case _ => ""
  }

  /** The tag a setter creates when none matches, with its value assigned. */
  function Created(sel: Selector, value: string): (t: Tag)
    ensures Selects(sel, t) && ValueOf(t) == value
    ensures forall other :: Selects(other, t) ==> other == sel
  {
    match sel
    case MetaNamed(n) => Meta(NameAttr, n, value)
    case MetaWithProperty(p) => Meta(PropertyAttr, p, value)
    case LinkWithRel(r) => Link(r, value)
  }

  /** Assigning the value of a found tag keeps what selects it. */
  function WithValue(t: Tag, value: string): (u: Tag)
    ensures ValueOf(u) == value || !(t.Meta? || t.Link?)
    ensures forall sel :: Selects(sel, u) <==> Selects(sel, t)
    ensures ValueOf(t) == value ==> u == t
  {
    match t
    case Meta(a, k, _) => Meta(a, k, value)
    case Link(r, _) => Link(r, value)
    case _ => t
  }

  /** `document.querySelector(sel)` on the head: the index of the first
      matching tag in document order, or -1. */
  function FirstMatch(head: seq<Tag>, sel: Selector): (i: int)
    ensures -1 <= i < |head|
    ensures i == -1 <==> forall j :: 0 <= j < |head| ==> !Selects(sel, head[j])
    ensures i != -1 ==> Selects(sel, head[i]) && forall j :: 0 <= j < i ==> !Selects(sel, head[j])
  {
    FindIndex(head, (t: Tag) => Selects(sel, t))
  }

  /** Query, create and append if missing, then assign the value. */
  function Upsert(head: seq<Tag>, sel: Selector, value: string): (h: seq<Tag>)
    ensures |h| == if FirstMatch(head, sel) == -1 then |head| + 1 else |head|
    ensures FirstMatch(h, sel) != -1 && ValueOf(h[FirstMatch(h, sel)]) == value
    ensures FirstMatch(head, sel) != -1 ==> FirstMatch(h, sel) == FirstMatch(head, sel)
    ensures forall j :: 0 <= j < |head| && j != FirstMatch(head, sel) ==> h[j] == head[j]
  {
    var i := FirstMatch(head, sel);
    if i == -1 then
      var h := head + [Created(sel, value)];
      assert Selects(sel, h[|head|]);
      h
    else
      var h := head[i := WithValue(head[i], value)];
      assert forall j :: 0 <= j < |h| ==> (Selects(sel, h[j]) <==> Selects(sel, head[j]));
      h
  }

  /** Two heads that agree on which of the first |a| tags a selector
      picks, where the longer has no further match, have the same first
      match. */
  lemma FirstMatchOfSameSelection(a: seq<Tag>, b: seq<Tag>, sel: Selector)
    requires |a| <= |b|
    requires forall j :: 0 <= j < |a| ==> (Selects(sel, a[j]) <==> Selects(sel, b[j]))
    requires forall j :: |a| <= j < |b| ==> !Selects(sel, b[j])
    ensures FirstMatch(b, sel) == FirstMatch(a, sel)
  {
  }

  /** An upsert for one selector leaves the first match of every other
      selector where it was, and that tag unchanged. */
  lemma {:induction false} UpsertKeepsOthers(head: seq<Tag>, sel: Selector, value: string, other: Selector)
    requires other != sel
    ensures FirstMatch(Upsert(head, sel, value), other) == FirstMatch(head, other)
    ensures FirstMatch(head, other) != -1 ==>
              Upsert(head, sel, value)[FirstMatch(head, other)] == head[FirstMatch(head, other)]
  {
    var h := Upsert(head, sel, value);
    var i := FirstMatch(head, sel);
    if i == -1 {
      assert h == head + [Created(sel, value)];
    } else {
      assert h == head[i := WithValue(head[i], value)];
    }
    FirstMatchOfSameSelection(head, h, other);
  }

  /** One setter call: skip when the content is falsy (if the setter checks
      it), otherwise upsert. */
  datatype Op = Op(sel: Selector, value: Option<string>, skipIfEmpty: bool)

  function Apply(head: seq<Tag>, op: Op): (h: seq<Tag>)
    ensures Settled(h, op)
    ensures op.skipIfEmpty && !Truthy(op.value) ==> h == head
    ensures !(op.skipIfEmpty && !Truthy(op.value)) ==>
              && |h| == (if FirstMatch(head, op.sel) == -1 then |head| + 1 else |head|)
              && FirstMatch(h, op.sel) != -1 && ValueOf(h[FirstMatch(h, op.sel)]) == JsString(op.value)
              && (FirstMatch(head, op.sel) != -1 ==> FirstMatch(h, op.sel) == FirstMatch(head, op.sel))
              && (forall j :: 0 <= j < |head| && j != FirstMatch(head, op.sel) ==> h[j] == head[j])
  {
    if op.skipIfEmpty && !Truthy(op.value) then head
    else Upsert(head, op.sel, JsString(op.value))
  }

  /** The op has nothing left to do: it is skipped, or the first tag it
      selects already carries its value. */
  predicate Settled(head: seq<Tag>, op: Op) {
    || (op.skipIfEmpty && !Truthy(op.value))
    || (FirstMatch(head, op.sel) != -1 && ValueOf(head[FirstMatch(head, op.sel)]) == JsString(op.value))
  }

  /** A settled op changes nothing. */
  lemma {:induction false} ApplySettled(head: seq<Tag>, op: Op)
    requires Settled(head, op)
    ensures Apply(head, op) == head
  {
    if !(op.skipIfEmpty && !Truthy(op.value)) {
      var i := FirstMatch(head, op.sel);
      assert WithValue(head[i], JsString(op.value)) == head[i];
      assert head[i := head[i]] == head;
    }
  }

  /** An op for another selector keeps a settled op settled. */
  lemma {:induction false} ApplyKeepsSettled(head: seq<Tag>, op: Op, other: Op)
    requires Settled(head, other) && other.sel != op.sel
    ensures Settled(Apply(head, op), other)
  {
    if !(op.skipIfEmpty && !Truthy(op.value)) {
      UpsertKeepsOthers(head, op.sel, JsString(op.value), other.sel);
    }
  }

  /** The setter calls in order. */
  function ApplyAll(head: seq<Tag>, ops: seq<Op>): seq<Tag>
    decreases |ops|
  {
    if ops == [] then head else ApplyAll(Apply(head, ops[0]), ops[1..])
  }

  predicate DistinctSelectors(ops: seq<Op>) {
    forall i, j :: 0 <= i < j < |ops| ==> ops[i].sel != ops[j].sel
  }

  lemma {:induction false} ApplyAllKeepsSettled(head: seq<Tag>, ops: seq<Op>, other: Op)
    requires Settled(head, other)
    requires forall i :: 0 <= i < |ops| ==> ops[i].sel != other.sel
    ensures Settled(ApplyAll(head, ops), other)
    decreases |ops|
  {
    if ops != [] {
      ApplyKeepsSettled(head, ops[0], other);
      ApplyAllKeepsSettled(Apply(head, ops[0]), ops[1..], other);
    }
  }

  /** After a run of setter calls for distinct selectors, every one of them
      is settled. */
  lemma {:induction false} ApplyAllSettles(head: seq<Tag>, ops: seq<Op>)
    requires DistinctSelectors(ops)
    ensures forall i :: 0 <= i < |ops| ==> Settled(ApplyAll(head, ops), ops[i])
    ensures forall op :: op in ops ==> Settled(ApplyAll(head, ops), op)
    decreases |ops|
  {
    if ops != [] {
      var h1 := Apply(head, ops[0]);
      ApplyAllSettles(h1, ops[1..]);
      ApplyAllKeepsSettled(h1, ops[1..], ops[0]);
      forall i | 0 <= i < |ops|
        ensures Settled(ApplyAll(head, ops), ops[i])
      {
        if i > 0 {
          assert ops[i] == ops[1..][i - 1];
        }
      }
    }
  }

  lemma {:induction false} ApplyAllOfSettled(head: seq<Tag>, ops: seq<Op>)
    requires forall i :: 0 <= i < |ops| ==> Settled(head, ops[i])
    ensures ApplyAll(head, ops) == head
    decreases |ops|
  {
    if ops != [] {
      ApplySettled(head, ops[0]);
      ApplyAllOfSettled(head, ops[1..]);
    }
  }

  /** Repeating a run of setter calls for distinct selectors changes nothing. */
  lemma ApplyAllIdempotent(head: seq<Tag>, ops: seq<Op>)
    requires DistinctSelectors(ops)
    ensures ApplyAll(ApplyAll(head, ops), ops) == ApplyAll(head, ops)
  {
    ApplyAllSettles(head, ops);
    ApplyAllOfSettled(ApplyAll(head, ops), ops);
  }

  /** The meta data record; after the merge any field may be undefined. */
  datatype MetaTags = MetaTags(
    title: Option<string>,
    description: Option<string>,
    keywords: Option<string>,
    author: Option<string>,
    image: Option<string>,
    url: Option<string>,
    pageType: Option<string>)

  /** A field of a partial override: absent, or present with a value that
      may itself be undefined. */
  datatype Override = Keep | Replace(value: Option<string>)

  datatype PartialMeta = PartialMeta(
    title: Override,
    description: Override,
    keywords: Override,
    author: Override,
    image: Override,
    url: Override,
    pageType: Override)

  const NoOverrides: PartialMeta := PartialMeta(Keep, Keep, Keep, Keep, Keep, Keep, Keep)

  const DefaultMeta: MetaTags := MetaTags(
    Some("Nhật Vũ Nguyễn - 3D Portfolio"),
    Some("Interactive 3D solar system portfolio showcasing software engineering skills, full-stack development, and CAE expertise"),
    Some("3D portfolio, React, Three.js, Software Engineer, Full Stack, CAE, FEA, TypeScript, Rust, Go"),
    Some("Nhật Vũ Nguyễn"),
    None,
    None,
    Some("website"))

  function Pick(default: Option<string>, o: Override): Option<string> {
    match o
    case Keep => default
    case Replace(v) => v
  }

  /** `{ ...defaults, ...meta }`: every key present in the override wins,
      even with an undefined value; every absent key keeps the default. */
  function Merge(defaults: MetaTags, meta: PartialMeta): (m: MetaTags)
    ensures meta == NoOverrides ==> m == defaults
    ensures meta.title.Replace? ==> m.title == meta.title.value
    ensures meta.title.Keep? ==> m.title == defaults.title
    ensures meta.description.Replace? ==> m.description == meta.description.value
    ensures meta.description.Keep? ==> m.description == defaults.description
    ensures meta.keywords.Replace? ==> m.keywords == meta.keywords.value
    ensures meta.keywords.Keep? ==> m.keywords == defaults.keywords
    ensures meta.author.Replace? ==> m.author == meta.author.value
    ensures meta.author.Keep? ==> m.author == defaults.author
    ensures meta.image.Replace? ==> m.image == meta.image.value
    ensures meta.image.Keep? ==> m.image == defaults.image
    ensures meta.url.Replace? ==> m.url == meta.url.value
    ensures meta.url.Keep? ==> m.url == defaults.url
    ensures meta.pageType.Replace? ==> m.pageType == meta.pageType.value
    ensures meta.pageType.Keep? ==> m.pageType == defaults.pageType
  {
    MetaTags(
      Pick(defaults.title, meta.title),
      Pick(defaults.description, meta.description),
      Pick(defaults.keywords, meta.keywords),
      Pick(defaults.author, meta.author),
      Pick(defaults.image, meta.image),
      Pick(defaults.url, meta.url),
      Pick(defaults.pageType, meta.pageType))
  }

  /** Two overrides spread one after the other: the later key wins. */
  function Combine(a: PartialMeta, b: PartialMeta): PartialMeta {
    PartialMeta(
      if b.title.Keep? then a.title else b.title,
      if b.description.Keep? then a.description else b.description,
      if b.keywords.Keep? then a.keywords else b.keywords,
      if b.author.Keep? then a.author else b.author,
      if b.image.Keep? then a.image else b.image,
      if b.url.Keep? then a.url else b.url,
      if b.pageType.Keep? then a.pageType else b.pageType)
  }

  /** Merging twice is merging the combined override, and merging the same
      override again changes nothing. */
  lemma MergeLaws(d: MetaTags, a: PartialMeta, b: PartialMeta)
    ensures Merge(Merge(d, a), b) == Merge(d, Combine(a, b))
    ensures Merge(Merge(d, a), a) == Merge(d, a)
  {
  }

  const TwitterCard: string := "summary_large_image"

  /** `finalMeta.url || window.location.href`. */
  function UrlOrLocation(url: Option<string>, href: string): (r: string)
    ensures Truthy(url) ==> r == url.value
    ensures !Truthy(url) ==> r == href
  {
    if Truthy(url) then url.value else href
  }

  /** The setter calls of updateMetaTags, in order, in the groups its
      comments name: the standard meta tags, Open Graph, Twitter Card and
      the canonical link. */
  function StandardOps(m: MetaTags): seq<Op> {
    [ Op(MetaNamed("description"), m.description, true),
      Op(MetaNamed("keywords"), m.keywords, true),
      Op(MetaNamed("author"), m.author, true) ]
  }

  function OpenGraphOps(m: MetaTags, url: string): seq<Op> {
    [ Op(MetaWithProperty("og:title"), m.title, true),
      Op(MetaWithProperty("og:description"), m.description, true),
      Op(MetaWithProperty("og:type"), m.pageType, true),
      Op(MetaWithProperty("og:image"), m.image, true),
      Op(MetaWithProperty("og:url"), Some(url), true) ]
  }

  function TwitterOps(m: MetaTags): seq<Op> {
    [ Op(MetaNamed("twitter:card"), Some(TwitterCard), true),
      Op(MetaNamed("twitter:title"), m.title, true),
      Op(MetaNamed("twitter:description"), m.description, true),
      Op(MetaNamed("twitter:image"), m.image, true) ]
  }

  function CanonicalOp(url: string): Op {
    Op(LinkWithRel("canonical"), Some(url), false)
  }

  function MetaOps(m: MetaTags, href: string): seq<Op> {
    var url := UrlOrLocation(m.url, href);
    StandardOps(m) + OpenGraphOps(m, url) + TwitterOps(m) + [CanonicalOp(url)]
  }

  lemma {:induction false} ApplyAllConcat(head: seq<Tag>, a: seq<Op>, b: seq<Op>)
    ensures ApplyAll(head, a + b) == ApplyAll(ApplyAll(head, a), b)
    decreases |a|
  {
    if a == [] {
      assert a + b == b;
    } else {
      assert (a + b)[1..] == a[1..] + b;
      ApplyAllConcat(Apply(head, a[0]), a[1..], b);
    }
  }

  /** The thirteen selectors are pairwise different. */
  lemma MetaOpsDistinct(m: MetaTags, href: string)
    ensures |MetaOps(m, href)| == 13
    ensures DistinctSelectors(MetaOps(m, href))
  {
    var url := UrlOrLocation(m.url, href);
    var ops := MetaOps(m, href);
    assert ops == StandardOps(m) + OpenGraphOps(m, url) + TwitterOps(m) + [CanonicalOp(url)];
    assert forall i, j :: 0 <= i < j < |ops| ==>
      ops[i].sel.MetaNamed? != ops[j].sel.MetaNamed? ||
      ops[i].sel.MetaWithProperty? != ops[j].sel.MetaWithProperty? ||
      |KeyOf(ops[i].sel)| != |KeyOf(ops[j].sel)| ||
      KeyOf(ops[i].sel)[3] != KeyOf(ops[j].sel)[3] ||
      KeyOf(ops[i].sel)[|KeyOf(ops[i].sel)| - 1] != KeyOf(ops[j].sel)[|KeyOf(ops[j].sel)| - 1] ||
      ops[i].sel != ops[j].sel;
  }

  /** updateMetaTags on the head: the new title and head. */
  function UpdatedHead(head: seq<Tag>, meta: PartialMeta, href: string): seq<Tag> {
    ApplyAll(head, MetaOps(Merge(DefaultMeta, meta), href))
  }

  /** Calling updateMetaTags twice with the same argument leaves the head
      as one call does. */
  lemma UpdateMetaTagsIdempotent(head: seq<Tag>, meta: PartialMeta, href: string)
    ensures UpdatedHead(UpdatedHead(head, meta, href), meta, href) == UpdatedHead(head, meta, href)
  {
    var ops := MetaOps(Merge(DefaultMeta, meta), href);
    MetaOpsDistinct(Merge(DefaultMeta, meta), href);
    ApplyAllIdempotent(head, ops);
  }

  /** After updateMetaTags the first twitter:card tag says
      "summary_large_image", and the first og:url tag and the first
      canonical link carry the given url or, without one, the location. */
  lemma UpdateMetaTagsSetsCardAndUrls(head: seq<Tag>, meta: PartialMeta, href: string)
    requires href != ""
    ensures var h := UpdatedHead(head, meta, href);
            var url := UrlOrLocation(Merge(DefaultMeta, meta).url, href);
            && FirstMatch(h, MetaNamed("twitter:card")) != -1
            && ValueOf(h[FirstMatch(h, MetaNamed("twitter:card"))]) == TwitterCard
            && FirstMatch(h, MetaWithProperty("og:url")) != -1
            && ValueOf(h[FirstMatch(h, MetaWithProperty("og:url"))]) == url
            && FirstMatch(h, LinkWithRel("canonical")) != -1
            && ValueOf(h[FirstMatch(h, LinkWithRel("canonical"))]) == url
  {
    var m := Merge(DefaultMeta, meta);
    var url := UrlOrLocation(m.url, href);
    var ops := MetaOps(m, href);
    MetaOpsDistinct(m, href);
    ApplyAllSettles(head, ops);
    assert ops == StandardOps(m) + OpenGraphOps(m, url) + TwitterOps(m) + [CanonicalOp(url)];
    assert OpenGraphOps(m, url)[4] in ops;
    assert TwitterOps(m)[0] in ops;
    assert CanonicalOp(url) in ops;
  }

  const LdJson: string := "application/ld+json"

  predicate IsLdJson(t: Tag) {
    t.Script? && t.scriptType == LdJson
  }

  /** The number of structured-data scripts in the head. */
  function LdCount(head: seq<Tag>): nat
    decreases |head|
  {
    if head == [] then 0
    else (if IsLdJson(head[|head| - 1]) then 1 else 0) + LdCount(head[..|head| - 1])
  }

  lemma {:induction false} LdCountConcat(a: seq<Tag>, b: seq<Tag>)
    ensures LdCount(a + b) == LdCount(a) + LdCount(b)
    decreases |b|
  {
    if b == [] {
      assert a + b == a;
    } else {
      assert (a + b)[..|a + b| - 1] == a + b[..|b| - 1];
      LdCountConcat(a, b[..|b| - 1]);
    }
  }

  lemma {:induction false} LdCountZero(head: seq<Tag>)
    requires forall j :: 0 <= j < |head| ==> !IsLdJson(head[j])
    ensures LdCount(head) == 0
    decreases |head|
  {
    if head != [] {
      LdCountZero(head[..|head| - 1]);
    }
  }

  /** setStructuredData: remove the first structured-data script, if any,
      and append the new one; every other tag keeps its place. */
  function ReplaceStructuredData(head: seq<Tag>, text: string): (h: seq<Tag>)
    ensures |h| > 0 && h[|h| - 1] == Script(LdJson, text)
    ensures (forall j :: 0 <= j < |head| ==> !IsLdJson(head[j])) ==> h == head + [Script(LdJson, text)]
    ensures forall i :: 0 <= i < |head| && IsLdJson(head[i]) && (forall j :: 0 <= j < i ==> !IsLdJson(head[j])) ==>
              h == head[..i] + head[i + 1..] + [Script(LdJson, text)]
    ensures LdCount(h) == if LdCount(head) == 0 then 1 else LdCount(head)
  {
    var i := FindIndex(head, IsLdJson);
    if i == -1 then
      LdCountZero(head);
      LdCountConcat(head, [Script(LdJson, text)]);
      head + [Script(LdJson, text)]
    else
      assert head == head[..i] + [head[i]] + head[i + 1..];
      LdCountConcat(head[..i] + [head[i]], head[i + 1..]);
      LdCountConcat(head[..i], [head[i]]);
      LdCountConcat(head[..i], head[i + 1..]);
      LdCountConcat(head[..i] + head[i + 1..], [Script(LdJson, text)]);
      assert LdCount([head[i]]) == 1;
      head[..i] + head[i + 1..] + [Script(LdJson, text)]
  }

  lemma {:induction false} LdCountZeroNone(head: seq<Tag>)
    requires LdCount(head) == 0
    ensures forall j :: 0 <= j < |head| ==> !IsLdJson(head[j])
    decreases |head|
  {
    if head != [] {
      LdCountZeroNone(head[..|head| - 1]);
      assert forall j :: 0 <= j < |head| - 1 ==> head[j] == head[..|head| - 1][j];
    }
  }

  /** Starting from a head with at most one structured-data script, the
      script just set is the only one. */
  lemma {:induction false} StructuredDataSingle(head: seq<Tag>, text: string)
    requires LdCount(head) <= 1
    ensures var h := ReplaceStructuredData(head, text);
            LdCount(h) == 1 && forall j :: 0 <= j < |h| - 1 ==> !IsLdJson(h[j])
  {
    var h := ReplaceStructuredData(head, text);
    var prefix := h[..|h| - 1];
    assert h == prefix + [h[|h| - 1]];
    LdCountConcat(prefix, [h[|h| - 1]]);
    assert LdCount([h[|h| - 1]]) == 1;
    LdCountZeroNone(prefix);
  }

  /** The document: its title and the tags of its head. */
  class HeadDocument {
    var title: string
    var head: seq<Tag>

    constructor (title: string, head: seq<Tag>)
      ensures this.title == title && this.head == head
    {
      this.title := title;
      this.head := head;
    }

    /** querySelector over the head, in document order. */
    method QuerySelector(sel: Selector) returns (i: int)
      ensures i == FirstMatch(head, sel)
    {
      var k := 0;
      while k < |head|
        invariant 0 <= k <= |head|
        invariant forall j :: 0 <= j < k ==> !Selects(sel, head[j])
      {
        if Selects(sel, head[k]) {
          return k;
        }
        k := k + 1;
      }
      return -1;
    }

    /** The body the four setters share: query, create and append if
        missing, assign the value. */
    method UpsertTag(sel: Selector, value: string)
      modifies this
      ensures head == Upsert(old(head), sel, value) && title == old(title)
    {
      var i := QuerySelector(sel);
      if i == -1 {
        head := head + [Created(sel, value)];
      } else {
        head := head[i := WithValue(head[i], value)];
      }
    }

    method SetMetaTag(name: string, content: Option<string>)
      modifies this
      ensures head == Apply(old(head), Op(MetaNamed(name), content, true)) && title == old(title)
    {
      if !Truthy(content) {
        return;
      }
      UpsertTag(MetaNamed(name), content.value);
    }

    method SetMetaProperty(property: string, content: Option<string>)
      modifies this
      ensures head == Apply(old(head), Op(MetaWithProperty(property), content, true)) && title == old(title)
    {
      if !Truthy(content) {
        return;
      }
      UpsertTag(MetaWithProperty(property), content.value);
    }

    method SetMetaName(name: string, content: Option<string>)
      modifies this
      ensures head == Apply(old(head), Op(MetaNamed(name), content, true)) && title == old(title)
    {
      if !Truthy(content) {
        return;
      }
      UpsertTag(MetaNamed(name), content.value);
    }

    method SetLinkTag(rel: string, href: string)
      modifies this
      ensures head == Apply(old(head), Op(LinkWithRel(rel), Some(href), false)) && title == old(title)
    {
      UpsertTag(LinkWithRel(rel), href);
    }

    /** The standard meta tags of updateMetaTags. */
    method SetStandardTags(m: MetaTags)
      modifies this
      ensures head == ApplyAll(old(head), StandardOps(m)) && title == old(title)
    {
      ghost var ops := StandardOps(m);
      ghost var target := ApplyAll(head, ops);
      assert target == ApplyAll(Apply(head, ops[0]), ops[1..]);
      SetMetaTag("description", m.description);
      assert target == ApplyAll(Apply(head, ops[1]), ops[2..]);
      SetMetaTag("keywords", m.keywords);
      assert target == ApplyAll(Apply(head, ops[2]), ops[3..]);
      SetMetaTag("author", m.author);
    }

    /** The Open Graph tags of updateMetaTags. */
    method SetOpenGraphTags(m: MetaTags, url: string)
      modifies this
      ensures head == ApplyAll(old(head), OpenGraphOps(m, url)) && title == old(title)
    {
      ghost var ops := OpenGraphOps(m, url);
      ghost var target := ApplyAll(head, ops);
      assert target == ApplyAll(Apply(head, ops[0]), ops[1..]);
      SetMetaProperty("og:title", m.title);
      assert target == ApplyAll(Apply(head, ops[1]), ops[2..]);
      SetMetaProperty("og:description", m.description);
      assert target == ApplyAll(Apply(head, ops[2]), ops[3..]);
      SetMetaProperty("og:type", m.pageType);
      assert target == ApplyAll(Apply(head, ops[3]), ops[4..]);
      SetMetaProperty("og:image", m.image);
      assert target == ApplyAll(Apply(head, ops[4]), ops[5..]);
      SetMetaProperty("og:url", Some(url));
    }

    /** The Twitter Card tags of updateMetaTags. */
    method SetTwitterTags(m: MetaTags)
      modifies this
      ensures head == ApplyAll(old(head), TwitterOps(m)) && title == old(title)
    {
      ghost var ops := TwitterOps(m);
      ghost var target := ApplyAll(head, ops);
      assert target == ApplyAll(Apply(head, ops[0]), ops[1..]);
      SetMetaName("twitter:card", Some(TwitterCard));
      assert target == ApplyAll(Apply(head, ops[1]), ops[2..]);
      SetMetaName("twitter:title", m.title);
      assert target == ApplyAll(Apply(head, ops[2]), ops[3..]);
      SetMetaName("twitter:description", m.description);
      assert target == ApplyAll(Apply(head, ops[3]), ops[4..]);
      SetMetaName("twitter:image", m.image);
    }

    /** updateMetaTags, given the current location. */
    method UpdateMetaTags(meta: PartialMeta, href: string)
      modifies this
      ensures title == JsString(Merge(DefaultMeta, meta).title)
      ensures head == UpdatedHead(old(head), meta, href)
    {
      var m := Merge(DefaultMeta, meta);
      var url := UrlOrLocation(m.url, href);
      ghost var h0 := head;
      title := JsString(m.title);
      SetStandardTags(m);
      ghost var h1 := head;
      SetOpenGraphTags(m, url);
      ghost var h2 := head;
      SetTwitterTags(m);
      ghost var h3 := head;
      SetLinkTag("canonical", url);
      ApplyAllConcat(h0, StandardOps(m), OpenGraphOps(m, url));
      ApplyAllConcat(h0, StandardOps(m) + OpenGraphOps(m, url), TwitterOps(m));
      ApplyAllConcat(h0, StandardOps(m) + OpenGraphOps(m, url) + TwitterOps(m), [CanonicalOp(url)]);
      assert ApplyAll(h3, [CanonicalOp(url)]) == head;
    }

    /** setStructuredData; the serialised text is given. */
    method SetStructuredData(text: string)
      modifies this
      ensures head == ReplaceStructuredData(old(head), text) && title == old(title)
    {
      var i := 0;
      while i < |head| && !IsLdJson(head[i])
        invariant 0 <= i <= |head|
        invariant forall j :: 0 <= j < i ==> !IsLdJson(head[j])
      {
        i := i + 1;
      }
      if i < |head| {
        head := head[..i] + head[i + 1..];
      }
      head := head + [Script(LdJson, text)];
    }
  }
}

=== FILE: tech_planet.dfy ===
/** The colour arithmetic of the planet component: adjustBrightness, which
    shifts every channel of a "#rrggbb" colour by the same amount and clamps
    it to 0..255, and the two id-to-colour tables. */
module TechPlanet {
  import opened PlanetTypes
  import opened PlanetData

  function Pow16(k: nat): (p: nat)
    ensures p >= 1
  {
    if k == 0 then 1 else 16 * Pow16(k - 1)
  }

  /** The number of 24-bit colour values. */
  lemma SixDigitRange()
    ensures Pow16(6) == 0x100_0000
  {
    assert Pow16(2) == 256;
    assert Pow16(4) == 65536;
  }

  predicate IsHexDigit(c: char) {
    '0' <= c <= '9' || 'a' <= c <= 'f' || 'A' <= c <= 'F'
  }

  predicate IsLowerHexDigit(c: char) {
    '0' <= c <= '9' || 'a' <= c <= 'f'
  }

  predicate AllHex(s: string) {
    forall i :: 0 <= i < |s| ==> IsHexDigit(s[i])
  }

  function HexValue(c: char): (v: nat)
    requires IsHexDigit(c)
    ensures v < 16
  {
    if '0' <= c <= '9' then c as int - '0' as int
    else if 'a' <= c <= 'f' then c as int - 'a' as int + 10
    else c as int - 'A' as int + 10
  }

  /** The lowercase digit of a value below 16, as Number.prototype.toString(16) writes it. */
  function LowerDigit(d: nat): (c: char)
    requires d < 16
    ensures IsLowerHexDigit(c) && HexValue(c) == d
  {
    if d < 10 then ('0' as int + d) as char else ('a' as int + d - 10) as char
  }

  /** A hex digit in lower case. */
  function LowerChar(c: char): (l: char)
    requires IsHexDigit(c)
    ensures IsLowerHexDigit(l) && HexValue(l) == HexValue(c)
    ensures IsLowerHexDigit(c) ==> l == c
  {
    if 'A' <= c <= 'F' then (c as int - 'A' as int + 'a' as int) as char else c
  }

  /** `toLowerCase()` on a string of hex digits: each digit in lower case,
      with its value unchanged. */
  function Lowercase(s: string): (r: string)
    requires AllHex(s)
    ensures |r| == |s|
    ensures forall i :: 0 <= i < |s| ==> IsLowerHexDigit(r[i]) && HexValue(r[i]) == HexValue(s[i])
    ensures (forall i :: 0 <= i < |s| ==> IsLowerHexDigit(s[i])) ==> r == s
  {
    seq(|s|, i requires 0 <= i < |s| && AllHex(s) => LowerChar(s[i]))
  }

  /** `parseInt(s, 16)` for a string of hex digits: most significant digit first. */
  function ParseHex(s: string): (n: nat)
    requires AllHex(s)
    ensures n < Pow16(|s|)
  {
    if s == [] then 0 else ParseHex(s[..|s| - 1]) * 16 + HexValue(s[|s| - 1])
  }

  /** `n.toString(16)`: the shortest lowercase hex numeral of n ("0" for zero). */
  function ToHexString(n: nat): (s: string)
    ensures |s| >= 1
    ensures forall i :: 0 <= i < |s| ==> IsLowerHexDigit(s[i])
    ensures AllHex(s) && ParseHex(s) == n
    ensures n > 0 ==> s[0] != '0'
    ensures n == 0 ==> s == "0"
    decreases n
  {
    if n < 16 then [LowerDigit(n)]
    else
      var t := ToHexString(n / 16);
      var s := t + [LowerDigit(n % 16)];
      assert s[..|s| - 1] == t;
      s
  }

  function Repeat(c: char, k: nat): (s: string)
    ensures |s| == k && forall i :: 0 <= i < k ==> s[i] == c
  {
    if k == 0 then [] else [c] + Repeat(c, k - 1)
  }

  /** A string of one repeated character is that character repeated. */
  lemma RepeatOf(c: char, s: string)
    requires forall i :: 0 <= i < |s| ==> s[i] == c
    ensures Repeat(c, |s|) == s
  {
  }

  /** `s.padStart(width, fill)`. */
  function PadStart(s: string, width: nat, fill: char): (r: string)
    ensures |r| == if |s| >= width then |s| else width
    ensures r[|r| - |s|..] == s
  {
    if |s| >= width then s else Repeat(fill, width - |s|) + s
  }

  /** The reference formatting: exactly `width` lowercase hex digits of n. */
  function FixedHex(n: nat, width: nat): (s: string)
    ensures |s| == width
    ensures forall i :: 0 <= i < width ==> IsLowerHexDigit(s[i])
  {
    if width == 0 then [] else FixedHex(n / 16, width - 1) + [LowerDigit(n % 16)]
  }

  /** FixedHex writes n in exactly `width` digits, so parsing gives n back. */
  lemma {:induction false} ParseFixedHex(n: nat, width: nat)
    requires n < Pow16(width)
    ensures AllHex(FixedHex(n, width))
    ensures ParseHex(FixedHex(n, width)) == n
    decreases width
  {
    if width > 0 {
      ParseFixedHex(n / 16, width - 1);
      var s := FixedHex(n, width);
      assert s[..|s| - 1] == FixedHex(n / 16, width - 1);
    }
  }

  /** Writing back a parsed string of digits gives the same digits in lower case. */
  lemma {:induction false} FixedHexOfParse(s: string)
    requires AllHex(s)
    ensures FixedHex(ParseHex(s), |s|) == Lowercase(s)
    decreases |s|
  {
    if s != [] {
      var init := s[..|s| - 1];
      FixedHexOfParse(init);
      var n := ParseHex(s);
      assert n / 16 == ParseHex(init) && n % 16 == HexValue(s[|s| - 1]);
      assert LowerDigit(n % 16) == LowerChar(s[|s| - 1]);
      assert Lowercase(s) == Lowercase(init) + [LowerChar(s[|s| - 1])];
    }
  }

  lemma {:induction false} FixedHexOfZero(width: nat)
    ensures FixedHex(0, width) == Repeat('0', width)
    decreases width
  {
    if width > 0 {
      FixedHexOfZero(width - 1);
      assert Repeat('0', width) == Repeat('0', width - 1) + ['0'];
    }
  }

  /** The source's formatting, toString(16) padded with zeros, agrees with
      the fixed-width reference whenever the value fits the width. */
  lemma {:induction false} PaddedIsFixed(n: nat, width: nat)
    requires 1 <= width && n < Pow16(width)
    ensures PadStart(ToHexString(n), width, '0') == FixedHex(n, width)
    decreases width
  {
    if n < 16 {
      FixedHexOfZero(width - 1);
    } else {
      PaddedIsFixed(n / 16, width - 1);
      var t := ToHexString(n / 16);
      assert |t| <= width - 1;
      assert PadStart(t + [LowerDigit(n % 16)], width, '0') == PadStart(t, width - 1, '0') + [LowerDigit(n % 16)];
    }
  }

  /** `color.replace('#', '')`: only the first "#" is removed. */
  function StripHash(color: string): (r: string)
    ensures '#' !in color ==> r == color
    ensures '#' in color ==> |r| == |color| - 1
    ensures |color| > 0 && color[0] == '#' ==> r == color[1..]
  {
    if color == [] then []
    else if color[0] == '#' then color[1..]
    else [color[0]] + StripHash(color[1..])
  }

  /** The only input adjustBrightness handles as intended: six hex digits
      once the first "#" is removed. */
  predicate HexColour(color: string)
    ensures HexColour(color) ==> |color| == 6 || |color| == 7
    ensures |color| > 0 && color[0] == '#' ==> (HexColour(color) <==> |color| == 7 && AllHex(color[1..]))
    ensures '#' !in color ==> (HexColour(color) <==> |color| == 6 && AllHex(color))
  {
    |StripHash(color)| == 6 && AllHex(StripHash(color))
  }

  /** `num >> 16`, `(num >> 8) & 0xFF` and `num & 0xFF` for 0 <= num < 2^24. */
  function Red(num: nat): nat { num / 65536 }
  function Green(num: nat): nat { (num / 256) % 256 }
  function Blue(num: nat): nat { num % 256 }

  /** `(r << 16) | (g << 8) | b` for channels in 0..255, whose bits do not overlap. */
  function Pack(r: nat, g: nat, b: nat): nat { r * 65536 + g * 256 + b }

  /** `Math.max(0, Math.min(255, x))`. */
  function Clamp(x: int): (c: nat)
    ensures c <= 255
    ensures 0 <= x <= 255 ==> c == x
    ensures x < 0 ==> c == 0
    ensures x > 255 ==> c == 255
  {
    if x > 255 then 255 else if x < 0 then 0 else x
  }

  /** Packing three channels and splitting them again gives them back. */
  lemma ChannelsOfPack(r: nat, g: nat, b: nat)
    requires r <= 255 && g <= 255 && b <= 255
    ensures Pack(r, g, b) < Pow16(6)
    ensures Red(Pack(r, g, b)) == r && Green(Pack(r, g, b)) == g && Blue(Pack(r, g, b)) == b
  {
    SixDigitRange();
    var n := r * 65536 + g * 256 + b;
    assert n / 256 == r * 256 + g;
  }

  /** Splitting a 24-bit value into channels and packing them gives it back. */
  lemma PackOfChannels(n: nat)
    requires n < Pow16(6)
    ensures Red(n) <= 255 && Green(n) <= 255
    ensures Pack(Red(n), Green(n), Blue(n)) == n
  {
    SixDigitRange();
    assert n / 256 == (n / 65536) * 256 + (n / 256) % 256;
  }

  /** On 32-bit words, the shifts and masks that split a colour are the
      divisions and remainders used by Red, Green and Blue. */
  lemma ShiftsAreDivisions(num: bv32)
    ensures num >> 16 == num / 65536
    ensures (num >> 8) & 0xFF == (num / 256) % 256
    ensures num & 0xFF == num % 256
  {
  }

  /** On 32-bit words, or-ing the shifted channels is the sum used by Pack. */
  lemma OrIsAddition(r: bv32, g: bv32, b: bv32)
    requires r < 256 && g < 256 && b < 256
    ensures (r << 16) | (g << 8) | b == r * 65536 + g * 256 + b
  {
  }

  /** The channel-wise shift of a 24-bit colour value. */
  function Shifted(n: nat, amount: int): nat {
    Pack(Clamp(Red(n) + amount), Clamp(Green(n) + amount), Clamp(Blue(n) + amount))
  }

  /** adjustBrightness. */
  function AdjustBrightness(color: string, amount: int): (out: string)
    requires HexColour(color)
    ensures |out| == 7 && out[0] == '#'
    ensures forall i :: 1 <= i < 7 ==> IsLowerHexDigit(out[i])
    ensures out == "#" + FixedHex(Shifted(ParseHex(StripHash(color)), amount), 6)
  {
    var num := ParseHex(StripHash(color));
    var m := Shifted(num, amount);
    ShiftedFits(num, amount);
    PaddedIsFixed(m, 6);
    "#" + PadStart(ToHexString(m), 6, '0')
  }

  /** The colour value adjustBrightness writes: its six digits, read back,
      are the channel-wise shift of the input. */
  function OutputValue(color: string, amount: int): nat
    requires HexColour(color)
  {
    Shifted(ParseHex(StripHash(color)), amount)
  }

  lemma OutputReadBack(color: string, amount: int)
    requires HexColour(color)
    ensures AllHex(AdjustBrightness(color, amount)[1..])
    ensures OutputValue(color, amount) == ParseHex(AdjustBrightness(color, amount)[1..])
  {
    var n := ParseHex(StripHash(color));
    assert AdjustBrightness(color, amount)[1..] == FixedHex(Shifted(n, amount), 6);
    ShiftedFits(n, amount);
    ParseFixedHex(Shifted(n, amount), 6);
  }

  /** A shifted colour value is a 24-bit value with the clamped channels. */
  lemma ShiftedFits(n: nat, amount: int)
    ensures Shifted(n, amount) < Pow16(6)
    ensures Red(Shifted(n, amount)) == Clamp(Red(n) + amount)
    ensures Green(Shifted(n, amount)) == Clamp(Green(n) + amount)
    ensures Blue(Shifted(n, amount)) == Clamp(Blue(n) + amount)
  {
    ChannelsOfPack(Clamp(Red(n) + amount), Clamp(Green(n) + amount), Clamp(Blue(n) + amount));
  }

  /** Each channel of the result is the input channel plus the amount,
      clamped to 0..255. */
  lemma {:induction false} AdjustChannels(color: string, amount: int)
    requires HexColour(color)
    ensures var n := ParseHex(StripHash(color));
            var m := OutputValue(color, amount);
            && Red(m) == Clamp(Red(n) + amount)
            && Green(m) == Clamp(Green(n) + amount)
            && Blue(m) == Clamp(Blue(n) + amount)
  {
    var n := ParseHex(StripHash(color));
    var m := OutputValue(color, amount);
    OutputIsShifted(color, amount);
    ChannelsOfShifted(m, n, amount);
  }

  /** The value adjustBrightness writes is the channel-wise shift of the input. */
  lemma OutputIsShifted(color: string, amount: int)
    requires HexColour(color)
    ensures OutputValue(color, amount) == Shifted(ParseHex(StripHash(color)), amount)
  {
  }

  /** The channels of any value equal to a shifted one. */
  lemma ChannelsOfShifted(m: nat, n: nat, amount: int)
    requires m == Shifted(n, amount)
    ensures Red(m) == Clamp(Red(n) + amount)
    ensures Green(m) == Clamp(Green(n) + amount)
    ensures Blue(m) == Clamp(Blue(n) + amount)
  {
    ShiftedFits(n, amount);
  }

  /** With amount 0 the colour comes back in lower case, unchanged otherwise. */
  lemma {:induction false} AdjustByZero(color: string)
    requires HexColour(color)
    ensures AdjustBrightness(color, 0) == "#" + Lowercase(StripHash(color))
    ensures (forall i :: 0 <= i < 6 ==> IsLowerHexDigit(StripHash(color)[i])) ==>
              AdjustBrightness(color, 0) == "#" + StripHash(color)
  {
    ZeroDigits(StripHash(color));
  }

  lemma ZeroDigits(hex: string)
    requires |hex| == 6 && AllHex(hex)
    ensures FixedHex(Shifted(ParseHex(hex), 0), 6) == Lowercase(hex)
  {
    var n := ParseHex(hex);
    PackOfChannels(n);
    assert Shifted(n, 0) == n;
    FixedHexOfParse(hex);
  }

  /** Each output channel is monotone in the amount. */
  lemma AdjustMonotone(color: string, a: int, b: int)
    requires HexColour(color) && a <= b
    ensures Red(OutputValue(color, a)) <= Red(OutputValue(color, b))
    ensures Green(OutputValue(color, a)) <= Green(OutputValue(color, b))
    ensures Blue(OutputValue(color, a)) <= Blue(OutputValue(color, b))
  {
    OutputIsShifted(color, a);
    OutputIsShifted(color, b);
    ShiftedMonotone(OutputValue(color, a), OutputValue(color, b), ParseHex(StripHash(color)), a, b);
  }

  lemma ShiftedMonotone(ma: nat, mb: nat, n: nat, a: int, b: int)
    requires a <= b && ma == Shifted(n, a) && mb == Shifted(n, b)
    ensures Red(ma) <= Red(mb) && Green(ma) <= Green(mb) && Blue(ma) <= Blue(mb)
  {
    ChannelsOfShifted(ma, n, a);
    ChannelsOfShifted(mb, n, b);
  }

  /** The largest value of `width` digits is written as that many "f"s. */
  lemma {:induction false} FixedHexOfMax(width: nat)
    ensures FixedHex(Pow16(width) - 1, width) == Repeat('f', width)
    decreases width
  {
    if width > 0 {
      FixedHexOfMax(width - 1);
      assert (Pow16(width) - 1) / 16 == Pow16(width - 1) - 1;
      assert (Pow16(width) - 1) % 16 == 15;
      assert Repeat('f', width) == Repeat('f', width - 1) + ['f'];
    }
  }

  lemma BlackDigits()
    ensures "#" + FixedHex(0, 6) == "#000000"
  {
    FixedHexOfZero(6);
    RepeatOf('0', "000000");
    assert "#" + "000000" == "#000000";
  }

  lemma WhiteDigits()
    ensures "#" + FixedHex(0xff_ffff, 6) == "#ffffff"
  {
    SixDigitRange();
    FixedHexOfMax(6);
    RepeatOf('f', "ffffff");
    assert "#" + "ffffff" == "#ffffff";
  }

  /** An amount of -255 or less turns every colour black. */
  lemma {:induction false} AdjustToBlack(color: string, amount: int)
    requires HexColour(color) && amount <= -255
    ensures AdjustBrightness(color, amount) == "#000000"
  {
    var n := ParseHex(StripHash(color));
    ShiftedToBlack(n, amount);
    BlackDigits();
  }

  lemma ShiftedToBlack(n: nat, amount: int)
    requires n < Pow16(6) && amount <= -255
    ensures Shifted(n, amount) == 0
  {
    PackOfChannels(n);
  }

  /** An amount of 255 or more turns every colour white. */
  lemma {:induction false} AdjustToWhite(color: string, amount: int)
    requires HexColour(color) && amount >= 255
    ensures AdjustBrightness(color, amount) == "#ffffff"
  {
    var n := ParseHex(StripHash(color));
    ShiftedToWhite(n, amount);
    WhiteDigits();
  }

  lemma ShiftedToWhite(n: nat, amount: int)
    requires n < Pow16(6) && amount >= 255
    ensures Shifted(n, amount) == 0xff_ffff
  {
    PackOfChannels(n);
  }

  /** When no channel is clamped, shifting back by the opposite amount
      restores the colour (in lower case). */
  lemma {:induction false} AdjustInverse(color: string, amount: int)
    requires HexColour(color)
    requires var n := ParseHex(StripHash(color));
             0 <= Red(n) + amount <= 255 && 0 <= Green(n) + amount <= 255 && 0 <= Blue(n) + amount <= 255
    ensures HexColour(AdjustBrightness(color, amount))
    ensures AdjustBrightness(AdjustBrightness(color, amount), -amount) == "#" + Lowercase(StripHash(color))
  {
    var hex := StripHash(color);
    var n := ParseHex(hex);
    var out := AdjustBrightness(color, amount);
    var m := Shifted(n, amount);
    ShiftedInverse(n, amount);
    ParseFixedHex(m, 6);
    assert StripHash(out) == FixedHex(m, 6);
    FixedHexOfParse(hex);
  }

  lemma ShiftedInverse(n: nat, amount: int)
    requires n < Pow16(6)
    requires 0 <= Red(n) + amount <= 255 && 0 <= Green(n) + amount <= 255 && 0 <= Blue(n) + amount <= 255
    ensures Shifted(n, amount) < Pow16(6)
    ensures Shifted(Shifted(n, amount), -amount) == n
  {
    var m := Shifted(n, amount);
    ShiftedFits(n, amount);
    ChannelsOfShifted(m, n, amount);
    PackOfChannels(n);
    assert Shifted(m, -amount) == Pack(Red(n), Green(n), Blue(n));
  }

  /** The `materialColor` switch: the colour string the material is built from. */
  function MaterialColor(planetId: string, color: string): (c: string)
    ensures planetId !in {"skills", "projects", "tools", "experience", "about", "contact"} ==> c == color
  {
    match planetId
    case "skills" => "#4169e1"
    case "projects" => "#cd5c5c"
    case "tools" => "#ffd700"
    case "experience" => "#daa520"
    case "about" => "#4169e1"
    case "contact" => "#f4a460"
    case _ => color
  }

  /** getAtmosphereColor, as the 24-bit colour value. */
  function AtmosphereColor(planetId: string): (c: nat)
    ensures c < Pow16(6)
    ensures planetId !in {"skills", "projects", "tools", "experience", "about", "contact"} ==> c == 0xffffff
  {
    SixDigitRange();
    match planetId
    case "skills" => 0x87ceeb
    case "projects" => 0xff6b47
    case "tools" => 0xd4a373
    case "experience" => 0xfad5a5
    case "about" => 0x4b70dd
    case "contact" => 0xffc649
    case _ => 0xffffff
  }

  /** The listed ids get a fixed colour whatever the planet's own colour;
      "skills" and "about" share one. */
  lemma MaterialColorTable(planetId: string, color: string, other: string)
    requires planetId in {"skills", "projects", "tools", "experience", "about", "contact"}
    ensures MaterialColor(planetId, color) == MaterialColor(planetId, other)
    ensures HexColour(MaterialColor(planetId, color))
    ensures MaterialColor("skills", color) == MaterialColor("about", other)
  {
  }

  /** A "#" followed by six hex digits is a colour adjustBrightness accepts. */
  lemma HashHex(h: string)
    requires |h| == 6 && AllHex(h)
    ensures StripHash("#" + h) == h
    ensures HexColour("#" + h)
  {
    assert ("#" + h)[1..] == h;
  }

  /** The digits of the nine table colours, in table order. */
  const TableDigits: seq<string> :=
    ["8C7853", "FFC649", "4A90E2", "CD5C5C", "DAA520", "F4E7D1", "4FD0E7", "4B70DD", "D2B48C"]

  /** Every planet of the table has a colour that adjustBrightness accepts,
      and so does its material colour. */
  lemma {:induction false} TableColoursAreHex(i: nat)
    requires i < |Planets|
    ensures HexColour(Planets[i].color)
    ensures HexColour(MaterialColor(Planets[i].id, Planets[i].color))
  {
    TableColour(i);
    TableDigitsHex(i);
    HashHex(TableDigits[i]);
    if Planets[i].id in {"skills", "projects", "tools", "experience", "about", "contact"} {
      MaterialColorTable(Planets[i].id, Planets[i].color, "");
    }
  }

  lemma TableColour(i: nat)
    requires i < |Planets|
    ensures |TableDigits| == |Planets| && Planets[i].color == "#" + TableDigits[i]
  {
    assert Planets == [About, SkillsPlanet, Education, ProjectsPlanet, Tools, Experience, Uranus, Neptune, Pluto];
    if i < 3 {
      InnerColours();
    } else if i < 6 {
      OuterColours();
    } else {
      DwarfColours();
    }
  }

  lemma InnerColours()
    ensures About.color == "#" + TableDigits[0]
    ensures SkillsPlanet.color == "#" + TableDigits[1]
    ensures Education.color == "#" + TableDigits[2]
  {
  }

  lemma OuterColours()
    ensures ProjectsPlanet.color == "#" + TableDigits[3]
    ensures Tools.color == "#" + TableDigits[4]
    ensures Experience.color == "#" + TableDigits[5]
  {
  }

  lemma DwarfColours()
    ensures Uranus.color == "#" + TableDigits[6]
    ensures Neptune.color == "#" + TableDigits[7]
    ensures Pluto.color == "#" + TableDigits[8]
  {
  }

  lemma TableDigitsHex(i: nat)
    requires i < |TableDigits|
    ensures |TableDigits[i]| == 6 && AllHex(TableDigits[i])
  {
  }

  /** Four planets of the table (education, uranus, neptune, pluto) keep
      their own colour and get the white atmosphere. */
  lemma FallbackPlanets()
    ensures forall i :: i in {2, 6, 7, 8} ==>
              MaterialColor(Planets[i].id, Planets[i].color) == Planets[i].color &&
              AtmosphereColor(Planets[i].id) == 0xffffff
  {
  }
}

=== FILE: webgl_canvas.dfy ===
/** The WebGL canvas wrapper: three pieces of component state updated by the
    canvas's error and creation callbacks, the retry button and a 3-second
    safety timer; a view selector choosing between the spinner, the error
    panel and the canvas; and the fixed table of context configurations tried
    in turn. */
module WebGLCanvas {
  import opened JsValues

  /** One set of WebGL context creation parameters. */
  datatype GLConfig = GLConfig(
    antialias: bool,
    alpha: bool,
    powerPreference: string,
    preserveDrawingBuffer: bool,
    failIfMajorPerformanceCaveat: bool,
    precision: string,
    stencil: bool,
    depth: bool,
    logarithmicDepthBuffer: bool)

  const ConfigCount: nat := 3

  /** getWebGLConfigs: most compatible first. */
  function WebGLConfigs(): (configs: seq<GLConfig>)
    ensures |configs| == ConfigCount
  {
    [ GLConfig(false, false, "default", false, false, "lowp", false, true, false),
      GLConfig(false, false, "default", false, false, "mediump", false, true, false),
      GLConfig(true, false, "high-performance", false, false, "highp", false, true, false) ]
  }

  /** `retryCount % 3`: the configuration used by the current attempt. */
  function ConfigIndex(retryCount: nat): (i: nat)
    ensures i < ConfigCount
    ensures i == retryCount || retryCount >= ConfigCount
  {
    retryCount % ConfigCount
  }

  /** Shadows are enabled on the highest-quality configuration only: the
      one with antialiasing. */
  predicate ShadowsEnabled(configIndex: nat)
    ensures configIndex < ConfigCount ==> (ShadowsEnabled(configIndex) <==> WebGLConfigs()[configIndex].antialias)
  {
    configIndex >= 2
  }

  /** The error message names the software renderer (a case-sensitive test). */
  predicate IsChromeSwiftShader(message: string)
    ensures IsChromeSwiftShader(message) <==> exists i :: OccursAt(message, "SwiftShader", i)
    ensures 'S' !in message ==> !IsChromeSwiftShader(message)
  {
    assert 'S' !in message ==> !Includes(message, "SwiftShader") by {
      if 'S' !in message {
        NotIncludesWithoutFirstChar(message, "SwiftShader");
      }
    }
    Includes(message, "SwiftShader")
  }

  const ChromeSwiftShaderText: string := "Chrome is having issues with 3D rendering in this environment."
  const GenericFailureText: string := "WebGL context could not be created."

  /** The three state fields: the captured error (its message), the number
      of retries, and whether the canvas is still initialising. */
  datatype AttemptState = AttemptState(webglError: Option<string>, retryCount: nat, isInitializing: bool)

  const Initial: AttemptState := AttemptState(None, 0, true)

  /** handleCanvasError */
  function OnCanvasError(s: AttemptState, message: string): (t: AttemptState)
    ensures t.webglError == Some(message) && !t.isInitializing
    ensures t.retryCount == s.retryCount
  {
    s.(webglError := Some(message), isInitializing := false)
  }

  /** handleRetry */
  function OnRetry(s: AttemptState): (t: AttemptState)
    ensures t.webglError.None? && t.isInitializing
    ensures t.retryCount == s.retryCount + 1
  {
    AttemptState(None, s.retryCount + 1, true)
  }

  /** The 3-second timer: it clears the initialising flag if it is still set. */
  function OnTimeout(s: AttemptState): (t: AttemptState)
    ensures !t.isInitializing
    ensures t.webglError == s.webglError && t.retryCount == s.retryCount
  {
    if s.isInitializing then s.(isInitializing := false) else s
  }

  /** The canvas's onCreated callback. */
  function OnCreated(s: AttemptState): (t: AttemptState)
    ensures !t.isInitializing
    ensures t.webglError == s.webglError && t.retryCount == s.retryCount
  {
    s.(isInitializing := false)
  }

  /** What the component renders. */
  datatype View =
    | Spinner
    | ErrorPanel(message: string, explanation: string, attempt: nat)
    | CanvasView(key: nat, config: GLConfig, shadows: bool)

  function ViewOf(s: AttemptState): (v: View)
    ensures v.Spinner? <==> s.isInitializing && s.retryCount == 0
    ensures v.ErrorPanel? ==> s.webglError == Some(v.message)
    ensures v.ErrorPanel? ==> 1 <= v.attempt <= ConfigCount && v.attempt == s.retryCount % ConfigCount + 1
    ensures v.ErrorPanel? ==>
              (v.explanation == ChromeSwiftShaderText <==> exists i :: OccursAt(v.message, "SwiftShader", i))
    ensures v.ErrorPanel? ==> v.explanation in {ChromeSwiftShaderText, GenericFailureText}
    ensures v.CanvasView? ==> s.webglError.None? && v.key == s.retryCount
    ensures v.CanvasView? ==> v.config == WebGLConfigs()[s.retryCount % ConfigCount]
    ensures v.CanvasView? ==> (v.shadows <==> s.retryCount % ConfigCount == 2)
  {
    if s.isInitializing && s.retryCount == 0 then Spinner
    else if s.webglError.Some? then
      var message := s.webglError.value;
      var explanation := if IsChromeSwiftShader(message) then ChromeSwiftShaderText else GenericFailureText;
      ErrorPanel(message, explanation, ConfigIndex(s.retryCount) + 1)
    else
      var i := ConfigIndex(s.retryCount);
      CanvasView(s.retryCount, WebGLConfigs()[i], ShadowsEnabled(i))
  }

  /** The configuration table: only the last entry has antialiasing and asks
      for high performance; precision rises lowp, mediump, highp; every
      other parameter is the same in all three. */
  lemma ConfigTable(i: nat)
    requires i < ConfigCount
    ensures var c := WebGLConfigs()[i];
            && (c.antialias <==> i == 2)
            && (c.powerPreference == "high-performance" <==> i == 2)
            && (c.powerPreference == "default" <==> i != 2)
            && c.precision == ["lowp", "mediump", "highp"][i]
            && (ShadowsEnabled(i) <==> i == 2)
            && !c.alpha && !c.preserveDrawingBuffer && !c.failIfMajorPerformanceCaveat
            && !c.stencil && c.depth && !c.logarithmicDepthBuffer
  {
  }

  /** Events the environment can deliver to the component. */
  datatype Event = CanvasError(message: string) | Retry | Timeout | Created

  /** Which events can occur in a state: the canvas callbacks only while the
      canvas is mounted, the retry button only on the error panel; the timer
      is always armed. */
  predicate Enabled(s: AttemptState, e: Event) {
    match e
    case CanvasError(_) => ViewOf(s).CanvasView?
    case Created => ViewOf(s).CanvasView?
    case Retry => ViewOf(s).ErrorPanel?
    case Timeout => true
  }

  function Step(s: AttemptState, e: Event): AttemptState {
    match e
    case CanvasError(m) => OnCanvasError(s, m)
    case Retry => OnRetry(s)
    case Timeout => OnTimeout(s)
    case Created => OnCreated(s)
  }

  /** The state after a sequence of events, or None if one of them could not occur. */
  function Run(s: AttemptState, events: seq<Event>): Option<AttemptState>
    decreases |events|
  {
    if events == [] then Some(s)
    else if !Enabled(s, events[0]) then None
    else Run(Step(s, events[0]), events[1..])
  }

  /** A recorded error always comes with the initialising flag cleared. */
  predicate Inv(s: AttemptState) {
    s.webglError.Some? ==> !s.isInitializing
  }

  lemma StepPreservesInv(s: AttemptState, e: Event)
    requires Inv(s)
    ensures Inv(Step(s, e))
  {
  }

  lemma {:induction false} RunPreservesInv(s: AttemptState, events: seq<Event>)
    requires Inv(s)
    requires Run(s, events).Some?
    ensures Inv(Run(s, events).value)
    decreases |events|
  {
    if events != [] {
      StepPreservesInv(s, events[0]);
      RunPreservesInv(Step(s, events[0]), events[1..]);
    }
  }

  /** In every reachable state the error panel is shown exactly when an error
      is recorded, and otherwise the view is the spinner or the canvas. */
  lemma {:induction false} ReachableViews(events: seq<Event>)
    requires Run(Initial, events).Some?
    ensures var s := Run(Initial, events).value;
            && (ViewOf(s).ErrorPanel? <==> s.webglError.Some?)
            && (ViewOf(s).CanvasView? <==> s.webglError.None? && !(s.isInitializing && s.retryCount == 0))
  {
    RunPreservesInv(Initial, events);
  }

  /** On the first attempt the canvas is not mounted while the spinner is
      shown, so the only event that can occur is the timer, and it always
      leaves the spinner for the canvas with the first configuration. */
  lemma SpinnerLeftOnlyByTimeout(s: AttemptState, e: Event)
    requires Inv(s)
    requires ViewOf(s).Spinner?
    requires Enabled(s, e)
    ensures e == Timeout
    ensures ViewOf(Step(s, e)) == CanvasView(0, WebGLConfigs()[0], false)
  {
  }

  /** k presses of the retry button. */
  function Retries(s: AttemptState, k: nat): AttemptState
    decreases k
  {
    if k == 0 then s else OnRetry(Retries(s, k - 1))
  }

  /** After k retries the configuration index is advanced by k modulo 3;
      from the initial state it is k mod 3. */
  lemma {:induction false} RetriesCycle(s: AttemptState, k: nat)
    ensures Retries(s, k).retryCount == s.retryCount + k
    ensures ConfigIndex(Retries(s, k).retryCount) == (s.retryCount + k) % ConfigCount
    ensures ConfigIndex(Retries(Initial, k).retryCount) == k % ConfigCount
    decreases k
  {
    if k > 0 {
      RetriesCycle(s, k - 1);
      RetriesCycle(Initial, k - 1);
    }
  }

  /** The scenario of a software-rendered Chrome: the timer leaves the
      spinner and the canvas reports a SwiftShader failure, which the error
      panel explains as a Chrome problem, attempt 1 of 3. */
  lemma {:induction false} SwiftShaderFirstFailure(m: string)
    requires IsChromeSwiftShader(m)
    ensures Run(Initial, [Timeout, CanvasError(m)]) == Some(AttemptState(Some(m), 0, false))
    ensures ViewOf(AttemptState(Some(m), 0, false)) == ErrorPanel(m, ChromeSwiftShaderText, 1)
  {
    assert Run(OnTimeout(Initial), [CanvasError(m)]) == Some(AttemptState(Some(m), 0, false));
  }

  /** Each retry after a failure remounts the canvas with the next
      configuration (wrapping from the third to the first), and a further
      failure is reported as the next attempt. */
  lemma {:induction false} RetryAfterFailure(m: string, k: nat)
    ensures Run(AttemptState(Some(m), k, false), [Retry]) == Some(AttemptState(None, k + 1, true))
    ensures ViewOf(AttemptState(None, k + 1, true)) ==
            CanvasView(k + 1, WebGLConfigs()[(k + 1) % 3], (k + 1) % 3 == 2)
    ensures Run(AttemptState(None, k + 1, true), [CanvasError(m)]) == Some(AttemptState(Some(m), k + 1, false))
    ensures ViewOf(AttemptState(Some(m), k + 1, false)).attempt == (k + 1) % 3 + 1
  {
    assert Run(OnRetry(AttemptState(Some(m), k, false)), []) == Some(AttemptState(None, k + 1, true));
    assert Run(OnCanvasError(AttemptState(None, k + 1, true), m), []) == Some(AttemptState(Some(m), k + 1, false));
  }

  /** The component instance: the three useState fields. */
  class CanvasComponent {
    var webglError: Option<string>
    var retryCount: nat
    var isInitializing: bool

    function State(): AttemptState
      reads this
    {
      AttemptState(webglError, retryCount, isInitializing)
    }

    constructor ()
      ensures State() == Initial
    {
      webglError := None;
      retryCount := 0;
      isInitializing := true;
    }

    method HandleCanvasError(message: string)
      modifies this
      ensures State() == OnCanvasError(old(State()), message)
    {
      webglError := Some(message);
      isInitializing := false;
    }

    method HandleRetry()
      modifies this
      ensures State() == OnRetry(old(State()))
    {
      retryCount := retryCount + 1;
      webglError := None;
      isInitializing := true;
    }

    method TimeoutFires()
      modifies this
      ensures State() == OnTimeout(old(State()))
    {
      if isInitializing {
        isInitializing := false;
      }
    }

    method HandleCreated()
      modifies this
      ensures State() == OnCreated(old(State()))
    {
      isInitializing := false;
    }
  }
}
